=== FILE: README.md ===
# SSMonoNetWebLibrary networking core in Dafny

This project models the core of SSMonoNetWebLibrary, a port of Mono's `System.Net` and
`System.IO` classes. The model is built from immutable datatypes and pure functions. Every
exception the source throws is a `Failure` of one shared error type. Every call into the
operating system, the network or another class becomes a parameter.

The model covers six parts of the library:

- **`EndPointListener`** (`endpoint_listener.dfy`): how an HTTP listener end point routes a
  request to a registered prefix.
  - The exact-host table is consulted first, using the request path and its slash-terminated
    variant. It picks the longest prefix path, whatever order the hash table is walked in.
  - Then the `*` list is tried, and then the `+` list. Each list is searched with the raw
    path first, and with the slash variant only when the raw path matches nothing.
  - The model also covers prefix registration and removal, and the bookkeeping of accepted
    connections.
- **FTP control protocol** (`ftp_protocol.dfy`):
  - command lines and their ASCII encoding;
  - reading single-line and multi-line replies;
  - parsing the `227` passive reply, with the source's 32-bit `(p1 << 8) + p2` port
    arithmetic, and building the `PORT` argument;
  - extracting the initial directory;
  - log-in defaults.
- **`FtpWebRequest`** (`ftp_request.dfy`):
  - the request state machine;
  - every property setter, with its started-request and argument checks;
  - the method table and its binary search;
  - sending a command and recording its reply in the response;
  - abort, the two `Begin…` entry points, request continuation and transfer completion.
- **`FtpWebResponse`** and **`FtpDataStream`** (`ftp_response.dfy`, `ftp_data_stream.dfy`):
  - the response's status updates, closing, and access to its stream;
  - the data stream's read, write and dispose checks, and the one-time report that the
    transfer completed.
- **`HttpWebResponse`** (`http_web_response.dfy`):
  - case-insensitive header lookup;
  - Content-Length parsing;
  - the `charset=` extraction;
  - the disposed checks, and closing.
- **`SocketAsyncEventArgs`** (`socket_async_args.dfy`):
  - the buffer and buffer-list rules;
  - the in-progress flag;
  - the completion dispatcher;
  - disposal.
- **`FileStream`**, buffered and backed by a disk file (`file_stream.dfy`).
  - A stream is the file on disk, the handle's position, and one buffer window with its
    start, offset, length and dirty flag.
  - `View` is the file as a reader of the stream would see it, with pending writes laid over
    it, and `Pos` is the stream position.
  - Every operation is specified against `View` and `Pos`:
    - byte and block reads and writes;
    - segment copies, refill and flush;
    - length, position and seek, including the append-protected region;
    - exposing the handle;
    - dispose;
    - the checks the path constructor makes, in the source's order.

`Text` (`text.dfy`) holds the string and number helpers the source takes from the .NET
library:

- ordinal search;
- ASCII case folding;
- `Split`;
- `Int32.TryParse`/`Int64.TryParse` with the integer number style;
- decimal printing;
- 32-bit and 64-bit wrap-around.

`Wrappers` (`wrappers.dfy`) holds `Option`, `Result` and the error kinds.

Where the source has conditional compilation, the desktop (non-`SSHARP`) branch is modelled.

## Model

| member | source | states |
|---|---|---|
| EndPointListener.NewEndpoint | EndPointListener.cs:82-109 | a fresh end point has no prefixes, no wildcard lists and no connections, and is listening |
| EndPointListener.NewEndpointValid | EndPointListener.cs:82-109 | a fresh end point satisfies the routing-table invariant (unique wildcard paths, each list holding only its own host kind) |
| EndPointListener.PathSlash | EndPointListener.cs:247 | the slash variant of a request path begins with the path and ends in `/`, adding at most that one character |
| EndPointListener.SearchExact | EndPointListener.cs:252-273 | the exact-host pass finds nothing iff no prefix has the request's host and port and a path that prefixes the path or its slash variant; otherwise it returns a table entry with that property whose path is the longest such, whatever order the table is walked in |
| EndPointListener.ExactPassUsesSlashVariant | EndPointListener.cs:252-273 | a prefix is an exact candidate exactly when host and port agree and its path prefixes the slash-terminated request path |
| EndPointListener.MatchFromList | EndPointListener.cs:292-316 | the wildcard lookup finds nothing iff no entry's path prefixes the request path; otherwise it returns a list entry whose path prefixes it and is at least as long as every other such entry's |
| EndPointListener.MatchFromListUnique | EndPointListener.cs:292-316 | with unique paths in the list, the longest matching entry is the only entry of that length that matches |
| EndPointListener.SearchListener | EndPointListener.cs:238-290 | routing a request: no URL gives no listener, an empty path fails with an index error, an exact-host hit wins, and otherwise the `*` list and then the `+` list decide, each trying the raw path before the slash variant |
| EndPointListener.SearchDeterministic | EndPointListener.cs:238-290 | when no two exact prefixes differ only in the secure flag, the routing outcome is determined by the end point and the URL |
| EndPointListener.ExactPrefersLongestVariant | EndPointListener.cs:252-273 | a request for `/foo` on a host with prefixes `/` and `/foo/` is routed to `/foo/` through the slash variant |
| EndPointListener.WildcardPrefersRawPath | EndPointListener.cs:275-289 | a wildcard pass tries the slash variant only when the raw path matches nothing, so `/foo` is routed to `*:/` and not to `*:/foo/` |
| EndPointListener.ExactHostBeatsLongerWildcard | EndPointListener.cs:252-289 | an exact-host prefix wins over a longer strong-wildcard prefix for the same request |
| EndPointListener.EmptyEndpointRoutesNothing | EndPointListener.cs:238-290 | an end point with no prefixes left routes every request to no listener |
| EndPointListener.BindContext | EndPointListener.cs:217-228 | binding fails only on an empty request path; it reports whether a listener was found, and when one was, the context carries the listener and prefix the routing search selects, otherwise the context is unchanged |
| EndPointListener.AddSpecial | EndPointListener.cs:318-329 | adding to a wildcard list is refused with HTTP error 400 iff the path is already there; otherwise the entry is appended and paths stay unique |
| EndPointListener.AddPrefix | EndPointListener.cs:381-426 | a `*` prefix goes to the weak list and a `+` prefix to the strong list, each refused when the path is in use; any other prefix goes into the exact table, refused only when it is already bound to a different listener |
| EndPointListener.AddPrefixKeepsValid | EndPointListener.cs:381-426 | a successful registration preserves the routing-table invariant |
| EndPointListener.AddPrefixTwice | EndPointListener.cs:381-426 | registering the same exact prefix twice for the same listener is idempotent, while a wildcard prefix registered twice is refused the second time |
| EndPointListener.AddedWildcardIsFound | EndPointListener.cs:275-289 | after registering a `*` prefix, a request for exactly its path and port with no exact-host hit is routed to the new listener |
| EndPointListener.FirstWithPath | EndPointListener.cs:331-347 | the position RemoveSpecial removes is the first entry carrying the path |
| EndPointListener.RemoveSpecial | EndPointListener.cs:331-347 | removal reports whether the path was present; if so exactly the first entry with that path is dropped, otherwise the list is unchanged |
| EndPointListener.RemoveSpecialKeepsUnique | EndPointListener.cs:331-347 | removing from a list with unique paths keeps them unique, leaves the path absent, and adds no entry |
| EndPointListener.CheckIfRemove | EndPointListener.cs:349-363 | the end point asks to be deregistered iff the exact table and both wildcard lists are empty |
| EndPointListener.RemovePrefix | EndPointListener.cs:428-472 | a prefix is removed from the table or list its host kind selects, nothing else changes, and deregistration is requested iff the end point is left empty |
| EndPointListener.RemovePrefixKeepsValid | EndPointListener.cs:428-472 | removal preserves the routing-table invariant |
| EndPointListener.RemovePrefixForgetsPath | EndPointListener.cs:428-472 | after removing a wildcard prefix from a valid end point, no entry with its path remains in its list |
| EndPointListener.AddRemoveRoundTrip | EndPointListener.cs:381-472 | registering a fresh prefix and then removing it restores the end point exactly |
| EndPointListener.AppendedIsFirstWithPath | EndPointListener.cs:318-347 | an entry appended under a new path is the one RemoveSpecial finds, and removing it gives back the original list |
| EndPointListener.AdmitConnection | EndPointListener.cs:154-207 | an accepted connection is tracked unless the end point is secure without a certificate, in which case it is closed and nothing changes |
| EndPointListener.RemoveConnection | EndPointListener.cs:209-215 | exactly the given connection stops being tracked; all other state is kept |
| EndPointListener.Close | EndPointListener.cs:365-379 | closing stops listening and closes every tracked connection exactly once, leaving none tracked |
| FtpDataStream.NewDataStream | FtpDataStream.cs:40-48 | a data stream needs its request (ArgumentNull otherwise); it starts open iff it has a network stream, undisposed, with nothing read and no completion reported |
| FtpDataStream.CanRead | FtpDataStream.cs:50-58 | a data stream is readable exactly when it is not writable: a download reads and an upload writes |
| FtpDataStream.CheckBuffer | FtpDataStream.cs:137-142 | a missing buffer is ArgumentNull; otherwise the window is accepted iff offset and size are non-negative and fit in the buffer, and refused with ArgumentOutOfRange |
| FtpDataStream.BeginRead | FtpDataStream.cs:131-150 | a read is started iff the stream is undisposed, readable and the window is valid; disposal is reported before direction |
| FtpDataStream.BeginWrite | FtpDataStream.cs:197-215 | a write is started iff the stream is undisposed, writable and the window is valid; disposal is reported before direction |
| FtpDataStream.CheckIfAborted | FtpWebRequest.cs:1320-1324 | every transfer first checks the owning request: a released request is a null dereference, an aborted one is RequestCanceled |
| FtpDataStream.ReadInternalAsWritten | FtpDataStream.cs:105-129 | the read as written: on a stream whose network side is already released, a read dereferences the null stream and fails |
| FtpDataStream.ReadInternal | FtpDataStream.cs:105-129 | the corrected read: once the network side is released a read returns 0 bytes and changes nothing; on an open stream a chunk is copied into the window and an empty chunk ends the transfer |
| FtpDataStream.ReceiveChunk | FtpDataStream.cs:110-127 | a failing network read is reported as ProtocolViolation; a received chunk is copied into the window at the offset |
| FtpDataStream.Read | FtpDataStream.cs:172-179 | a successful read had a valid window and changes the buffer only inside it; while the network side is attached, the count is the delivered chunk's length, the chunk is copied at the offset, and an empty chunk detaches the network side with one notice; over the corrected `ReadInternal`, a read after that returns 0 and changes nothing; a disposed stream of a live request refuses with ObjectDisposed |
| FtpDataStream.Write | FtpDataStream.cs:183-245 | a write succeeds iff the request is live, the stream is undisposed, writable, open, the window valid and the network accepts it; then exactly the window's bytes are appended to what was sent |
| FtpDataStream.Dispose | FtpDataStream.cs:258-271 | disposal marks the stream disposed; the first disposal of an open stream closes it, releases the request and reports completion once; a second disposal changes nothing |
| FtpDataStream.DisposeIdempotent | FtpDataStream.cs:258-271 | disposing twice is the same as disposing once |
| FtpDataStream.ReadAfterDispose | FtpDataStream.cs:258-271 | after disposal, starting a read or write is refused with ObjectDisposed, and a synchronous read fails on the released request |
| FtpDataStream.StepKeepsValid | FtpDataStream.cs:105-271 | every read, write or disposal keeps the stream's invariant and never takes back a completion report |
| FtpDataStream.NotifiedAtMostOnce | FtpDataStream.cs:121-271 | along any sequence of calls the request is told the transfer completed at most once |
| FtpDataStream.ReadAfterEndAsWritten | FtpDataStream.cs:121-126 | as written, the read after the one that saw end of data fails with a null dereference |
| FtpDataStream.ReadAfterEnd | FtpDataStream.cs:121-126 | corrected, the end of data is reported once, and every later read returns 0 bytes without another report |
| FtpResponse.NewResponse | FtpWebResponse.cs:41-63 | a new response has no stream, content length -1, the minimum date and empty messages, and takes its status from the reply when there is one; it is final iff that status is 200 or above |
| FtpResponse.UpdateStatus | FtpWebResponse.cs:149-153 | only the status code and description change, to the reply's |
| FtpResponse.UpdateStatusLastWins | FtpWebResponse.cs:149-153 | of two status updates only the later one is visible |
| FtpResponse.SetStream | FtpWebResponse.cs:142-147 | only the stream changes |
| FtpResponse.Close | FtpWebResponse.cs:116-129 | closing disposes the response and closes and detaches its stream; the operation is completed only for the null stream; closing a disposed response does nothing |
| FtpResponse.CloseIdempotent | FtpWebResponse.cs:116-129 | a second close does nothing |
| FtpResponse.GetResponseStream | FtpWebResponse.cs:131-159 | with no stream the null stream is returned; with one, the stream is returned, except that a disposed response refuses with ObjectDisposed unless its method is RETR or NLST |
| FtpResponse.ClosedResponseStream | FtpWebResponse.cs:116-140 | a closed response yields the null stream; a stream attached after closing is refused unless the method is RETR or NLST |
| FtpProtocol.CommandLine | FtpWebRequest.cs:1191-1197 | a control line starts with the verb and ends with CR LF, and has no parameter text exactly when there are no parameters |
| FtpProtocol.CommandLineBody | FtpWebRequest.cs:1191-1197 | the line is the verb and the parameters joined by single spaces, followed by CR LF |
| FtpProtocol.CommandLineParses | FtpWebRequest.cs:1191-1197 | when verb and parameters hold no space or line break, splitting the line before CR LF on spaces gives back the verb and the parameters, and the first CR LF is the terminating one |
| FtpProtocol.AsciiBytes | FtpWebRequest.cs:1198 | ASCII encoding gives one byte per character (a supplementary character, a surrogate pair in .NET, is one character), copies characters below 128 and replaces the others by `?` |
| FtpProtocol.SupplementaryCharIsOneByte | FtpWebRequest.cs:1198 | a character outside the Basic Multilingual Plane after ASCII text adds exactly one `?` to the encoding |
| FtpProtocol.AsciiRoundTrip | FtpWebRequest.cs:1198 | decoding the ASCII encoding of an ASCII string gives the string back |
| FtpRequest.SendCommand | FtpWebRequest.cs:1189-1215 | the encoded command line is written; a failed write yields 421 "Write failed" without reading and leaves the request alone; no reply is read unless asked for; an awaited reply is the one the reply parser reads, consumes at least one available line, and becomes the status of the request's response when there is one |
| FtpRequest.SentReplyIsResponseStatus | FtpWebRequest.cs:1210-1213 | after an awaited command the response reports the returned status, and is final exactly when that status is 2xx or above |
| FtpProtocol.GetResponseStatus | FtpWebRequest.cs:1217-1272 | unless the server is reported unavailable (421), the reply's first line has a three-character code that parses as an integer and the description starts with that line; at least one line is consumed when any is available |
| FtpProtocol.Terminator | FtpWebRequest.cs:1248-1266 | the end of a multi-line reply is the first later line starting with the code and a space |
| FtpProtocol.SingleLineReply | FtpWebRequest.cs:1222-1272 | a `ddd text` reply consumes one line and yields that code with the line as description |
| FtpProtocol.MultiLineReply | FtpWebRequest.cs:1222-1272 | a `ddd-` reply runs up to the first `ddd ` line; the description is all those lines joined by the newline string |
| FtpProtocol.MultiLineStatus | FtpWebRequest.cs:1222-1272 | for any `ddd-` first line, the reply ends at the terminator line if there is one, and is 421 after consuming all lines if there is none |
| FtpProtocol.TruncatedMultiLineReply | FtpWebRequest.cs:1253-1263 | a multi-line reply cut off before its terminator yields 421 "Invalid response from server" |
| FtpProtocol.ReplyCodeDigits | FtpWebRequest.cs:1239-1245 | every three-digit code prints as three characters that parse back to the code |
| FtpProtocol.ZeroPaddedCode | FtpWebRequest.cs:1239-1245 | a zero-padded two-digit code such as `050` parses to the number, which prints without the zero |
| FtpProtocol.LeadingZeroCode | FtpWebRequest.cs:1247-1266 | a multi-line reply opened with a zero-padded code is terminated by the unpadded code followed by a space |
| FtpProtocol.LeadingZeroUnended | FtpWebRequest.cs:1247-1266 | a multi-line reply opened and closed with the same zero-padded code is never seen as terminated and yields 421 |
| FtpProtocol.FirstDigitFrom | FtpWebRequest.cs:891-896 | the passive-reply scan stops at the first digit at or after position 3, or at the end |
| FtpProtocol.DigitPrefixEnd | FtpWebRequest.cs:903-910 | trailing non-digits of the last field are cut after its last digit |
| FtpProtocol.PasvFields | FtpWebRequest.cs:884-910 | a well-formed passive reply yields six fields whose last one ends in a digit, and the reply has a digit after its code |
| FtpProtocol.CombinedPort | FtpWebRequest.cs:929-932 | the port computed as a 32-bit `(p1 << 8) + p2` is accepted only in 0..65535 |
| FtpProtocol.CombinedPortCases | FtpWebRequest.cs:929-932 | the 32-bit shift lets out-of-range bytes through: 16777216,21 gives port 21 and -1,300 gives 44, while byte pairs give `p1 * 256 + p2` |
| FtpProtocol.PasvPort | FtpWebRequest.cs:920-932 | a port is produced only from two fields that parse as 32-bit integers and combine to 0..65535 |
| FtpProtocol.PasvPortValue | FtpWebRequest.cs:920-932 | the port of two parsed fields is their combined 32-bit value |
| FtpProtocol.PasvPortPrinted | FtpWebRequest.cs:920-932 | two printed 32-bit integers give the port their values combine to |
| FtpProtocol.PasvPortOf | FtpWebRequest.cs:920-932 | through the printed fields, the 16777216,21 and -1,300 cases and the byte-pair case give the same ports as the combination |
| FtpProtocol.ParsePasv | FtpWebRequest.cs:884-932 | a passive reply is accepted iff it has six fields, the first four form an address and the last two a valid port; every refusal is the same WebException and every accepted port is in 0..65535 |
| FtpProtocol.ParsePasvFields | FtpWebRequest.cs:912-932 | from its six fields a passive reply yields the address of the first four and the port of the last two |
| FtpProtocol.ReplaceChar | FtpWebRequest.cs:1024 | the replacement changes exactly the occurrences of one character and keeps the length |
| FtpProtocol.PortParam | FtpWebRequest.cs:1024-1028 | the PORT argument is longer than the address and has no dot in the address part |
| FtpProtocol.PortParamFields | FtpWebRequest.cs:1024-1028 | the PORT argument is the address octets, the port's high byte and low byte, separated by commas |
| FtpProtocol.PortBytesRoundTrip | FtpWebRequest.cs:1025-1026 | splitting a port into high and low bytes gives two bytes that the passive combination turns back into the port |
| FtpProtocol.PasvPortRoundTrip | FtpWebRequest.cs:1023-1029 | the printed high and low bytes of a port parse back to that port |
| FtpProtocol.PassiveReplyFields | FtpWebRequest.cs:884-910 | a reply that carries a PORT argument between a code-prefixed lead and a digit-free tail splits into exactly the octets and the two port bytes |
| FtpProtocol.DigitFieldsReply | FtpWebRequest.cs:884-910 | any six comma-separated digit fields between such a lead and tail are recovered as the six fields |
| FtpProtocol.PassiveFields | FtpWebRequest.cs:891-910 | in such a reply the scan stops at the first field, the six-way split keeps the tail on the last field, and trimming cuts exactly the tail |
| FtpProtocol.PassiveReplyRoundTrip | FtpWebRequest.cs:884-932 | parsing a passive reply built from an address and a port gives back that address and that port |
| FtpProtocol.GetInitialPath | FtpWebRequest.cs:862-881 | the initial directory is read only from a 2xx reply longer than four characters, where a quote at position 4 needs a closing quote; the result always ends in `/`; every refusal is the same WebException |
| FtpProtocol.SlashTerminated | FtpWebRequest.cs:876-879 | a directory gets one trailing slash added when it has none |
| FtpProtocol.QuotedPathReply | FtpWebRequest.cs:862-881 | a `257 "dir" comment` reply yields the quoted directory with a trailing slash |
| FtpProtocol.QuotedPathAfter | FtpWebRequest.cs:862-881 | any four-character head before the quoted directory gives the same directory |
| FtpProtocol.InitialPathStable | FtpWebRequest.cs:862-881 | reading back a reply quoting an already slash-terminated directory gives the same directory |
| FtpProtocol.LoginFor | FtpWebRequest.cs:1121-1139 | missing credentials, user or password default to `anonymous` / `@anonymous`, and a non-empty domain is prefixed to the user name |
| FtpProtocol.LoginDomainSplits | FtpWebRequest.cs:1121-1139 | with a domain, the user name is the domain, a backslash and the user, and the first backslash separates them |
| FtpRequest.NewRequest | FtpWebRequest.cs:57-123 | a new request is in the initial state with method RETR, the 100 s and 300 s timeouts, offset 0, binary passive transfer, no SSL, no keep-alive, no credentials, no rename target and the given proxy |
| FtpRequest.SetState | FtpWebRequest.cs:339-358 | a state change succeeds iff the request is not in a final state; an aborted request refuses with RequestCanceled and a finished or failed one with InvalidOperation; only the state changes |
| FtpRequest.FinalStateAbsorbing | FtpWebRequest.cs:339-358 | once final, no sequence of state changes moves the request |
| FtpRequest.RunReachesFinal | FtpWebRequest.cs:339-358 | any sequence of state changes that asks for a final state leaves the request in a final state, with nothing but the state changed |
| FtpRequest.CheckRequestStarted | FtpWebRequest.cs:795-799 | a configuration change is allowed iff the request has not been started; otherwise InvalidOperation |
| FtpRequest.SetContentOffset | FtpWebRequest.cs:159-170 | the offset is set iff the request is unstarted and the value is non-negative; a negative value is ArgumentOutOfRange; nothing else changes |
| FtpRequest.SetCredentials | FtpWebRequest.cs:172-185 | only network credentials are accepted on an unstarted request: none is ArgumentNull, another kind is Argument; nothing else changes |
| FtpRequest.SetEnableSsl | FtpWebRequest.cs:196-204 | the SSL flag is set iff the request is unstarted; nothing else changes |
| FtpRequest.SetKeepAlive | FtpWebRequest.cs:214-222 | on an unstarted request setting keep-alive is accepted and has no effect |
| FtpRequest.SetProxy | FtpWebRequest.cs:246-254 | the proxy is set iff the request is unstarted; nothing else changes |
| FtpRequest.SetReadWriteTimeout | FtpWebRequest.cs:256-268 | the timeout is set iff the request is unstarted and the value is at least -1; smaller values are ArgumentOutOfRange |
| FtpRequest.SetRenameTo | FtpWebRequest.cs:270-281 | the rename target is set iff the request is unstarted and the name is non-empty; a missing or empty name is Argument |
| FtpRequest.SetUsePassive | FtpWebRequest.cs:293-301 | the passive flag is set iff the request is unstarted; nothing else changes |
| FtpRequest.SetUseBinary | FtpWebRequest.cs:310-318 | the binary flag is set iff the request is unstarted; nothing else changes |
| FtpRequest.SetTimeout | FtpWebRequest.cs:320-332 | the timeout is set iff the request is unstarted and the value is at least -1; smaller values are ArgumentOutOfRange |
| FtpRequest.DataType | FtpWebRequest.cs:334-337 | the TYPE argument is `I` for binary transfers and `A` otherwise |
| FtpRequest.SupportedCommandsSorted | FtpWebRequest.cs:102-117 | the table of supported methods is in strictly increasing ordinal order, as the binary search needs |
| FtpRequest.BinarySearch | FtpWebRequest.cs:230-233 | on a sorted table the search returns an index holding the key, or, when the key is absent, the complement of the position where it would be inserted |
| FtpRequest.SetMethod | FtpWebRequest.cs:224-238 | a method is set iff the request is unstarted and the name is in the supported table; a missing name is ArgumentNull, an unknown one Argument |
| FtpRequest.Abort | FtpWebRequest.cs:360-376 | aborting a request that is not final moves it to Aborted with a 426 "Aborted by request" response, sending ABOR only during a transfer; a final request is left alone |
| FtpRequest.AbortIdempotent | FtpWebRequest.cs:360-376 | a second abort does nothing and sends nothing |
| FtpRequest.AbortedRequestIsClosed | FtpWebRequest.cs:360-376 | after an abort, configuration, starting a response or a request stream, and further state changes are all refused |
| FtpRequest.BeginGetResponse | FtpWebRequest.cs:378-406 | a second pending call is InvalidOperation and an aborted request RequestCanceled; otherwise an unstarted request is scheduled, a final one completes at once, and only the state changes |
| FtpRequest.BeginGetRequestStream | FtpWebRequest.cs:439-463 | a request stream exists only for STOR, STOU and APPE (ProtocolViolation otherwise) on an unstarted request, which it schedules |
| FtpRequest.RequestStreamOnce | FtpWebRequest.cs:439-463 | a second request for the request stream is refused with InvalidOperation |
| FtpRequest.ContinueRequest | FtpWebRequest.cs:544-557 | a request that is not Scheduled and is still in progress (Connecting, Authenticating, OpeningData or TransferInProgress) reads the next reply into its response and finishes iff the reply is final (2xx or above); one that is Before or final is left alone, and one with no response is a null dereference |
| FtpRequest.ContinueRequestSettles | FtpWebRequest.cs:544-557 | once a final reply is read the request is Finished, and a further continuation reads nothing and changes nothing |
| FtpRequest.ContinueRequestAwaitsFinal | FtpWebRequest.cs:544-557 | a preliminary reply leaves the request in progress with a response that is not final |
| FtpRequest.SetTransferCompleted | FtpWebRequest.cs:964-974 | a request that is not final reads the closing reply into its response and becomes Finished; a final request is left alone |
| FtpRequest.TransferCompletedOnce | FtpWebRequest.cs:964-974 | reporting completion again after it succeeded reads nothing and changes nothing |
| HttpResponse.Header | HttpWebResponse.cs:303-308 | a header is found iff its case-folded name is in the header collection |
| HttpResponse.HeaderIgnoresCase | HttpWebResponse.cs:306 | header names that differ only in letter case find the same value |
| HttpResponse.HeaderFound | HttpWebResponse.cs:306 | a header stored under a name is found under that name with that value |
| HttpResponse.ContentLengthOf | HttpWebResponse.cs:89-104 | the content length is -1 unless the Content-Length header is present, non-empty and parses as a 64-bit integer, in which case it is that integer |
| HttpResponse.ContentLengthRoundTrip | HttpWebResponse.cs:89-104 | a response whose Content-Length header is the printed form of a non-negative 64-bit length reports that length |
| HttpResponse.NewResponse | HttpWebResponse.cs:80-117 | a new response keeps method, headers and stream, is not disposed, and its content length is the one its headers determine |
| HttpResponse.CheckDisposed | HttpWebResponse.cs:389-393 | the guard passes iff the response is not disposed, and refuses with ObjectDisposed |
| HttpResponse.ContentType | HttpWebResponse.cs:173-184 | the content type is the Content-Type header, or none, and is refused once the response is disposed |
| HttpResponse.CharacterSet | HttpWebResponse.cs:137-156 | the character set is refused once the response is disposed, is ISO-8859-1 when there is no Content-Type header, and otherwise is what `HttpResponse.CharsetOf` finds in the Content-Type: the text after the first `charset=`, found ignoring case, up to the next `;` |
| HttpResponse.CharsetOf | HttpWebResponse.cs:144-155 | with no `charset=` in the lower-cased content type the answer is ISO-8859-1; otherwise it is the original-case text after the first `charset=`, up to but not including the next `;` |
| HttpResponse.CharsetRoundTrip | HttpWebResponse.cs:144-155 | `type/sub; charset=X` followed by nothing or by `;` and more parameters yields X, in whatever case the key was written |
| HttpResponse.CharsetValue | HttpWebResponse.cs:144-155 | whatever precedes it, the value after the first `charset=` up to the next `;` is the character set |
| HttpResponse.FirstKeyAt | HttpWebResponse.cs:149-150 | when the media type has no `charset=`, the key added after `; ` is the first occurrence |
| HttpResponse.GetResponseHeader | HttpWebResponse.cs:303-308 | a header value is returned, or the empty string when the header is absent, and is refused once the response is disposed |
| HttpResponse.ContentEncoding | HttpWebResponse.cs:158-166 | the content encoding is exactly the Content-Encoding header as GetResponseHeader reads it |
| HttpResponse.GetResponseStream | HttpWebResponse.cs:325-334 | the body is refused once disposed; it is the null stream iff there is no stream or the method is HEAD in any letter case, and otherwise the response's own stream |
| HttpResponse.Close | HttpWebResponse.cs:358-367 | closing detaches and closes the stream and changes nothing else |
| HttpResponse.CloseIdempotent | HttpWebResponse.cs:358-367 | a second close closes nothing |
| HttpResponse.ClosedResponseBody | HttpWebResponse.cs:325-367 | after closing, an undisposed response yields the null stream |
| HttpResponse.Dispose | HttpWebResponse.cs:369-387 | disposal marks the response disposed and closes its stream |
| HttpResponse.DisposedResponse | HttpWebResponse.cs:381-393 | after disposal the body, any header, the content encoding, content type and character set are refused with ObjectDisposed, while the content length stays readable |
| SocketAsyncArgs.NewArgs | Sockets/SocketAsyncEventArgs.cs:140-162 | new arguments are undisposed and idle with a worker, no buffer or buffer list, an empty window, no last operation, success as error, a send size of -1 and nothing transferred |
| SocketAsyncArgs.SetBufferInternal | Sockets/SocketAsyncEventArgs.cs:230-248 | a buffer is refused with Argument while a buffer list is set, and with ArgumentOutOfRange unless offset is 0 or inside it and the count fits after the offset; a missing buffer just clears the buffer and keeps the window |
| SocketAsyncArgs.SetWindow | Sockets/SocketAsyncEventArgs.cs:220-223 | moving the window over the current buffer obeys the same bounds and never changes the buffer; with no buffer it changes nothing |
| SocketAsyncArgs.SetBufferList | Sockets/SocketAsyncEventArgs.cs:80-89 | a buffer list can be set only while no buffer is set, or cleared at any time; nothing else changes |
| SocketAsyncArgs.SetLastOperation | Sockets/SocketAsyncEventArgs.cs:201-208 | an operation starts iff the arguments are undisposed (ObjectDisposed) and idle (InvalidOperation); it is then recorded and the arguments are busy |
| SocketAsyncArgs.DispatcherCB | Sockets/SocketAsyncEventArgs.cs:254-287 | completion needs an operation in progress (InvalidOperation otherwise); the seven implemented operations are dispatched to their own callback and the arguments become idle, others are NotImplemented |
| SocketAsyncArgs.Cleared | Sockets/SocketAsyncEventArgs.cs:177-186 | disposal's clearing drops the buffer, buffer list, accept socket, remote end point, user token and send-packets elements |
| SocketAsyncArgs.DisposeAsWritten | Sockets/SocketAsyncEventArgs.cs:169-193 | as written, disposal always marks the arguments disposed |
| SocketAsyncArgs.DisposeClearsNothing | Sockets/SocketAsyncEventArgs.cs:169-199 | as written, an explicit Dispose on idle arguments only sets the flag: it keeps the worker and the buffer, because the flag it has just set makes it return early |
| SocketAsyncArgs.Dispose | Sockets/SocketAsyncEventArgs.cs:169-199 | corrected, an explicit Dispose of idle undisposed arguments releases the worker and clears all six references (accept socket, buffer, buffer list, remote end point, user token, send-packets elements) and changes nothing else, one while busy or already disposed only marks them, and finalization always clears |
| SocketAsyncArgs.DisposedRefusesOperations | Sockets/SocketAsyncEventArgs.cs:169-208 | after either disposal no operation can be started: ObjectDisposed |
| SocketAsyncArgs.SetBufferKeepsValid | Sockets/SocketAsyncEventArgs.cs:230-248 | setting a buffer keeps the invariant that buffer and buffer list are not both set and the window lies inside the buffer |
| SocketAsyncArgs.StepKeepsValid | Sockets/SocketAsyncEventArgs.cs:80-287 | every call on the arguments keeps that invariant |
| SocketAsyncArgs.AlwaysValid | Sockets/SocketAsyncEventArgs.cs:80-287 | any sequence of calls from valid arguments keeps that invariant |
| SocketAsyncArgs.DisposedStaysDisposed | Sockets/SocketAsyncEventArgs.cs:169-208 | disposed arguments stay disposed through any calls, and stay busy exactly until some completion arrives |
| SocketAsyncArgs.StepWhileDisposed | Sockets/SocketAsyncEventArgs.cs:169-287 | on disposed arguments a single call keeps them disposed, and only a completion makes them idle |
| FileStreams.View | IO/FileStream.cs:1438-1476 | the file as the stream shows it is the file on disk, overlaid with the buffered block when that block is dirty |
| FileStreams.WriteAtConcat | IO/FileStream.cs:882-918 | writing two pieces one after the other has the same effect as writing them joined |
| FileStreams.FlushBufferAsWritten | IO/FileStream.cs:1438-1476 | as written, a flush writes the dirty block back and advances the buffer start by the read offset, but leaves the handle after the whole block |
| FileStreams.FlushLosesPlace | IO/FileStream.cs:1438-1494 | as written, after reading part of a block, a flush and refill hands out the bytes after the block instead of the bytes at the stream position |
| FileStreams.FlushBuffer | IO/FileStream.cs:1438-1476 | corrected, a flush writes the dirty block back, empties the buffer, keeps the visible file and the position, and leaves the handle at the position |
| FileStreams.FlushKeepsPlace | IO/FileStream.cs:1438-1494 | corrected, a flush and refill hands out the file's bytes from the stream position on |
| FileStreams.FlushesAgreeWhenExhausted | IO/FileStream.cs:1438-1476 | when every buffered byte has been consumed, as at the refills and full-buffer flushes, the flush as written and the corrected one give the same stream |
| FileStreams.RefillBuffer | IO/FileStream.cs:1489-1494 | refilling keeps the visible file and the position and loads the next buffer-size bytes from the position |
| FileStreams.RefillEmpty | IO/FileStream.cs:1489-1494 | a refill comes back empty exactly when the position is at or past the end of the file |
| FileStreams.InitBuffer | IO/FileStream.cs:1519-1559 | a zero-size buffer is a one-byte scratch buffer; otherwise a size that is not positive is ArgumentOutOfRange and other sizes are raised to at least 8, zero-filled |
| FileStreams.ReadSegment | IO/FileStream.cs:1406-1418 | a segment read hands out the next buffered bytes, as many as asked and available, and advances the offset by that many |
| FileStreams.ReadSegmentShows | IO/FileStream.cs:1406-1418 | those bytes are the file's bytes at the stream position, and the position advances by their number |
| FileStreams.WriteSegment | IO/FileStream.cs:1420-1436 | a segment write copies as many bytes as fit into the buffer at the offset, extends the buffered length, and marks the buffer dirty iff it copied anything |
| FileStreams.WriteSegmentShows | IO/FileStream.cs:1420-1436 | the copied bytes appear in the file at the stream position, which advances by their number |
| FileStreams.ReadByte | IO/FileStream.cs:635-668 | reading a byte is refused when closed (ObjectDisposed) or not readable (NotSupported); otherwise it yields the byte at the position and advances by one, or -1 at end of file without moving |
| FileStreams.ReadByteUnbuffered | IO/FileStream.cs:650-657 | without a buffer the byte comes straight from the handle with the same outcome |
| FileStreams.ReadByteBuffered | IO/FileStream.cs:658-666 | through the buffer, with a refill when it is used up, the byte is the one at the position |
| FileStreams.TakeByte | IO/FileStream.cs:666 | a byte taken from the buffer is the file's byte at the position |
| FileStreams.WriteByte | IO/FileStream.cs:670-707 | writing a byte is refused when closed or not writable; otherwise the byte replaces or extends the file at the position, which advances by one, and without a buffer it reaches the file at once |
| FileStreams.WriteByteUnbuffered | IO/FileStream.cs:691-699 | without a buffer the byte is written to the file at the handle's place |
| FileStreams.WriteByteBuffered | IO/FileStream.cs:688-705 | through the buffer, flushing it first when full, the byte shows in the file at the position |
| FileStreams.ReadInternal | IO/FileStream.cs:746-774 | an internal read yields exactly the file's bytes from the position, as many as asked and available, and advances past them |
| FileStreams.ReadMore | IO/FileStream.cs:752-773 | the second part of a read, direct or through a refilled buffer, yields the file's next bytes |
| FileStreams.ReadDirect | IO/FileStream.cs:754-766 | a long read that bypasses the buffer yields the file's bytes at the position |
| FileStreams.ReadRefilled | IO/FileStream.cs:767-771 | a short read through a refilled buffer yields the file's bytes at the position |
| FileStreams.ReadJoin | IO/FileStream.cs:746-774 | the buffered part and the rest of a read join into the file's bytes from the position |
| FileStreams.RefillSupplies | IO/FileStream.cs:767-771 | a refilled buffer holds every byte the rest of a short read can get |
| FileStreams.Read | IO/FileStream.cs:709-743 | a read is refused when closed, with no array, when not readable, with a negative offset or count, or when the window overruns the array, in that order; otherwise it copies the file's bytes from the position into the array at the offset, returns their number and advances past them |
| FileStreams.WriteInternal | IO/FileStream.cs:882-918 | over the corrected `FlushBuffer`, an internal write puts the data into the file at the position, directly or through the buffer, and advances past it |
| FileStreams.WriteInternalAsWritten | IO/FileStream.cs:884-901 | as written, a short write is the corrected one; a write longer than the buffer on a buffered stream lands just past the buffered block, while the position advances from where it was |
| FileStreams.LongWriteMisplaced | IO/FileStream.cs:884-901 | as written, a long write after a partial read places the data after the buffered block, beyond the position, and leaves the handle past the position |
| FileStreams.WriteThroughBuffer | IO/FileStream.cs:903-917 | a short write through the buffer, flushing when full, advances by the data's length |
| FileStreams.WriteThroughBufferWrites | IO/FileStream.cs:903-917 | that write puts the data into the file at the position |
| FileStreams.BufferFilled | IO/FileStream.cs:903-917 | a segment write that copies less than asked has filled the buffer, so the loop's flush makes room |
| FileStreams.Write | IO/FileStream.cs:844-879 | a write is refused when closed, with no array, with a negative offset or count, when the window overruns the array, or when not writable, in that order; otherwise, over the corrected `FlushBuffer`, the window's bytes replace or extend the file at the position, which advances by the count |
| FileStreams.FlushIfDirty | IO/FileStream.cs:1483-1487 | flushing a dirty buffer brings the file on disk up to the visible file, changing neither it nor the position |
| FileStreams.Length | IO/FileStream.cs:509-540 | the length is refused when closed, and is the length of the file with pending writes included; over the corrected `FlushBuffer`, the stream keeps its place |
| FileStreams.LengthAsWritten | IO/FileStream.cs:526-529 | as written, the length is right and the position is kept, but a dirty buffer's write-back leaves the handle just past the old block |
| FileStreams.LengthLosesPlace | IO/FileStream.cs:526-529 | as written, asking for the length with unread bytes in a dirty block makes the next refill read after the block instead of at the position |
| FileStreams.Position | IO/FileStream.cs:543-578 | the position is refused when closed, and is the handle's place when exposed and the buffer's place otherwise |
| FileStreams.SeekTarget | IO/FileStream.cs:1038-1054 | the target is the offset from the start, from the position or from the end, computed in 64 bits; an unknown origin has none |
| FileStreams.Seek | IO/FileStream.cs:1019-1083 | a seek is refused when closed, with an unknown origin (Argument), or to a target before the start or inside the append-protected region (IOError); otherwise the position becomes the target, returned, and the file is unchanged |
| FileStreams.SetPosition | IO/FileStream.cs:579-596 | setting a negative position is ArgumentOutOfRange; otherwise it succeeds iff open and outside the append-protected region, and the position becomes the value |
| FileStreams.Flush | IO/FileStream.cs:1126-1142 | flushing is refused when closed; otherwise pending writes reach the file and the position is kept; over the corrected `FlushBuffer`, the handle is then at the position |
| FileStreams.ExposeHandle | IO/FileStream.cs:601-632 | corrected twice (the flush comes before `safeHandle` is set, and uses the corrected `FlushBuffer`), exposing the handle writes pending data back where they belong, drops the buffer, and leaves the handle at the stream position |
| FileStreams.ExposeHandleAsWritten | IO/FileStream.cs:627-632 | as written, exposing the handle of a clean stream leaves the file alone and the position at the end of the buffered block; a dirty block is written at the handle's offset, not at its own place, and the position ends past that copy |
| FileStreams.ExposeLosesPlace | IO/FileStream.cs:627-632 | as written, exposing the handle in the middle of a clean buffered block moves the position to the end of the block |
| FileStreams.ExposeMisplacesBlock | IO/FileStream.cs:627-632 | as written, exposing the handle of a dirty block whose handle is past its start writes the block a second time at the handle and moves the position past it |
| FileStreams.ExposeAfterWriteByte | IO/FileStream.cs:627-632 | as written, a byte written into a block filled by a read, followed by exposing the handle, copies the block after the refilled bytes |
| FileStreams.Dispose | IO/FileStream.cs:1300-1362 | disposal closes the stream and takes away read and write access; an open stream's pending writes reach the file first |
| FileStreams.DisposeIdempotent | IO/FileStream.cs:1300-1362 | disposing twice is the same as disposing once |
| FileStreams.DisposedRefuses | IO/FileStream.cs:1300-1362 | after disposal every byte and block read or write, the length, the position, seeking and flushing are refused with ObjectDisposed |
| FileStreams.ReadBack | IO/FileStream.cs:709-1083 | writing data, seeking back to where it started and reading as much gives the data back |
| FileStreams.SeekEndAppends | IO/FileStream.cs:1019-1083 | seeking to the end and writing appends the data to the file |
| FileStreams.AppendGuardsRegion | IO/FileStream.cs:1064-1068 | a stream opened for appending refuses to move before the original end with IOError |
| FileStreams.WithoutInheritable | IO/FileStream.cs:233-234 | the inheritable flag is removed from the share mode and the other flags are kept |
| FileStreams.OpenRefusal | IO/FileStream.cs:226-302 | opening by path is refused, in the source's order, for a null path, an empty path, a non-positive buffer size, an unknown mode, access or share, a path with invalid characters, a directory, Append with read access, a read-only open that would create, a missing folder and a missing file; no refusal iff all checks pass |
| FileStreams.ChosenBufferSize | IO/FileStream.cs:335-341 | a read-only stream with the default buffer over a file shorter than it uses a buffer of the file's length, at least 1000; otherwise the requested size |
| FileStreams.NewFileStream | IO/FileStream.cs:217-353 | opening succeeds iff every check passes and the open call succeeds; a refused check gives its own exception and a failed open the exception made of the OS error; the stream then shows the file's contents, is clean and open, and sits at 0, or for Append at the file's end, which also becomes the protected region's end |
| FileStreams.OpenedReadsFile | IO/FileStream.cs:217-353 | reading a freshly opened readable stream in full gives the file's contents |
| Text.ParseIntToString | FtpWebRequest.cs:920-926 | every integer within the parser's range, printed in decimal, parses back to itself |
| Text.ParseInteger | FtpWebRequest.cs:920-926 | an integer parse succeeds only with a value inside the requested 32-bit or 64-bit range |
| Text.IndexOf | HttpWebResponse.cs:149 | the ordinal search returns the first occurrence at or after the start, or none when there is none |
| Text.Wrap32 | FtpWebRequest.cs:929 | 32-bit wrap-around gives the value in range that is congruent modulo 2^32, and leaves in-range values alone |
| Text.Wrap64 | IO/FileStream.cs:1040-1046 | 64-bit wrap-around gives the value in range that is congruent modulo 2^64, and leaves in-range values alone |
| Text.OrdinalLessTotal | FtpWebRequest.cs:102-117 | ordinal string order, as the binary search over the method table uses it, is total on distinct strings |

## Left out

- Threads, locks and the interlocked operations are not modelled. Each call is one atomic step. Of `EndPointListener`'s compare-and-swap loops, only their final effect is kept.
- Sockets, SSL streams, certificates and key loading are out of the model. `EndPointListener.LoadCertificateAndKey` becomes a `hasIdentity` flag. The listener socket, `UnbindContext` and `EndPointManager` are also left out.
- EndPointListener.SearchExact: when two exact prefixes differ only in the secure flag, the source's winner depends on hash-table order. The contract allows either of them, and `SearchDeterministic` needs that case excluded.
- The socket I/O inside the `SocketAsyncEventArgs` callbacks is left out, and so is `OnCompleted`. The dispatcher is modelled only as far as choosing the callback and clearing the in-progress flag.
- FtpRequest.ContinueRequest: the `Scheduled` branch of `ProcessRequest` (FtpWebRequest.cs:526-543), which creates the response and runs `ProcessMethod`, is not modelled, so the member requires a request that is not `Scheduled`.
- FtpRequest.SetTransferCompleted: with no response, the source sets the state to Finished and reads a reply before the null dereference; the model reports only the `NullReference` failure and not those effects. `ProcessRequest` always creates the response before a transfer starts.
- FTP connection set-up, `ProcessMethod`, the proxy path, `EndGetResponse`/`EndGetRequestStream` and `CreateExceptionFromResponse` are not modelled: they drive sockets and threads. The control stream's lines and the network's answers are parameters.
- FtpDataStream: `Length`, `Position`, `Seek` and `SetLength` always throw `NotSupportedException`, and `Flush` does nothing. None of them carries a property worth a contract. The `ReadWriteTimeout` wait and `EndRead`/`EndWrite` are left out with the threads.
- HttpWebResponse: cookies, GZip/Deflate decompression, serialization, `LastModified`, `Server`, `ProtocolVersion` and the `contentType` cache are left out.
- HttpResponse.ContentType: the source caches the first value it reads. The model re-reads the headers each time; that is the same value, because headers never change after construction.
- FileStream: `SetLength`, `Lock`/`Unlock`, the asynchronous `Begin…`/`End…` paths and the `Task` wrappers are not modelled.
- FileStream: the non-disk handles (`canseek` false), the handle constructors, the UNC and `SSHARP` branches, and the buffer recycling in `Dispose` are also left out.
- FileStreams.NewFileStream: `MonoIO.Open`, `Directory.Exists`, `File.Exists` and `Path.GetDirectoryName` are not computed. They become the `Disk` parameter: whether the path is a directory, whether its folder is missing, whether the file exists, and what the open call returns: the file's bytes, or the exception `MonoIO.GetException` makes of the OS error, which is not computed.
- FileStreams.NewFileStream: `Path.InvalidPathChars` is a parameter. The `anonymous` and name fields, and the file options, are not modelled.
- The operating system's read and write calls are assumed to succeed and to transfer everything asked. Their error paths (`MonoIO.GetException`) are left out.
- `Char.IsDigit` and `String.ToLower` are modelled on ASCII only. Non-ASCII digits and culture-specific case rules are left out.
- EndPointListener.SearchExact: the source's `string.StartsWith(string)` compares under the current culture, where characters such as the soft hyphen are ignorable. The model compares ordinally, so it promises nothing for paths that hold ignorable characters.
- EndPointListener.MatchFromList: compares ordinally where the source's `StartsWith` is culture-sensitive, as for `SearchExact`.
- EndPointListener.SearchListener: inherits the ordinal comparison of `SearchExact` and `MatchFromList`.
- FtpRequest.BinarySearch: orders strings ordinally, where `Array.BinarySearch` uses the culture-sensitive default comparer. On the table of supported commands, which is upper-case ASCII, the two orders agree. A key with ignorable characters can compare equal under the culture and unequal here.
- FtpRequest.SetMethod: accepts exactly the table's names. The source's culture-sensitive search can also accept a name that differs from one of them only by ignorable characters, such as `RETR` followed by a soft hyphen.
- FtpProtocol.GetInitialPath: tests the trailing `/` ordinally, where the source's `EndsWith("/")` is culture-sensitive. The two differ only when the directory name ends in ignorable characters after a `/`.
- FtpProtocol.AsciiBytes: strings are sequences of Unicode scalar values. A surrogate pair is one character and encodes to one `?`, as in .NET. A lone surrogate, which .NET encodes as one `?` of its own, cannot be written in the model.
- FileStreams.WriteInternal: is stated over the corrected `FlushBuffer`. After a partial read, the source's long write lands past the buffered block, as `WriteInternalAsWritten` models and the Findings table records.
- FileStreams.Write: calls the corrected `WriteInternal`, so its long-write placement is the corrected one.
- FileStreams.Flush: calls the corrected `FlushBuffer`, so the handle ends at the position. The source leaves it just past the buffered block, as `FlushBufferAsWritten` models and the Findings table records.
- FtpDataStream.Read: calls the corrected `ReadInternal`, so a read after the end of data returns 0. The source dereferences the detached network stream there and throws `NullReferenceException`, as `ReadInternalAsWritten` models and the Findings table records.
- FileStreams.Length: is stated over the corrected `FlushBuffer`. The source loses its place as `LengthAsWritten` models and the Findings table records.

## Findings

| source | as written | input that shows it | evidently intended | confidence | as-written member | corrected member |
|---|---|---|---|---|---|---|
| FtpDataStream.cs:105-129 | when the network read returns 0, `networkStream` is set to null but the stream stays usable; `FtpDataStream.ReadAfterEndAsWritten` shows the next read failing | a download read twice after the server has sent everything: the first read returns 0, the second calls `Read` on the null `networkStream` and throws `NullReferenceException` | every read after the end of data returns 0 and completion is reported once, as `FtpDataStream.ReadAfterEnd` proves | not executed | FtpDataStream.ReadInternalAsWritten | FtpDataStream.ReadInternal |
| IO/FileStream.cs:1438-1476 | `FlushBuffer` advances `buf_start` by `buf_offset` but leaves the OS handle where the last refill left it, at `buf_start + buf_length`, and the next `RefillBuffer` reads from there. `FileStreams.FlushLosesPlace` shows it for `Flush`. `FileStreams.LengthLosesPlace` shows it for `Length`, whose `FlushBufferIfDirty` uses it. `FileStreams.LongWriteMisplaced` shows the long path of `WriteInternal` writing there. `FileStreams.ExposeLosesPlace` shows exposing the handle moving `Position` there | a 10-byte file opened read-write with the default buffer, then `ReadByte`, `Flush`, `ReadByte`: the first call buffers all 10 bytes and returns byte 0; the flush leaves the position at 1 and the handle at 10; the second call refills from 10 and returns -1 instead of byte 1. With `Length` in place of `Flush` after a `WriteByte`, the same happens. A 10-byte read-write file with the default buffer, then `ReadByte` and a 5000-byte `Write`, gets the data at offset 10 instead of 1 | after a flush the handle is at the stream position, so later reads and the exposed handle continue from there, as `FileStreams.FlushKeepsPlace`, and the contracts of `FileStreams.Length`, `FileStreams.WriteInternal` and `FileStreams.ExposeHandle`, state | not executed | FileStreams.FlushBufferAsWritten | FileStreams.FlushBuffer |
| IO/FileStream.cs:627-632 | `ExposeHandle` sets `safeHandle` before it calls `FlushBuffer`, whose seek to `buf_start` runs only while `safeHandle` is null, so a dirty block is written at the handle's offset; `FileStreams.ExposeMisplacesBlock` and `FileStreams.ExposeAfterWriteByte` show it | a 4-byte file `[1,2,3,4]` opened read-write with an 8-byte buffer, then `ReadByte`, `WriteByte(9)`, `SafeFileHandle`: the read leaves the handle at 4, the flush writes the block `[1,9,3,4]` there, and the file becomes `[1,2,3,4,1,9,3,4]` with `Position` 8 instead of `[1,9,3,4]` with `Position` 2 | pending writes land where they were made and the handle ends at the stream position, as the contract of `FileStreams.ExposeHandle` states | not executed | FileStreams.ExposeHandleAsWritten | FileStreams.ExposeHandle |
| Sockets/SocketAsyncEventArgs.cs:169-193 | `disposed = true` is assigned before the test that returns early when the arguments are already disposed or busy, so an explicit `Dispose()` always returns early; `SocketAsyncArgs.DisposeClearsNothing` shows it | `new SocketAsyncEventArgs()`, `SetBuffer(b, 0, 1)`, `Dispose()`: the worker is never disposed and the buffer stays referenced | an explicit dispose of idle arguments releases the worker and clears the buffer, buffer list, token and sockets, while one during an operation only marks them disposed, as the contract of `SocketAsyncArgs.Dispose` states | not executed | SocketAsyncArgs.DisposeAsWritten | SocketAsyncArgs.Dispose |

=== FILE: endpoint_listener.dfy ===
/**
  The HTTP listener endpoint: one bound (address, port) shared by many
  application listeners through URL-prefix registration.

  An endpoint holds three routing tables:
  - `prefixes`, the exact-host table, a map from prefix to listener;
  - `unhandled`, the ordered list of `"*"` prefixes (hosts nobody else claims);
  - `all`, the ordered list of `"+"` prefixes (every host).
  Every copy-on-write retry loop of the source is one atomic replacement of a
  whole table here. A wildcard list that was never created (null in the source)
  behaves exactly like an empty one, so it is an empty sequence.

  `HttpListener` and `HttpConnection` objects are opaque identities. The URL a
  request targets is given already split into host, port and percent-decoded
  path (`Uri` and `HttpUtility.UrlDecode` are not part of this model).
 */
module EndPointListener {
  import opened Wrappers
  import opened Text

  /** Identity of an application `HttpListener`. */
  type ListenerId = nat

  /** Identity of an accepted `HttpConnection`. */
  type ConnectionId = nat

  /** A registered URL prefix `scheme://host:port/path`; the scheme only sets `secure`. */
  datatype Prefix = Prefix(secure: bool, host: string, port: int, path: string)

  /** An entry of a wildcard list: the prefix and the listener `AddPrefix` stored on it. */
  datatype Entry = Entry(prefix: Prefix, listener: ListenerId)

  datatype Endpoint = Endpoint(
    prefixes: map<Prefix, ListenerId>,
    unhandled: seq<Entry>,
    all: seq<Entry>,
    secure: bool,
    hasIdentity: bool,            // a certificate and a private key were loaded
    listening: bool,              // the listening socket is open
    connections: set<ConnectionId>)

  /** The target of a request: `Uri.Host`, `Uri.Port` and the decoded `AbsolutePath`. */
  datatype RequestUrl = RequestUrl(host: string, port: int, path: string)

  /** The listener a request resolved to, and the prefix that matched. */
  datatype Match = Match(listener: ListenerId, prefix: Prefix)

  /** A freshly constructed endpoint: no prefixes, no connections, socket listening. */
  function NewEndpoint(secure: bool, hasIdentity: bool): (ep: Endpoint)
    ensures Empty(ep) && ep.connections == {} && ep.listening
  {
    Endpoint(map[], [], [], secure, secure && hasIdentity, true, {})
  }

  // ---------------------------------------------------------------------
  // Lookup

  /** The path with a trailing slash appended unless it already ends in one. */
  function PathSlash(path: string): (r: string)
    requires |path| > 0
    ensures StartsWith(r, path) && r[|r| - 1] == '/'
    ensures r == path || r == path + "/"
  {
    if path[|path| - 1] == '/' then path else path + "/"
  }

  /** An exact-table key that the request can resolve to (before length comparison). */
  predicate ExactCandidate(p: Prefix, url: RequestUrl)
    requires |url.path| > 0
  {
    p.host == url.host && p.port == url.port
    && (StartsWith(url.path, p.path) || StartsWith(PathSlash(url.path), p.path))
  }

  /** Some exact-table key is a candidate, and the exact pass runs at all (non-empty host). */
  predicate ExactHit(table: map<Prefix, ListenerId>, url: RequestUrl)
    requires |url.path| > 0
  {
    url.host != "" && exists p :: p in table && ExactCandidate(p, url)
  }

  /**
    The exact-host pass of `SearchListener`. The `Hashtable` enumeration order
    is unspecified, so each step takes an arbitrary key not yet seen; a key
    replaces the current best when its path is at least as long.
   */
  method SearchExact(table: map<Prefix, ListenerId>, url: RequestUrl) returns (r: Option<Match>)
    requires |url.path| > 0
    ensures r.None? <==> forall p :: p in table ==> !ExactCandidate(p, url)
    ensures r.Some? ==> r.value.prefix in table && table[r.value.prefix] == r.value.listener
    ensures r.Some? ==> ExactCandidate(r.value.prefix, url)
    ensures r.Some? ==> forall p :: p in table && ExactCandidate(p, url) ==> |p.path| <= |r.value.prefix.path|
  {
    var slash := PathSlash(url.path);
    var remaining := table.Keys;
    r := None;
    while remaining != {}
      invariant remaining <= table.Keys
      invariant r.None? ==> forall p :: p in table && p !in remaining ==> !ExactCandidate(p, url)
      invariant r.Some? ==> r.value.prefix in table && table[r.value.prefix] == r.value.listener
      invariant r.Some? ==> ExactCandidate(r.value.prefix, url)
      invariant r.Some? ==> forall p :: p in table && p !in remaining && ExactCandidate(p, url) ==> |p.path| <= |r.value.prefix.path|
      decreases remaining
    {
      var p :| p in remaining;
      remaining := remaining - {p};
      var bestLength := if r.Some? then |r.value.prefix.path| else -1;
      if |p.path| < bestLength {
        continue;
      }
      if p.host != url.host || p.port != url.port {
        continue;
      }
      if StartsWith(url.path, p.path) || StartsWith(slash, p.path) {
        r := Some(Match(table[p], p));
      }
    }
  }

  /**
    `MatchFromList`: scans the list in order and keeps the entry whose path is
    a prefix of `path`; an entry replaces the current best when its path is at
    least as long.
   */
  function MatchFromList(path: string, list: seq<Entry>): (r: Option<Entry>)
    ensures r.None? <==> forall i :: 0 <= i < |list| ==> !StartsWith(path, list[i].prefix.path)
    ensures r.Some? ==> r.value in list && StartsWith(path, r.value.prefix.path)
    ensures r.Some? ==> forall i :: 0 <= i < |list| && StartsWith(path, list[i].prefix.path)
                          ==> |list[i].prefix.path| <= |r.value.prefix.path|
    decreases |list|
  {
    if |list| == 0 then None
    else
      var best := MatchFromList(path, list[..|list| - 1]);
      var e := list[|list| - 1];
      if (best.None? || |e.prefix.path| >= |best.value.prefix.path|) && StartsWith(path, e.prefix.path)
      then Some(e)
      else best
  }

  /** The paths of a wildcard list are pairwise different (kept by `AddSpecial`). */
  predicate UniquePaths(list: seq<Entry>) {
    forall i, j :: 0 <= i < j < |list| ==> list[i].prefix.path != list[j].prefix.path
  }

  /** One wildcard pass: the raw path first, the slash variant only if the raw path matched nothing. */
  function WildcardPass(path: string, list: seq<Entry>): Option<Entry>
    requires |path| > 0
  {
    var raw := MatchFromList(path, list);
    if path != PathSlash(path) && raw.None? then MatchFromList(PathSlash(path), list) else raw
  }

  function ToMatch(e: Option<Entry>): Option<Match> {
    if e.Some? then Some(Match(e.value.listener, e.value.prefix)) else None
  }

  /** The `"*"` list, then the `"+"` list. */
  function WildcardResult(ep: Endpoint, path: string): Option<Match>
    requires |path| > 0
  {
    var u := WildcardPass(path, ep.unhandled);
    if u.Some? then ToMatch(u) else ToMatch(WildcardPass(path, ep.all))
  }

  /**
    What `SearchListener` promises: a null URL yields null; an empty decoded
    path makes `path[path.Length - 1]` throw; an exact-table candidate wins
    with a longest path; otherwise the wildcard lists decide.
   */
  ghost predicate SearchSpec(ep: Endpoint, url: Option<RequestUrl>, r: Result<Option<Match>>) {
    if url.None? then r == Success(None)
    else if |url.value.path| == 0 then r == Failure(IndexOutOfRange)
    else if ExactHit(ep.prefixes, url.value) then
      && r.Success? && r.value.Some?
      && r.value.value.prefix in ep.prefixes
      && ep.prefixes[r.value.value.prefix] == r.value.value.listener
      && ExactCandidate(r.value.value.prefix, url.value)
      && forall p :: p in ep.prefixes && ExactCandidate(p, url.value) ==> |p.path| <= |r.value.value.prefix.path|
    else r == Success(WildcardResult(ep, url.value.path))
  }

  /** `SearchListener`: resolve a request URL to a listener and the prefix that matched. */
  method SearchListener(ep: Endpoint, url: Option<RequestUrl>) returns (r: Result<Option<Match>>)
    ensures SearchSpec(ep, url, r)
  {
    if url.None? {
      return Success(None);
    }
    var u := url.value;
    if |u.path| == 0 {
      return Failure(IndexOutOfRange);
    }
    if u.host != "" {
      var exact := SearchExact(ep.prefixes, u);
      if exact.Some? {
        return Success(exact);
      }
    }
    return Success(WildcardResult(ep, u.path));
  }

  /** The request context as far as binding is concerned. */
  datatype Context = Context(url: Option<RequestUrl>, listener: Option<ListenerId>, prefix: Option<Prefix>)

  /**
    `BindContext`: on a match, the context records the listener and the
    connection records the prefix, and the result is true; otherwise the
    context is untouched and the result is false.
   */
  method BindContext(ep: Endpoint, ctx: Context) returns (r: Result<(bool, Context)>)
    ensures r.Failure? <==> ctx.url.Some? && |ctx.url.value.path| == 0
    ensures r.Success? && !r.value.0 ==> r.value.1 == ctx
    ensures r.Success? && r.value.0 ==>
              r.value.1.url == ctx.url && r.value.1.listener.Some? && r.value.1.prefix.Some?
              && SearchSpec(ep, ctx.url, Success(Some(Match(r.value.1.listener.value, r.value.1.prefix.value))))
    ensures r.Success? && !r.value.0 ==> SearchSpec(ep, ctx.url, Success(None))
  {
    var found := SearchListener(ep, ctx.url);
    if found.Failure? {
      return Failure(found.error);
    }
    if found.value.None? {
      return Success((false, ctx));
    }
    var m := found.value.value;
    return Success((true, ctx.(listener := Some(m.listener), prefix := Some(m.prefix))));
  }

  // ---------------------------------------------------------------------
  // Registration

  /** Some entry of the list has this path. */
  predicate PathInUse(list: seq<Entry>, path: string) {
    exists i :: 0 <= i < |list| && list[i].prefix.path == path
  }

  /** `AddSpecial`: append, unless an entry with an equal path exists (whatever its listener). */
  function AddSpecial(list: seq<Entry>, e: Entry): (r: Result<seq<Entry>>)
    ensures r.Failure? <==> PathInUse(list, e.prefix.path)
    ensures r.Failure? ==> r.error == HttpListenerError(400)
    ensures r.Success? ==> r.value == list + [e]
    ensures UniquePaths(list) && r.Success? ==> UniquePaths(r.value)
  {
    if PathInUse(list, e.prefix.path) then Failure(HttpListenerError(400)) else Success(list + [e])
  }

  /** `AddPrefix`: register `prefix` for `listener` in the table its host selects. */
  function AddPrefix(ep: Endpoint, prefix: Prefix, listener: ListenerId): (r: Result<Endpoint>)
    ensures prefix.host == "*" ==>
      && (r.Failure? <==> PathInUse(ep.unhandled, prefix.path))
      && (r.Success? ==> r.value == ep.(unhandled := ep.unhandled + [Entry(prefix, listener)]))
    ensures prefix.host == "+" ==>
      && (r.Failure? <==> PathInUse(ep.all, prefix.path))
      && (r.Success? ==> r.value == ep.(all := ep.all + [Entry(prefix, listener)]))
    ensures prefix.host != "*" && prefix.host != "+" ==>
      && (r.Failure? <==> prefix in ep.prefixes && ep.prefixes[prefix] != listener)
      && (r.Success? ==> r.value == ep.(prefixes := ep.prefixes[prefix := listener]))
    ensures r.Failure? ==> r.error == HttpListenerError(400)
  {
    if prefix.host == "*" then
      var list :- AddSpecial(ep.unhandled, Entry(prefix, listener));
      Success(ep.(unhandled := list))
    else if prefix.host == "+" then
      var list :- AddSpecial(ep.all, Entry(prefix, listener));
      Success(ep.(all := list))
    else if prefix in ep.prefixes then
      if ep.prefixes[prefix] != listener then Failure(HttpListenerError(400)) else Success(ep)
    else
      Success(ep.(prefixes := ep.prefixes[prefix := listener]))
  }

  /** The index of the first entry with this path. */
  function FirstWithPath(list: seq<Entry>, path: string): (i: nat)
    requires PathInUse(list, path)
    ensures i < |list| && list[i].prefix.path == path
    ensures forall k :: 0 <= k < i ==> list[k].prefix.path != path
    decreases |list|
  {
    if list[0].prefix.path == path then 0
    else
      assert PathInUse(list[1..], path) by {
        var j :| 0 <= j < |list| && list[j].prefix.path == path;
        assert list[1..][j - 1] == list[j];
      }
      1 + FirstWithPath(list[1..], path)
  }

  /** `RemoveSpecial`: drop the first entry whose path equals `path`; false when there is none. */
  function RemoveSpecial(list: seq<Entry>, path: string): (r: (bool, seq<Entry>))
    ensures r.0 <==> PathInUse(list, path)
    ensures !r.0 ==> r.1 == list
    ensures r.0 ==> var i := FirstWithPath(list, path); r.1 == list[..i] + list[i + 1..]
    ensures r.0 ==> |r.1| == |list| - 1
  {
    if PathInUse(list, path) then
      var i := FirstWithPath(list, path);
      (true, list[..i] + list[i + 1..])
    else (false, list)
  }

  /** No table holds any prefix. */
  predicate Empty(ep: Endpoint) {
    ep.prefixes == map[] && ep.unhandled == [] && ep.all == []
  }

  /** `CheckIfRemove`: the endpoint asks to be removed exactly when every table is empty. */
  function CheckIfRemove(ep: Endpoint): (deregister: bool)
    ensures deregister <==> |ep.prefixes| == 0 && |ep.unhandled| == 0 && |ep.all| == 0
  {
    !(|ep.prefixes| > 0 || |ep.unhandled| > 0 || |ep.all| > 0)
  }

  /** The endpoint after a removal, and whether it then asked the manager to remove it. */
  datatype Removal = Removal(endpoint: Endpoint, deregister: bool)

  /**
    `RemovePrefix`: drop `prefix` from the table its host selects. The listener
    argument is not consulted. `CheckIfRemove` runs whether or not anything was
    removed.
   */
  function RemovePrefix(ep: Endpoint, prefix: Prefix, listener: ListenerId): (r: Removal)
    ensures prefix.host == "*" ==>
      r.endpoint == ep.(unhandled := RemoveSpecial(ep.unhandled, prefix.path).1)
    ensures prefix.host == "+" ==>
      r.endpoint == ep.(all := RemoveSpecial(ep.all, prefix.path).1)
    ensures prefix.host != "*" && prefix.host != "+" ==>
      r.endpoint == ep.(prefixes := ep.prefixes - {prefix})
    ensures r.deregister <==> Empty(r.endpoint)
  {
    var next :=
      if prefix.host == "*" then ep.(unhandled := RemoveSpecial(ep.unhandled, prefix.path).1)
      else if prefix.host == "+" then ep.(all := RemoveSpecial(ep.all, prefix.path).1)
      else ep.(prefixes := ep.prefixes - {prefix});
    Removal(next, CheckIfRemove(next))
  }

  // ---------------------------------------------------------------------
  // Connections

  /**
    The admission step of `OnAccept`: a secure endpoint without a certificate
    and key closes the accepted socket; otherwise the connection joins the set.
   */
  function AdmitConnection(ep: Endpoint, c: ConnectionId): (r: (bool, Endpoint))
    ensures r.0 <==> !ep.secure || ep.hasIdentity
    ensures r.0 ==> r.1 == ep.(connections := ep.connections + {c})
    ensures !r.0 ==> r.1 == ep
  {
    if ep.secure && !ep.hasIdentity then (false, ep)
    else (true, ep.(connections := ep.connections + {c}))
  }

  /** `RemoveConnection`: forget one connection; nothing else changes. */
  function RemoveConnection(ep: Endpoint, c: ConnectionId): (r: Endpoint)
    ensures c !in r.connections
    ensures forall d :: d != c ==> (d in r.connections <==> d in ep.connections)
    ensures r == ep.(connections := r.connections)
  {
    ep.(connections := ep.connections - {c})
  }

  /**
    `Close`: close the socket, snapshot the connection set, force-close every
    connection of the snapshot (each of which removes itself again through
    `RemoveConnection`), then clear the set. `closed` lists the `Close(true)`
    calls in the order they were made.
   */
  method Close(ep: Endpoint) returns (closed: seq<ConnectionId>, r: Endpoint)
    ensures forall i, j :: 0 <= i < j < |closed| ==> closed[i] != closed[j]
    ensures forall c :: c in closed <==> c in ep.connections
    ensures |closed| == |ep.connections|
    ensures r == ep.(listening := false, connections := {})
  {
    var live := ep.(listening := false);
    var snapshot := ep.connections;
    var pending := snapshot;
    closed := [];
    while pending != {}
      invariant pending <= snapshot
      invariant forall c :: c in closed <==> c in snapshot - pending
      invariant forall i, j :: 0 <= i < j < |closed| ==> closed[i] != closed[j]
      invariant |closed| + |pending| == |snapshot|
      invariant live == ep.(listening := false, connections := live.connections)
      decreases pending
    {
      var c :| c in pending;
      assert c !in closed;
      pending := pending - {c};
      closed := closed + [c];
      live := RemoveConnection(live, c);
    }
    r := live.(connections := {});
  }

  // ---------------------------------------------------------------------
  // Properties

  /**
    The table invariant: each wildcard list holds only its own host kind and
    pairwise different paths, and the exact table holds no wildcard host.
   */
  predicate Valid(ep: Endpoint) {
    && UniquePaths(ep.unhandled) && UniquePaths(ep.all)
    && (forall i :: 0 <= i < |ep.unhandled| ==> ep.unhandled[i].prefix.host == "*")
    && (forall i :: 0 <= i < |ep.all| ==> ep.all[i].prefix.host == "+")
    && (forall p :: p in ep.prefixes ==> p.host != "*" && p.host != "+")
  }

  lemma NewEndpointValid(secure: bool, hasIdentity: bool)
    ensures Valid(NewEndpoint(secure, hasIdentity))
  {
  }

  lemma {:induction false} RemoveSpecialKeepsUnique(list: seq<Entry>, path: string)
    requires UniquePaths(list)
    ensures UniquePaths(RemoveSpecial(list, path).1)
    ensures !PathInUse(RemoveSpecial(list, path).1, path)
    ensures forall k :: 0 <= k < |RemoveSpecial(list, path).1| ==> RemoveSpecial(list, path).1[k] in list
  {
    if PathInUse(list, path) {
      var i := FirstWithPath(list, path);
      var rest := list[..i] + list[i + 1..];
      assert forall k :: 0 <= k < |rest| ==> rest[k] == if k < i then list[k] else list[k + 1];
    }
  }

  /** Registration and removal keep the table invariant. */
  lemma AddPrefixKeepsValid(ep: Endpoint, prefix: Prefix, listener: ListenerId)
    requires Valid(ep)
    ensures AddPrefix(ep, prefix, listener).Success? ==> Valid(AddPrefix(ep, prefix, listener).value)
  {
  }

  lemma RemovePrefixKeepsValid(ep: Endpoint, prefix: Prefix, listener: ListenerId)
    requires Valid(ep)
    ensures Valid(RemovePrefix(ep, prefix, listener).endpoint)
  {
    RemoveSpecialKeepsUnique(ep.unhandled, prefix.path);
    RemoveSpecialKeepsUnique(ep.all, prefix.path);
  }

  /** Removing a wildcard prefix leaves no entry with its path in that list. */
  lemma RemovePrefixForgetsPath(ep: Endpoint, prefix: Prefix, listener: ListenerId)
    requires Valid(ep)
    requires prefix.host == "*" || prefix.host == "+"
    ensures var next := RemovePrefix(ep, prefix, listener).endpoint;
            !PathInUse(if prefix.host == "*" then next.unhandled else next.all, prefix.path)
  {
    RemoveSpecialKeepsUnique(ep.unhandled, prefix.path);
    RemoveSpecialKeepsUnique(ep.all, prefix.path);
  }

  /** Adding a prefix nobody holds and removing it again restores the endpoint exactly. */
  lemma AddRemoveRoundTrip(ep: Endpoint, prefix: Prefix, listener: ListenerId, other: ListenerId)
    requires prefix.host == "*" ==> !PathInUse(ep.unhandled, prefix.path)
    requires prefix.host == "+" ==> !PathInUse(ep.all, prefix.path)
    requires prefix.host != "*" && prefix.host != "+" ==> prefix !in ep.prefixes
    ensures AddPrefix(ep, prefix, listener).Success?
    ensures RemovePrefix(AddPrefix(ep, prefix, listener).value, prefix, other).endpoint == ep
  {
    var added := AddPrefix(ep, prefix, listener).value;
    if prefix.host == "*" {
      AppendedIsFirstWithPath(ep.unhandled, Entry(prefix, listener));
    } else if prefix.host == "+" {
      AppendedIsFirstWithPath(ep.all, Entry(prefix, listener));
    } else {
      assert added.prefixes - {prefix} == ep.prefixes;
    }
  }

  lemma AppendedIsFirstWithPath(list: seq<Entry>, e: Entry)
    requires !PathInUse(list, e.prefix.path)
    ensures PathInUse(list + [e], e.prefix.path)
    ensures FirstWithPath(list + [e], e.prefix.path) == |list|
    ensures RemoveSpecial(list + [e], e.prefix.path).1 == list
  {
    var l := list + [e];
    assert l[|list|].prefix.path == e.prefix.path;
    assert forall k :: 0 <= k < |list| ==> l[k] == list[k];
    assert l[..|list|] == list;
  }

  /**
    Re-registering an exact prefix for its own listener changes nothing; a
    wildcard prefix, however, cannot be registered twice even for the same
    listener.
   */
  lemma AddPrefixTwice(ep: Endpoint, prefix: Prefix, listener: ListenerId)
    requires AddPrefix(ep, prefix, listener).Success?
    ensures prefix.host != "*" && prefix.host != "+" ==>
      AddPrefix(AddPrefix(ep, prefix, listener).value, prefix, listener) == AddPrefix(ep, prefix, listener)
    ensures prefix.host == "*" || prefix.host == "+" ==>
      AddPrefix(AddPrefix(ep, prefix, listener).value, prefix, listener) == Failure(HttpListenerError(400))
  {
    var added := AddPrefix(ep, prefix, listener).value;
    if prefix.host == "*" {
      assert added.unhandled[|added.unhandled| - 1].prefix.path == prefix.path;
    } else if prefix.host == "+" {
      assert added.all[|added.all| - 1].prefix.path == prefix.path;
    }
  }

  /** With unique paths, the entry `MatchFromList` picks is the only matching entry of its length. */
  lemma MatchFromListUnique(path: string, list: seq<Entry>, i: nat)
    requires UniquePaths(list)
    requires MatchFromList(path, list).Some?
    requires i < |list| && StartsWith(path, list[i].prefix.path)
    requires |list[i].prefix.path| == |MatchFromList(path, list).value.prefix.path|
    ensures list[i] == MatchFromList(path, list).value
  {
    var e := MatchFromList(path, list).value;
    var k :| 0 <= k < |list| && list[k] == e;
    assert list[i].prefix.path == path[..|e.prefix.path|] == list[k].prefix.path;
  }

  /** The exact pass tests both path variants, which is the same as testing the slash variant alone. */
  lemma ExactPassUsesSlashVariant(url: RequestUrl, p: Prefix)
    requires |url.path| > 0
    ensures ExactCandidate(p, url) <==>
              p.host == url.host && p.port == url.port && StartsWith(PathSlash(url.path), p.path)
  {
    var slash := PathSlash(url.path);
    if StartsWith(url.path, p.path) {
      assert slash[..|p.path|] == url.path[..|p.path|];
    }
  }

  /**
    The raw-path-first rule of the wildcard lists: with `/` and `/foo/`
    registered under `"*"`, a request for `/foo` resolves to `/`, although
    `/foo/` would match the slash variant with a longer path.
   */
  lemma WildcardPrefersRawPath(a: ListenerId, b: ListenerId)
    ensures var root := Prefix(false, "*", 80, "/");
            var foo := Prefix(false, "*", 80, "/foo/");
            var ep := Endpoint(map[], [Entry(root, a), Entry(foo, b)], [], false, false, true, {});
            WildcardResult(ep, "/foo") == Some(Match(a, root))
  {
    var root := Prefix(false, "*", 80, "/");
    var foo := Prefix(false, "*", 80, "/foo/");
    assert StartsWith("/foo", "/");
    assert !StartsWith("/foo", "/foo/");
    var list := [Entry(root, a), Entry(foo, b)];
    assert list[..1] == [Entry(root, a)];
    assert [Entry(root, a)][..0] == [];
    assert MatchFromList("/foo", [Entry(root, a)]) == Some(Entry(root, a));
    assert MatchFromList("/foo", list) == Some(Entry(root, a));
  }

  /**
    The same two paths under an exact host: the exact pass tests the slash
    variant in the same scan, so a request for `/foo` resolves to `/foo/`.
   */
  lemma ExactPrefersLongestVariant(a: ListenerId, b: ListenerId, r: Result<Option<Match>>)
    requires var ep := Endpoint(map[Prefix(false, "h", 80, "/") := a, Prefix(false, "h", 80, "/foo/") := b],
                                [], [], false, false, true, {});
             SearchSpec(ep, Some(RequestUrl("h", 80, "/foo")), r)
    ensures r == Success(Some(Match(b, Prefix(false, "h", 80, "/foo/"))))
  {
    var root := Prefix(false, "h", 80, "/");
    var foo := Prefix(false, "h", 80, "/foo/");
    var url := RequestUrl("h", 80, "/foo");
    assert PathSlash("/foo") == "/foo/";
    assert ExactCandidate(foo, url);
    assert root != foo;
  }

  /**
    An exact-host registration wins over a longer `"+"` registration:
    `example.com` with `/a/` against `+` with `/a/bcdefg/`.
   */
  lemma ExactHostBeatsLongerWildcard(a: ListenerId, b: ListenerId, r: Result<Option<Match>>)
    requires var ep := Endpoint(map[Prefix(false, "example.com", 80, "/a/") := a],
                                [], [Entry(Prefix(false, "+", 80, "/a/bcdefg/"), b)], false, false, true, {});
             SearchSpec(ep, Some(RequestUrl("example.com", 80, "/a/bcdefg/")), r)
    ensures r == Success(Some(Match(a, Prefix(false, "example.com", 80, "/a/"))))
  {
    var p := Prefix(false, "example.com", 80, "/a/");
    var url := RequestUrl("example.com", 80, "/a/bcdefg/");
    assert StartsWith("/a/bcdefg/", "/a/");
    assert ExactCandidate(p, url);
  }

  /**
    The only freedom the unspecified `Hashtable` order leaves: when no two
    exact keys share host, port and path (differing only by scheme), every
    result `SearchListener` may produce is the same.
   */
  lemma SearchDeterministic(ep: Endpoint, url: Option<RequestUrl>, r1: Result<Option<Match>>, r2: Result<Option<Match>>)
    requires forall p, q :: (p in ep.prefixes && q in ep.prefixes && p.host == q.host && p.port == q.port
                             && p.path == q.path) ==> p == q
    requires SearchSpec(ep, url, r1) && SearchSpec(ep, url, r2)
    ensures r1 == r2
  {
    if url.Some? && |url.value.path| > 0 && ExactHit(ep.prefixes, url.value) {
      var u := url.value;
      var p := r1.value.value.prefix;
      var q := r2.value.value.prefix;
      ExactPassUsesSlashVariant(u, p);
      ExactPassUsesSlashVariant(u, q);
      var slash := PathSlash(u.path);
      assert |p.path| == |q.path|;
      assert p.path == slash[..|p.path|] == q.path;
    }
  }

  /** An endpoint whose tables are all empty (the moment it deregisters) routes nothing. */
  lemma EmptyEndpointRoutesNothing(ep: Endpoint, url: RequestUrl, r: Result<Option<Match>>)
    requires CheckIfRemove(ep)
    requires |url.path| > 0
    requires SearchSpec(ep, Some(url), r)
    ensures r == Success(None)
  {
  }

  /**
    A `"*"` prefix just registered answers a request for exactly its path and
    port when no exact-host key claims the request.
   */
  lemma AddedWildcardIsFound(ep: Endpoint, prefix: Prefix, listener: ListenerId, host: string, r: Result<Option<Match>>)
    requires Valid(ep)
    requires prefix.host == "*" && |prefix.path| > 0
    requires AddPrefix(ep, prefix, listener).Success?
    requires var url := RequestUrl(host, prefix.port, prefix.path);
             !ExactHit(ep.prefixes, url)
             && SearchSpec(AddPrefix(ep, prefix, listener).value, Some(url), r)
    ensures r == Success(Some(Match(listener, prefix)))
  {
    var next := AddPrefix(ep, prefix, listener).value;
    AddPrefixKeepsValid(ep, prefix, listener);
    var list := next.unhandled;
    var i := |list| - 1;
    assert list[i] == Entry(prefix, listener);
    assert StartsWith(prefix.path, prefix.path);
    var m := MatchFromList(prefix.path, list);
    assert m.Some?;
    assert |m.value.prefix.path| == |prefix.path| by {
      assert StartsWith(prefix.path, m.value.prefix.path);
    }
    MatchFromListUnique(prefix.path, list, i);
  }
}

=== FILE: file_stream.dfy ===
/**
  `FileStream` over a disk file, on the buffered path: one buffer that
  caches a window of the file (`buf_start`, `buf_offset`, `buf_length`,
  `buf_size`, `buf_dirty`), flushed to the file before the stream moves
  elsewhere.

  The file is a byte sequence and the operating system's handle is reduced
  to its file offset; an OS read of a disk file delivers every byte asked
  for that exists, and an OS write writes everything (zero-filling a gap
  when it starts past the end). The stream is specified by what its user
  sees: `View`, the file with unflushed buffer bytes laid over it, and
  `Pos`, the `Position` property.
 */
module FileStreams {
  import opened Wrappers
  import Text

  const DefaultBufferSize: int := 4096

  // FileMode
  const CreateNew: int := 1
  const Create: int := 2
  const Open: int := 3
  const OpenOrCreate: int := 4
  const Truncate: int := 5
  const Append: int := 6

  // FileAccess
  const ReadAccess: int := 1
  const WriteAccess: int := 2
  const ReadWriteAccess: int := 3

  // FileShare: the `Inheritable` flag, and `ReadWrite | Delete`
  const ShareInheritable: int := 16
  const ShareAll: int := 7

  // SeekOrigin
  const SeekBegin: int := 0
  const SeekCurrent: int := 1
  const SeekEnd: int := 2

  function Min(a: int, b: int): int {
    if a <= b then a else b
  }

  function Max(a: int, b: int): int {
    if a <= b then b else a
  }

  function Zeros(n: nat): (z: seq<byte>)
    ensures |z| == n && forall i :: 0 <= i < n ==> z[i] == 0
  {
    seq(n, _ => 0)
  }

  /** The bytes an OS read of `count` bytes at `pos` delivers from a disk file. */
  function Slice(f: seq<byte>, pos: nat, count: nat): (d: seq<byte>)
    ensures |d| == (if pos < |f| then Min(count, |f| - pos) else 0)
  {
    if pos >= |f| then [] else f[pos..Min(pos + count, |f|)]
  }

  /** Each byte read is the file's byte at that place. */
  lemma SliceAt(f: seq<byte>, pos: nat, count: nat, i: nat)
    requires i < |Slice(f, pos, count)|
    ensures pos + i < |f| && Slice(f, pos, count)[i] == f[pos + i]
  {
  }

  /**
    The file after an OS write of `data` at `pos`: a write of nothing changes
    nothing; otherwise the file grows as needed, zero-filled before `pos`.
   */
  function WriteAt(f: seq<byte>, pos: nat, data: seq<byte>): (r: seq<byte>)
    ensures |data| == 0 ==> r == f
    ensures |data| > 0 ==> |r| == Max(|f|, pos + |data|)
  {
    if |data| == 0 then f
    else if pos <= |f| then f[..pos] + data + (if pos + |data| < |f| then f[pos + |data|..] else [])
    else f + Zeros(pos - |f|) + data
  }

  /** Each byte after a write: the data where it was written, the old file elsewhere, zeros in a gap. */
  lemma WriteAtAt(f: seq<byte>, pos: nat, data: seq<byte>, i: nat)
    requires |data| > 0 && i < |WriteAt(f, pos, data)|
    ensures WriteAt(f, pos, data)[i] ==
              (if pos <= i < pos + |data| then data[i - pos] else if i < |f| then f[i] else 0)
  {
  }

  /** Two writes back to back are one write of both. */
  lemma WriteAtConcat(f: seq<byte>, pos: nat, x: seq<byte>, y: seq<byte>)
    ensures WriteAt(WriteAt(f, pos, x), pos + |x|, y) == WriteAt(f, pos, x + y)
  {
    if |x| > 0 && |y| > 0 {
      var lhs := WriteAt(WriteAt(f, pos, x), pos + |x|, y);
      var rhs := WriteAt(f, pos, x + y);
      assert |lhs| == |rhs|;
      forall i | 0 <= i < |lhs|
        ensures lhs[i] == rhs[i]
      {
      }
    } else if |x| == 0 {
      assert x + y == y;
    } else {
      assert x + y == x;
    }
  }

  datatype FileStream = FileStream(
    file: seq<byte>,        // the file on disk
    osPos: nat,             // the handle's file offset
    access: int,            // FileAccess; 0 once disposed
    closed: bool,           // the handle is `InvalidHandle`
    exposed: bool,          // the handle was handed out (`safeHandle` set)
    buf: seq<byte>,
    bufSize: nat,           // capacity in use
    bufLength: nat,         // valid bytes in the buffer
    bufOffset: nat,         // position of the next byte in the buffer
    bufStart: nat,          // file offset of the buffer
    dirty: bool,            // the buffer holds bytes not yet written
    appendStart: nat)       // start of the appendable region

  /**
    The buffer bookkeeping's invariant. The buffer window is well formed;
    an exposed stream does not buffer; a clean buffer holds the file's bytes
    at `buf_start` and the file offset sits just past them.
   */
  predicate Coherent(s: FileStream) {
    && 1 <= |s.buf| && s.bufSize <= |s.buf|
    && s.bufOffset <= s.bufLength <= s.bufSize
    && (s.exposed <==> s.bufSize == 0)
    && (s.dirty ==> s.bufLength > 0)
    && (!s.exposed && !s.dirty ==>
          && s.osPos == s.bufStart + s.bufLength
          && s.buf[..s.bufLength] == Slice(s.file, s.bufStart, s.bufLength))
  }

  /** A stream whose bookkeeping is coherent: every operation keeps it so. */
  type Stream = s: FileStream | Coherent(s)
    witness FileStream([], 0, ReadAccess, false, true, [0], 0, 0, 0, 0, false, 0)

  /** What a reader of the stream sees: the file with the unflushed buffer laid over it. */
  function View(s: FileStream): (v: seq<byte>)
    requires s.bufLength <= |s.buf|
    ensures !s.dirty ==> v == s.file
  {
    if s.dirty then WriteAt(s.file, s.bufStart, s.buf[..s.bufLength]) else s.file
  }

  /** `Position`: the handle's offset once exposed, else the place in the buffer. */
  function Pos(s: FileStream): nat {
    if s.exposed then s.osPos else s.bufStart + s.bufOffset
  }

  /** The valid part of the buffer is what the stream shows at `buf_start`. */
  lemma BufferShown(s: Stream, i: nat)
    requires !s.exposed && i < s.bufLength
    ensures s.bufStart + i < |View(s)| && View(s)[s.bufStart + i] == s.buf[i]
  {
    assert s.buf[..s.bufLength][i] == s.buf[i];
    if !s.dirty {
      SliceAt(s.file, s.bufStart, s.bufLength, i);
    }
  }

  /**
    The write `FlushBuffer` makes of a dirty buffer: after a seek to
    `buf_start`, or, once `safeHandle` is set and the seek is skipped,
    wherever the handle is.
   */
  function WriteBack(s: FileStream): (r: FileStream)
    requires s.dirty && s.bufLength <= |s.buf|
    ensures !s.exposed ==> r.file == View(s) && r.osPos == s.bufStart + s.bufLength
    ensures s.exposed ==> r.file == WriteAt(s.file, s.osPos, s.buf[..s.bufLength]) && r.osPos == s.osPos + s.bufLength
    ensures r == s.(file := r.file, osPos := r.osPos)
  {
    var at := if s.exposed then s.osPos else s.bufStart;
    s.(file := WriteAt(s.file, at, s.buf[..s.bufLength]), osPos := at + s.bufLength)
  }

  /**
    `FlushBuffer` as written, on any buffer bookkeeping: a dirty buffer is
    written back, then the buffer moves to the current place in it and is
    emptied. The handle's offset is left where the write-back or the last
    read put it.
   */
  function FlushBlock(s: FileStream): (r: FileStream)
    requires s.bufLength <= |s.buf|
    ensures r.bufOffset == 0 && r.bufLength == 0 && !r.dirty && r.bufStart == s.bufStart + s.bufOffset
    ensures r.exposed == s.exposed && r.buf == s.buf && r.bufSize == s.bufSize
  {
    var written := if s.dirty then WriteBack(s) else s;
    written.(bufStart := s.bufStart + s.bufOffset, bufOffset := 0, bufLength := 0, dirty := false)
  }

  /**
    `FlushBuffer` as written: writes a dirty buffer back, then moves the
    buffer to the current position and empties it. The handle's offset is
    left where the write-back or the last read put it, just past the old
    buffer.
   */
  function FlushBufferAsWritten(s: Stream): (r: FileStream)
    ensures r.file == View(s) && Pos(r) == Pos(s) && !r.dirty
    ensures r.bufOffset == 0 && r.bufLength == 0 && r.bufStart == s.bufStart + s.bufOffset
    ensures !s.exposed ==> r.osPos == s.bufStart + s.bufLength
  {
    FlushBlock(s)
  }

  /**
    `FlushBuffer` as intended: as written, and then the handle's offset is
    moved to the new `buf_start`, so that the next OS read or write happens
    at `Position`.
   */
  function FlushBuffer(s: Stream): (r: Stream)
    ensures !r.dirty && r.bufOffset == 0 && r.bufLength == 0
    ensures r.bufStart == s.bufStart + s.bufOffset
    ensures r.file == View(s) && View(r) == View(s) && Pos(r) == Pos(s)
    ensures !r.exposed ==> r.osPos == Pos(s)
    ensures r.(file := s.file, osPos := s.osPos, bufStart := s.bufStart, bufOffset := s.bufOffset,
               bufLength := s.bufLength, dirty := s.dirty) == s
  {
    var r := FlushBufferAsWritten(s);
    if s.exposed then r else r.(osPos := r.bufStart)
  }

  /**
    `FlushBuffer` as written loses the stream's place: after flushing a
    buffer that has unread bytes, the refill the next read does fetches the
    bytes after the old buffer rather than those at `Position`.
   */
  lemma FlushLosesPlace(s: Stream)
    requires !s.exposed && s.bufOffset < s.bufLength
    ensures var t := Refill(FlushBufferAsWritten(s));
            && Pos(t) == Pos(s)
            && t.buf[..t.bufLength] == Slice(View(s), s.bufStart + s.bufLength, s.bufSize)
            && Pos(s) < s.bufStart + s.bufLength
  {
  }

  /** The corrected `FlushBuffer` refills from `Position`. */
  lemma FlushKeepsPlace(s: Stream)
    requires !s.exposed
    ensures var t := Refill(FlushBuffer(s));
            && Pos(t) == Pos(s)
            && t.buf[..t.bufLength] == Slice(View(s), Pos(s), s.bufSize)
  {
  }

  /**
    Where every byte of the buffer has been consumed, as at the refills and
    the full-buffer flushes of the read and write paths, the flush as
    written and the corrected one agree.
   */
  lemma FlushesAgreeWhenExhausted(s: Stream)
    requires s.bufOffset == s.bufLength
    ensures FlushBufferAsWritten(s) == FlushBuffer(s)
  {
  }

  /** The OS read that refills the buffer: up to `buf_size` bytes at the handle's offset. */
  function Refill(s: FileStream): (r: FileStream)
    requires s.bufSize <= |s.buf| && s.bufOffset == 0
    ensures r == s.(buf := r.buf, bufLength := r.bufLength, osPos := s.osPos + r.bufLength)
    ensures r.bufLength <= r.bufSize && |r.buf| == |s.buf|
    ensures r.buf[..r.bufLength] == Slice(s.file, s.osPos, s.bufSize)
  {
    var k := Slice(s.file, s.osPos, s.bufSize);
    s.(buf := k + s.buf[|k|..], bufLength := |k|, osPos := s.osPos + |k|)
  }

  /** `RefillBuffer`: flush, then read a buffer's worth at `Position`. */
  function RefillBuffer(s: Stream): (r: Stream)
    ensures View(r) == View(s) && Pos(r) == Pos(s) && r.bufOffset == 0
    ensures !s.exposed ==> r.buf[..r.bufLength] == Slice(View(s), Pos(s), s.bufSize)
    ensures r.(file := s.file, osPos := s.osPos, buf := s.buf, bufStart := s.bufStart, bufOffset := s.bufOffset,
               bufLength := s.bufLength, dirty := s.dirty) == s
  {
    var t := FlushBuffer(s);
    var r := Refill(t);
    assert forall i :: 0 <= i < r.bufLength ==> r.buf[i] == r.buf[..r.bufLength][i];
    r
  }

  /** A buffer: its capacity in use and its bytes. */
  datatype Buffer = Buffer(size: nat, bytes: seq<byte>)

  /**
    `InitBuffer`: a one-byte scratch buffer of capacity 0 for an unbuffered
    stream; otherwise a positive size is required and at least 8 bytes are
    used.
   */
  function InitBuffer(size: int, isZeroSize: bool): (r: Result<Buffer>)
    ensures isZeroSize ==> r == Success(Buffer(0, [0]))
    ensures !isZeroSize ==> (r.Success? <==> size > 0)
    ensures r.Failure? ==> r.error == ArgumentOutOfRange
    ensures !isZeroSize && r.Success? ==> r.value.size == Max(size, 8) && r.value.bytes == Zeros(Max(size, 8))
  {
    if isZeroSize then Success(Buffer(0, [0]))
    else if size <= 0 then Failure(ArgumentOutOfRange)
    else Success(Buffer(Max(size, 8), Zeros(Max(size, 8))))
  }

  /** The stream and the bytes a read produced. */
  datatype Got = Got(stream: Stream, bytes: seq<byte>)

  /**
    `ReadSegment`: takes up to `count` unread bytes from the buffer and
    moves past them.
   */
  function ReadSegment(s: Stream, count: nat): (g: Got)
    ensures |g.bytes| == Min(count, s.bufLength - s.bufOffset)
    ensures g.bytes == s.buf[s.bufOffset..s.bufOffset + |g.bytes|]
    ensures g.stream == s.(bufOffset := s.bufOffset + |g.bytes|)
  {
    var n := Min(count, s.bufLength - s.bufOffset);
    Got(s.(bufOffset := s.bufOffset + n), s.buf[s.bufOffset..s.bufOffset + n])
  }

  /** Reading from the buffer reads what the stream shows at `Position`, and moves it. */
  lemma ReadSegmentShows(s: Stream, count: nat)
    ensures var g := ReadSegment(s, count);
            && View(g.stream) == View(s)
            && g.bytes == Slice(View(s), Pos(s), |g.bytes|)
            && Pos(g.stream) == Pos(s) + |g.bytes|
  {
    var n := |ReadSegment(s, count).bytes|;
    if n > 0 {
      BufferSlice(s, n);
    }
  }

  /** The next `n` bytes of the buffer are the `n` bytes the stream shows at `Position`. */
  lemma BufferSlice(s: Stream, n: nat)
    requires 0 < n && s.bufOffset + n <= s.bufLength
    ensures s.buf[s.bufOffset..s.bufOffset + n] == Slice(View(s), Pos(s), n)
  {
    var block := s.buf[..s.bufLength];
    ViewOverBuffer(s);
    SliceOfWrite(s.file, s.bufStart, block, s.bufOffset, n);
    var x, y := s.buf[s.bufOffset..s.bufOffset + n], block[s.bufOffset..s.bufOffset + n];
    forall i | 0 <= i < n
      ensures x[i] == y[i]
    {
      assert block[s.bufOffset + i] == s.buf[s.bufOffset + i];
    }
    assert x == y;
  }

  /** Reading inside what was just written reads the written bytes. */
  lemma SliceOfWrite(f: seq<byte>, pos: nat, data: seq<byte>, offset: nat, count: nat)
    requires offset + count <= |data| && |data| > 0
    ensures Slice(WriteAt(f, pos, data), pos + offset, count) == data[offset..offset + count]
  {
    var w := WriteAt(f, pos, data);
    var lhs := Slice(w, pos + offset, count);
    assert |lhs| == count;
    forall i | 0 <= i < count
      ensures lhs[i] == data[offset + i]
    {
      SliceAt(w, pos + offset, count, i);
      WriteAtAt(f, pos, data, pos + offset + i);
    }
  }

  /** The stream and the number of bytes a write took. */
  datatype Put = Put(stream: Stream, count: nat)

  /**
    `WriteSegment`: copies as many bytes as fit between `buf_offset` and
    `buf_size`, moves past them, extends `buf_length` to cover them, and
    marks the buffer dirty if anything was copied.
   */
  function WriteSegment(s: Stream, data: seq<byte>): (p: Put)
    ensures p.count == Min(|data|, s.bufSize - s.bufOffset)
    ensures p.stream.buf == CopyInto(s.buf, s.bufOffset, data[..p.count])
    ensures p.stream.bufOffset == s.bufOffset + p.count
    ensures p.stream.bufLength == Max(s.bufLength, s.bufOffset + p.count)
    ensures p.stream.dirty == (s.dirty || p.count > 0)
    ensures p.stream == s.(buf := p.stream.buf, bufOffset := p.stream.bufOffset,
                           bufLength := p.stream.bufLength, dirty := p.stream.dirty)
  {
    var n := Min(|data|, s.bufSize - s.bufOffset);
    if n > 0 then
      var o := s.bufOffset + n;
      Put(s.(buf := CopyInto(s.buf, s.bufOffset, data[..n]), bufOffset := o,
             bufLength := Max(s.bufLength, o), dirty := true), n)
    else
      assert data[..n] == [] && CopyInto(s.buf, s.bufOffset, []) == s.buf;
      Put(s, 0)
  }

  /** Writing into the buffer writes at `Position` what the stream shows, and moves it. */
  lemma WriteSegmentShows(s: Stream, data: seq<byte>)
    ensures var p := WriteSegment(s, data);
            && View(p.stream) == WriteAt(View(s), Pos(s), data[..p.count])
            && Pos(p.stream) == Pos(s) + p.count
  {
    var p := WriteSegment(s, data);
    if p.count > 0 {
      var d := data[..p.count];
      CopyIntoPrefix(s.buf, s.bufOffset, d, s.bufLength);
      WrittenOver(s, p.stream, d);
    }
  }

  /**
    A dirty buffer at the same place whose valid bytes are the old ones
    with `d` written at `buf_offset` shows the old view with `d` written at
    `Position`.
   */
  lemma WrittenOver(s: Stream, u: Stream, d: seq<byte>)
    requires !s.exposed && |d| > 0
    requires u.file == s.file && u.bufStart == s.bufStart && u.dirty
    requires u.buf[..u.bufLength] == WriteAt(s.buf[..s.bufLength], s.bufOffset, d)
    ensures View(u) == WriteAt(View(s), Pos(s), d)
  {
    assert View(u) == WriteAt(s.file, s.bufStart, WriteAt(s.buf[..s.bufLength], s.bufOffset, d));
    if s.bufLength == 0 {
      WrittenIntoEmpty(s, d);
    } else {
      WrittenIntoBlock(s, d);
    }
  }

  lemma WrittenIntoEmpty(s: Stream, d: seq<byte>)
    requires !s.exposed && |d| > 0 && s.bufLength == 0
    ensures WriteAt(s.file, s.bufStart, WriteAt(s.buf[..s.bufLength], s.bufOffset, d)) == WriteAt(View(s), Pos(s), d)
  {
    assert s.buf[..s.bufLength] == [] && s.bufOffset == 0 && View(s) == s.file;
    assert WriteAt([], 0, d) == d;
  }

  lemma WrittenIntoBlock(s: Stream, d: seq<byte>)
    requires !s.exposed && |d| > 0 && s.bufLength > 0
    ensures WriteAt(s.file, s.bufStart, WriteAt(s.buf[..s.bufLength], s.bufOffset, d)) == WriteAt(View(s), Pos(s), d)
  {
    ViewOverBuffer(s);
    WriteAtNested(s.file, s.bufStart, s.buf[..s.bufLength], s.bufOffset, d);
  }

  /** A stream with bytes in its buffer shows the file with those bytes written over it, dirty or not. */
  lemma ViewOverBuffer(s: Stream)
    requires s.bufLength > 0
    ensures View(s) == WriteAt(s.file, s.bufStart, s.buf[..s.bufLength])
  {
    if !s.dirty {
      assert s.buf[..s.bufLength] == s.file[s.bufStart..s.bufStart + s.bufLength];
      WriteAtSame(s.file, s.bufStart, s.bufLength);
    }
  }

  /** The buffer's valid bytes after a copy into it at `offset`, no further than `length`. */
  lemma CopyIntoPrefix(buffer: seq<byte>, offset: nat, chunk: seq<byte>, length: nat)
    requires offset <= length <= |buffer| && offset + |chunk| <= |buffer| && |chunk| > 0
    ensures CopyInto(buffer, offset, chunk)[..Max(length, offset + |chunk|)] == WriteAt(buffer[..length], offset, chunk)
  {
    var lhs := CopyInto(buffer, offset, chunk)[..Max(length, offset + |chunk|)];
    var rhs := WriteAt(buffer[..length], offset, chunk);
    assert |lhs| == |rhs|;
    forall i | 0 <= i < |lhs|
      ensures lhs[i] == rhs[i]
    {
      WriteAtAt(buffer[..length], offset, chunk, i);
      var c := CopyInto(buffer, offset, chunk);
      if i < offset {
        assert c[..offset][i] == buffer[..offset][i];
      } else if i < offset + |chunk| {
        assert c[offset..offset + |chunk|][i - offset] == chunk[i - offset];
      } else {
        assert c[offset + |chunk|..][i - offset - |chunk|] == buffer[offset + |chunk|..][i - offset - |chunk|];
      }
    }
  }

  /** Writing back the bytes a file already has changes nothing. */
  lemma WriteAtSame(f: seq<byte>, pos: nat, count: nat)
    requires pos + count <= |f|
    ensures WriteAt(f, pos, f[pos..pos + count]) == f
  {
    if count > 0 {
      assert f[..pos] + f[pos..pos + count] + f[pos + count..] == f;
    }
  }

  /** A write into a block before it is written is a second write after it. */
  lemma WriteAtNested(f: seq<byte>, pos: nat, block: seq<byte>, offset: nat, data: seq<byte>)
    requires offset <= |block| && |block| > 0 && |data| > 0
    ensures WriteAt(f, pos, WriteAt(block, offset, data)) == WriteAt(WriteAt(f, pos, block), pos + offset, data)
  {
    var inner := WriteAt(block, offset, data);
    var lhs := WriteAt(f, pos, inner);
    var rhs := WriteAt(WriteAt(f, pos, block), pos + offset, data);
    assert |lhs| == |rhs|;
    forall i | 0 <= i < |lhs|
      ensures lhs[i] == rhs[i]
    {
      WriteAtAt(f, pos, inner, i);
      WriteAtAt(WriteAt(f, pos, block), pos + offset, data, i);
      if pos <= i < pos + |inner| {
        WriteAtAt(block, offset, data, i - pos);
      }
      if i < |WriteAt(f, pos, block)| {
        WriteAtAt(f, pos, block, i);
      }
    }
  }

  /** Reading back what was just written gives it back. */
  lemma SliceWriteAt(f: seq<byte>, pos: nat, data: seq<byte>)
    ensures Slice(WriteAt(f, pos, data), pos, |data|) == data
  {
    var w := WriteAt(f, pos, data);
    if |data| > 0 {
      assert Slice(w, pos, |data|) == w[pos..pos + |data|];
    }
  }

  /** Two reads back to back are one read of both. */
  lemma SliceConcat(f: seq<byte>, pos: nat, a: nat, b: nat)
    requires a == 0 || b == 0 || pos + a <= |f|
    ensures Slice(f, pos, a) + Slice(f, pos + a, b) == Slice(f, pos, a + b)
  {
    var lhs := Slice(f, pos, a) + Slice(f, pos + a, b);
    var rhs := Slice(f, pos, a + b);
    assert |lhs| == |rhs|;
    forall i | 0 <= i < |lhs|
      ensures lhs[i] == rhs[i]
    {
      if i < |Slice(f, pos, a)| {
        assert lhs[i] == Slice(f, pos, a)[i];
      } else {
        assert lhs[i] == Slice(f, pos + a, b)[i - |Slice(f, pos, a)|];
      }
    }
  }

  /** A read that stops at the end of the file delivers the same bytes as a longer one. */
  lemma SliceToEnd(f: seq<byte>, pos: nat, a: nat, b: nat)
    requires a <= b && (a == b || pos + a >= |f|)
    ensures Slice(f, pos, a) == Slice(f, pos, b)
  {
  }

  predicate CanRead(s: FileStream) {
    s.access == ReadAccess || s.access == ReadWriteAccess
  }

  predicate CanWrite(s: FileStream) {
    s.access == WriteAccess || s.access == ReadWriteAccess
  }

  /** The settings the buffer bookkeeping leaves alone. */
  predicate SameSettings(r: FileStream, s: FileStream) {
    r.(file := s.file, osPos := s.osPos, buf := s.buf, bufLength := s.bufLength,
       bufOffset := s.bufOffset, bufStart := s.bufStart, dirty := s.dirty) == s
  }

  /** The stream and the value `ReadByte` returned. */
  datatype ByteRead = ByteRead(stream: Stream, value: int)

  /**
    `ReadByte`: the byte at `Position`, moving past it, or -1 at the end of
    the data. An unbuffered stream reads one byte from the handle; a buffered
    one refills its buffer once it is used up.
   */
  function ReadByte(s: Stream): (r: Result<ByteRead>)
    ensures r.Success? <==> !s.closed && CanRead(s)
    ensures s.closed ==> r == Failure(ObjectDisposed)
    ensures !s.closed && !CanRead(s) ==> r == Failure(NotSupported)
    ensures r.Success? ==>
              && SameSettings(r.value.stream, s)
              && View(r.value.stream) == View(s)
              && r.value.value == (if Pos(s) < |View(s)| then View(s)[Pos(s)] as int else -1)
              && Pos(r.value.stream) == Pos(s) + (if r.value.value < 0 then 0 else 1)
  {
    if s.closed then Failure(ObjectDisposed)
    else if !CanRead(s) then Failure(NotSupported)
    else if s.bufSize == 0 then Success(ReadByteUnbuffered(s))
    else Success(ReadByteBuffered(s))
  }

  /** The unbuffered `ReadByte`: one byte straight from the handle. */
  function ReadByteUnbuffered(s: Stream): (r: ByteRead)
    requires s.exposed
    ensures SameSettings(r.stream, s) && View(r.stream) == View(s)
    ensures r.value == (if Pos(s) < |View(s)| then View(s)[Pos(s)] as int else -1)
    ensures Pos(r.stream) == Pos(s) + (if r.value < 0 then 0 else 1)
  {
    var k := Slice(s.file, s.osPos, 1);
    if |k| == 0 then ByteRead(s, -1)
    else ByteRead(s.(buf := s.buf[0 := k[0]], osPos := s.osPos + 1), k[0] as int)
  }

  /** The buffered `ReadByte`: the next byte of the buffer, refilled first when used up. */
  function ReadByteBuffered(s: Stream): (r: ByteRead)
    requires !s.exposed
    ensures SameSettings(r.stream, s) && View(r.stream) == View(s)
    ensures r.value == (if Pos(s) < |View(s)| then View(s)[Pos(s)] as int else -1)
    ensures Pos(r.stream) == Pos(s) + (if r.value < 0 then 0 else 1)
  {
    var t := if s.bufOffset < s.bufLength then s else RefillBuffer(s);
    if t.bufOffset == t.bufLength then
      RefillEmpty(s);
      ByteRead(t, -1)
    else TakeByte(t)
  }

  /** `buf[buf_offset++]`: the byte at `Position`, taken from the buffer. */
  function TakeByte(s: Stream): (r: ByteRead)
    requires s.bufOffset < s.bufLength
    ensures SameSettings(r.stream, s) && View(r.stream) == View(s)
    ensures Pos(s) < |View(s)| && r.value == View(s)[Pos(s)] as int
    ensures Pos(r.stream) == Pos(s) + 1
  {
    BufferShown(s, s.bufOffset);
    ByteRead(s.(bufOffset := s.bufOffset + 1), s.buf[s.bufOffset] as int)
  }

  /** A refill finds nothing exactly at the end of the data. */
  lemma RefillEmpty(s: Stream)
    requires !s.exposed
    ensures RefillBuffer(s).bufLength == 0 <==> Pos(s) >= |View(s)|
  {
    var t := RefillBuffer(s);
    assert |t.buf[..t.bufLength]| == t.bufLength;
  }

  /**
    `WriteByte`: writes the byte at `Position` and moves past it. A full
    buffer is flushed first; an unbuffered stream writes the byte through to
    the handle at once.
   */
  function WriteByte(s: Stream, value: byte): (r: Result<Stream>)
    ensures r.Success? <==> !s.closed && CanWrite(s)
    ensures s.closed ==> r == Failure(ObjectDisposed)
    ensures !s.closed && !CanWrite(s) ==> r == Failure(NotSupported)
    ensures r.Success? ==>
              && SameSettings(r.value, s)
              && View(r.value) == WriteAt(View(s), Pos(s), [value])
              && Pos(r.value) == Pos(s) + 1
    ensures r.Success? && s.bufSize == 0 ==> r.value.file == WriteAt(s.file, s.osPos, [value])
  {
    if s.closed then Failure(ObjectDisposed)
    else if !CanWrite(s) then Failure(NotSupported)
    else if s.bufSize == 0 then Success(WriteByteUnbuffered(s, value))
    else Success(WriteByteBuffered(s, value))
  }

  /** The unbuffered `WriteByte`: the byte goes through the scratch buffer to the handle at once. */
  function WriteByteUnbuffered(s: Stream, value: byte): (r: Stream)
    requires s.exposed
    ensures SameSettings(r, s) && r.file == WriteAt(s.file, s.osPos, [value])
    ensures View(r) == WriteAt(View(s), Pos(s), [value]) && Pos(r) == Pos(s) + 1
  {
    s.(buf := s.buf[0 := value], file := WriteAt(s.file, s.osPos, [value]), osPos := s.osPos + 1)
  }

  /**
    The buffered `WriteByte`: a full buffer is flushed, then the byte is
    stored at `buf_offset`, which is a one-byte `WriteSegment`.
   */
  function WriteByteBuffered(s: Stream, value: byte): (r: Stream)
    requires !s.exposed
    ensures SameSettings(r, s)
    ensures View(r) == WriteAt(View(s), Pos(s), [value]) && Pos(r) == Pos(s) + 1
  {
    var t := if s.bufOffset == s.bufSize then FlushBuffer(s) else s;
    WriteSegmentShows(t, [value]);
    assert [value][..1] == [value];
    WriteSegment(t, [value]).stream
  }

  /**
    `ReadInternal`: the unread bytes of the buffer, then, if more are
    wanted, either a direct read from the handle (more than a buffer's
    worth) or a refilled buffer. Delivers every byte asked for up to the end
    of the data.
   */
  function ReadInternal(s: Stream, count: nat): (g: Got)
    ensures SameSettings(g.stream, s) && View(g.stream) == View(s)
    ensures g.bytes == Slice(View(s), Pos(s), count)
    ensures Pos(g.stream) == Pos(s) + |g.bytes|
  {
    var first := ReadSegment(s, count);
    var rest := count - |first.bytes|;
    var second := if rest == 0 then Got(first.stream, []) else ReadMore(first.stream, rest);
    ReadJoin(s, count, second.bytes);
    Got(second.stream, first.bytes + second.bytes)
  }

  /** What the buffer gives, followed by what is read at the place it leaves, is what was asked for. */
  lemma ReadJoin(s: Stream, count: nat, more: seq<byte>)
    requires var first := ReadSegment(s, count);
             more == Slice(View(first.stream), Pos(first.stream), count - |first.bytes|)
    ensures var first := ReadSegment(s, count);
            && View(first.stream) == View(s) && Pos(first.stream) == Pos(s) + |first.bytes|
            && first.bytes + more == Slice(View(s), Pos(s), count)
  {
    var first := ReadSegment(s, count);
    ReadSegmentShows(s, count);
    var n := |first.bytes|;
    if n > 0 {
      BufferShown(s, s.bufOffset + n - 1);
    }
    SliceJoin(View(s), Pos(s), n, count, first.bytes, more);
  }

  lemma SliceJoin(v: seq<byte>, pos: nat, n: nat, count: nat, x: seq<byte>, y: seq<byte>)
    requires n <= count && (n == 0 || pos + n <= |v|)
    requires x == Slice(v, pos, n) && y == Slice(v, pos + n, count - n)
    ensures x + y == Slice(v, pos, count)
  {
    SliceConcat(v, pos, n, count - n);
  }

  /** What `ReadInternal` reads once the buffer is used up. */
  function ReadMore(t: Stream, rest: nat): (g: Got)
    ensures SameSettings(g.stream, t) && View(g.stream) == View(t)
    ensures g.bytes == Slice(View(t), Pos(t), rest)
    ensures Pos(g.stream) == Pos(t) + |g.bytes|
  {
    if rest > t.bufSize then ReadDirect(t, rest) else ReadRefilled(t, rest)
  }

  /** The read of more than a buffer's worth: a flush, then straight from the handle. */
  function ReadDirect(t: Stream, rest: nat): (g: Got)
    ensures SameSettings(g.stream, t) && View(g.stream) == View(t)
    ensures g.bytes == Slice(View(t), Pos(t), rest)
    ensures Pos(g.stream) == Pos(t) + |g.bytes|
  {
    var u := FlushBuffer(t);
    var d := Slice(u.file, u.osPos, rest);
    Got(u.(osPos := u.osPos + |d|, bufStart := u.bufStart + |d|), d)
  }

  /** The read of at most a buffer's worth once the buffer is used up: refill, then copy. */
  function ReadRefilled(t: Stream, rest: nat): (g: Got)
    requires rest <= t.bufSize
    ensures SameSettings(g.stream, t) && View(g.stream) == View(t)
    ensures g.bytes == Slice(View(t), Pos(t), rest)
    ensures Pos(g.stream) == Pos(t) + |g.bytes|
  {
    var u := RefillBuffer(t);
    var second := ReadSegment(u, rest);
    ReadSegmentShows(u, rest);
    RefillSupplies(t, rest);
    second
  }

  /** A refilled buffer holds all of a read that fits in it, or everything up to the end. */
  lemma RefillSupplies(t: Stream, rest: nat)
    requires rest <= t.bufSize
    ensures var u := RefillBuffer(t);
            var n := Min(rest, u.bufLength);
            Slice(View(t), Pos(t), n) == Slice(View(t), Pos(t), rest)
  {
    var u := RefillBuffer(t);
    if !t.exposed {
      assert |u.buf[..u.bufLength]| == u.bufLength;
      SliceToEnd(View(t), Pos(t), Min(rest, u.bufLength), rest);
    }
  }

  /** What a `Read` delivered: the stream, the caller's buffer and the byte count. */
  datatype ReadDone = ReadDone(stream: Stream, buffer: seq<byte>, count: nat)

  /**
    `Read(array, offset, count)`: the argument checks, then `ReadInternal`
    into the buffer at `offset`.
   */
  function Read(s: Stream, buffer: Option<seq<byte>>, offset: int, count: int): (r: Result<ReadDone>)
    ensures s.closed ==> r == Failure(ObjectDisposed)
    ensures !s.closed && buffer.None? ==> r == Failure(ArgumentNull)
    ensures !s.closed && buffer.Some? && !CanRead(s) ==> r == Failure(NotSupported)
    ensures r.Success? <==> (&& !s.closed && buffer.Some? && CanRead(s)
                             && 0 <= offset && 0 <= count && offset <= |buffer.value| - count)
    ensures (&& !s.closed && buffer.Some? && CanRead(s) && (offset < 0 || count < 0))
            ==> r == Failure(ArgumentOutOfRange)
    ensures (&& !s.closed && buffer.Some? && CanRead(s) && 0 <= offset && 0 <= count
             && offset > |buffer.value| - count) ==> r == Failure(Argument)
    ensures r.Success? ==>
              var bytes := Slice(View(s), Pos(s), count);
              && r.value.count == |bytes|
              && offset + |bytes| <= |buffer.value|
              && r.value.buffer == CopyInto(buffer.value, offset, bytes)
              && View(r.value.stream) == View(s)
              && Pos(r.value.stream) == Pos(s) + |bytes|
  {
    if s.closed then Failure(ObjectDisposed)
    else if buffer.None? then Failure(ArgumentNull)
    else if !CanRead(s) then Failure(NotSupported)
    else
      var a := buffer.value;
      if offset < 0 then Failure(ArgumentOutOfRange)
      else if count < 0 then Failure(ArgumentOutOfRange)
      else if offset > |a| then Failure(Argument)
      else if offset > |a| - count then Failure(Argument)
      else
        var g := ReadInternal(s, count);
        Success(ReadDone(g.stream, CopyInto(a, offset, g.bytes), |g.bytes|))
  }

  /**
    `WriteInternal`: more than a buffer's worth goes straight to the handle
    after a flush; otherwise the bytes go through the buffer, flushing it
    each time it fills.
   */
  function WriteInternal(s: Stream, data: seq<byte>): (r: Stream)
    ensures SameSettings(r, s)
    ensures View(r) == WriteAt(View(s), Pos(s), data) && Pos(r) == Pos(s) + |data|
  {
    if |data| > s.bufSize then
      var u := FlushBuffer(s);
      u.(file := WriteAt(u.file, u.osPos, data), osPos := u.osPos + |data|, bufStart := u.bufStart + |data|)
    else
      WriteThroughBufferWrites(s, data);
      WriteThroughBuffer(s, data)
  }

  /**
    `WriteInternal` over `FlushBuffer` as written. The buffered loop only
    flushes a full buffer, where both flushes agree
    (`FlushesAgreeWhenExhausted`); the long write goes to
    the handle wherever the flush left it, just past the old buffer, while
    `buf_start` advances from `Position`.
   */
  function WriteInternalAsWritten(s: Stream, data: seq<byte>): (r: FileStream)
    ensures |data| <= s.bufSize ==> r == WriteInternal(s, data)
    ensures |data| > s.bufSize && !s.exposed ==>
              && r.file == WriteAt(View(s), s.bufStart + s.bufLength, data)
              && Pos(r) == Pos(s) + |data| && r.osPos == s.bufStart + s.bufLength + |data|
    ensures |data| > s.bufSize && s.exposed ==>
              && r.file == WriteAt(View(s), Pos(s), data) && Pos(r) == Pos(s) + |data|
  {
    if |data| > s.bufSize then
      var u := FlushBufferAsWritten(s);
      u.(file := WriteAt(u.file, u.osPos, data), osPos := u.osPos + |data|, bufStart := u.bufStart + |data|)
    else
      WriteInternal(s, data)
  }

  /**
    With `FlushBuffer` as written, a write longer than the buffer that
    follows a partial read lands after the buffered block, not at
    `Position`, though `Position` then moves on as if it had.
   */
  lemma LongWriteMisplaced(s: Stream, data: seq<byte>)
    requires !s.exposed && s.bufOffset < s.bufLength && |data| > s.bufSize
    ensures var r := WriteInternalAsWritten(s, data);
            && Pos(s) < s.bufStart + s.bufLength
            && Slice(r.file, s.bufStart + s.bufLength, |data|) == data
            && |r.file| == Max(|View(s)|, s.bufStart + s.bufLength + |data|)
            && Pos(r) == Pos(s) + |data| < r.osPos
  {
    SliceOfWrite(View(s), s.bufStart + s.bufLength, data, 0, |data|);
    assert data[0..|data|] == data;
  }

  /** The buffered loop of `WriteInternal`: a segment at a time, flushing the buffer each time it fills. */
  function WriteThroughBuffer(s: Stream, data: seq<byte>): (r: Stream)
    requires |data| <= s.bufSize
    ensures SameSettings(r, s) && Pos(r) == Pos(s) + |data|
    decreases |data|, s.bufOffset
  {
    if |data| == 0 then s
    else
      var p := WriteSegment(s, data);
      WriteSegmentShows(s, data);
      BufferFilled(s, data);
      if p.count == |data| then p.stream
      else WriteThroughBuffer(FlushBuffer(p.stream), data[p.count..])
  }

  /** The buffered loop writes the data at `Position`. */
  lemma {:induction false} WriteThroughBufferWrites(s: Stream, data: seq<byte>)
    requires |data| <= s.bufSize
    ensures View(WriteThroughBuffer(s, data)) == WriteAt(View(s), Pos(s), data)
    decreases |data|, s.bufOffset
  {
    if |data| > 0 {
      var p := WriteSegment(s, data);
      WriteSegmentShows(s, data);
      BufferFilled(s, data);
      if p.count == |data| {
        assert data[..p.count] == data;
      } else {
        var t := FlushBuffer(p.stream);
        WriteThroughBufferWrites(t, data[p.count..]);
        WrittenInTwo(View(s), Pos(s), data, p.count);
      }
    }
  }

  /** A write the buffer could not take whole leaves it full, to be flushed. */
  lemma BufferFilled(s: Stream, data: seq<byte>)
    requires 0 < |data| <= s.bufSize
    ensures var p := WriteSegment(s, data);
            p.count < |data| ==> p.stream.bufOffset == s.bufSize && (p.count == 0 ==> s.bufOffset > 0)
  {
  }

  lemma WrittenInTwo(f: seq<byte>, pos: nat, data: seq<byte>, k: nat)
    requires k <= |data|
    ensures WriteAt(WriteAt(f, pos, data[..k]), pos + k, data[k..]) == WriteAt(f, pos, data)
  {
    var x, y := data[..k], data[k..];
    assert x + y == data;
    WriteAtConcat(f, pos, x, y);
  }

  /**
    `Write(array, offset, count)`: the argument checks, then `WriteInternal`
    of `array[offset..offset + count]`.
   */
  function Write(s: Stream, buffer: Option<seq<byte>>, offset: int, count: int): (r: Result<Stream>)
    ensures s.closed ==> r == Failure(ObjectDisposed)
    ensures !s.closed && buffer.None? ==> r == Failure(ArgumentNull)
    ensures r.Success? <==> (&& !s.closed && buffer.Some? && CanWrite(s)
                             && 0 <= offset && 0 <= count && offset <= |buffer.value| - count)
    ensures (&& !s.closed && buffer.Some? && (offset < 0 || count < 0)) ==> r == Failure(ArgumentOutOfRange)
    ensures (&& !s.closed && buffer.Some? && 0 <= offset && 0 <= count && offset > |buffer.value| - count)
            ==> r == Failure(Argument)
    ensures (&& !s.closed && buffer.Some? && 0 <= offset && 0 <= count && offset <= |buffer.value| - count
             && !CanWrite(s)) ==> r == Failure(NotSupported)
    ensures r.Success? ==>
              && View(r.value) == WriteAt(View(s), Pos(s), buffer.value[offset..offset + count])
              && Pos(r.value) == Pos(s) + count
  {
    if s.closed then Failure(ObjectDisposed)
    else if buffer.None? then Failure(ArgumentNull)
    else
      var a := buffer.value;
      if offset < 0 then Failure(ArgumentOutOfRange)
      else if count < 0 then Failure(ArgumentOutOfRange)
      else if offset > |a| - count then Failure(Argument)
      else if !CanWrite(s) then Failure(NotSupported)
      else Success(WriteInternal(s, a[offset..offset + count]))
  }

  // ---------------------------------------------------------------------
  // Length, Position, Seek, Flush, the handle, Dispose

  /** A stream and the number a call returned. */
  datatype Answer = Answer(stream: Stream, value: int)

  /** `FlushBufferIfDirty`. */
  function FlushIfDirty(s: Stream): (r: Stream)
    ensures r.file == View(s) && View(r) == View(s) && Pos(r) == Pos(s) && SameSettings(r, s)
  {
    if s.dirty then FlushBuffer(s) else s
  }

  /** `Length`: the file's length once buffered bytes are written, so what the stream shows. */
  function Length(s: Stream): (r: Result<Answer>)
    ensures r.Success? <==> !s.closed
    ensures s.closed ==> r == Failure(ObjectDisposed)
    ensures r.Success? ==>
              && r.value.value == |View(s)|
              && View(r.value.stream) == View(s) && Pos(r.value.stream) == Pos(s)
              && SameSettings(r.value.stream, s)
  {
    if s.closed then Failure(ObjectDisposed)
    else
      var t := FlushIfDirty(s);
      Success(Answer(t, |t.file|))
  }

  /**
    `Length` over `FlushBuffer` as written: the length is right, but a
    dirty buffer's write-back leaves the handle just past the old buffer.
   */
  function LengthAsWritten(s: Stream): (r: Result<FileStream>)
    ensures r.Success? <==> !s.closed
    ensures s.closed ==> r == Failure(ObjectDisposed)
    ensures r.Success? ==> r.value.file == View(s) && |r.value.file| == |View(s)| && Pos(r.value) == Pos(s)
    ensures r.Success? && s.dirty ==> r.value.osPos == s.bufStart + s.bufLength && r.value.bufLength == 0
  {
    if s.closed then Failure(ObjectDisposed)
    else if s.dirty then Success(FlushBufferAsWritten(s))
    else Success(s)
  }

  /**
    With `FlushBuffer` as written, asking for the length of a stream with a
    dirty block that has unread bytes loses the stream's place: the next
    refill fetches the bytes after the block, not those at `Position`.
   */
  lemma LengthLosesPlace(s: Stream)
    requires !s.closed && s.dirty && s.bufOffset < s.bufLength
    ensures var t := LengthAsWritten(s).value;
            var u := Refill(t);
            && Pos(u) == Pos(s) < s.bufStart + s.bufLength
            && u.buf[..u.bufLength] == Slice(View(s), s.bufStart + s.bufLength, s.bufSize)
  {
  }

  /** The `Position` getter: the handle's offset once exposed, else `buf_start + buf_offset`. */
  function Position(s: Stream): (r: Result<int>)
    ensures r.Success? <==> !s.closed
    ensures s.closed ==> r == Failure(ObjectDisposed)
    ensures r.Success? ==> r.value == Pos(s)
  {
    if s.closed then Failure(ObjectDisposed)
    else if s.exposed then Success(s.osPos)
    else Success(s.bufStart + s.bufOffset)
  }

  /**
    The place `Seek` makes absolute, in 64-bit arithmetic: `offset` itself,
    or added to `Position` or to `Length`; nothing for an unknown origin.
   */
  function SeekTarget(s: Stream, offset: int, origin: int): (r: Option<int>)
    requires Text.Int64Min <= offset <= Text.Int64Max
    ensures r.Some? <==> SeekBegin <= origin <= SeekEnd
    ensures r.Some? ==> Text.Int64Min <= r.value <= Text.Int64Max
    ensures origin == SeekBegin ==> r == Some(offset)
    ensures origin == SeekCurrent && Pos(s) + offset <= Text.Int64Max ==> r == Some(Pos(s) + offset)
    ensures origin == SeekEnd && |View(s)| + offset <= Text.Int64Max ==> r == Some(|View(s)| + offset)
  {
    if origin == SeekEnd then Some(Text.Wrap64(|View(s)| + offset))
    else if origin == SeekCurrent then Some(Text.Wrap64(Pos(s) + offset))
    else if origin == SeekBegin then Some(offset)
    else None
  }

  /**
    `Seek`: the target must be neither negative nor before the appendable
    region; the buffer is flushed and the stream moved there, the handle's
    offset with it.
   */
  function Seek(s: Stream, offset: int, origin: int): (r: Result<Answer>)
    requires Text.Int64Min <= offset <= Text.Int64Max
    ensures s.closed ==> r == Failure(ObjectDisposed)
    ensures !s.closed && SeekTarget(s, offset, origin).None? ==> r == Failure(Argument)
    ensures r.Success? <==>
              && !s.closed && SeekTarget(s, offset, origin).Some?
              && 0 <= SeekTarget(s, offset, origin).value
              && s.appendStart <= SeekTarget(s, offset, origin).value
    ensures r.Failure? && !s.closed && SeekTarget(s, offset, origin).Some? ==> r.error == IOError
    ensures r.Success? ==>
              && r.value.value == SeekTarget(s, offset, origin).value == Pos(r.value.stream)
              && View(r.value.stream) == View(s) && r.value.stream.file == View(s)
              && SameSettings(r.value.stream, s)
  {
    if s.closed then Failure(ObjectDisposed)
    else
      var t := if origin == SeekEnd then FlushIfDirty(s) else s;
      match SeekTarget(s, offset, origin)
      case None => Failure(Argument)
      case Some(pos) =>
        if pos < 0 || pos < s.appendStart then Failure(IOError)
        else
          var u := FlushBuffer(t);
          var v: Stream := u.(bufStart := pos, osPos := pos);
          Success(Answer(v, pos))
  }

  /** The `Position` setter: a negative value is refused before anything else, then `Seek` from the beginning. */
  function SetPosition(s: Stream, value: int): (r: Result<Stream>)
    requires value <= Text.Int64Max
    ensures value < 0 ==> r == Failure(ArgumentOutOfRange)
    ensures 0 <= value && s.closed ==> r == Failure(ObjectDisposed)
    ensures r.Success? <==> 0 <= value && !s.closed && s.appendStart <= value
    ensures r.Success? ==> Pos(r.value) == value && View(r.value) == View(s) && SameSettings(r.value, s)
  {
    if value < 0 then Failure(ArgumentOutOfRange)
    else
      var a :- Seek(s, value, SeekBegin);
      Success(a.stream)
  }

  /** `Flush`: the buffered bytes reach the file; nothing the reader sees changes. */
  function Flush(s: Stream): (r: Result<Stream>)
    ensures r.Success? <==> !s.closed
    ensures s.closed ==> r == Failure(ObjectDisposed)
    ensures r.Success? ==>
              && r.value.file == View(s) && !r.value.dirty
              && View(r.value) == View(s) && Pos(r.value) == Pos(s) && SameSettings(r.value, s)
    ensures r.Success? && !s.exposed ==> r.value.osPos == Pos(s)
  {
    if s.closed then Failure(ObjectDisposed)
    else Success(FlushBuffer(s))
  }

  /**
    The `SafeFileHandle` getter (`ExposeHandle` the first time), corrected
    in two ways: the buffer is flushed before `safeHandle` is set, so a
    dirty block is written back at `buf_start`, and by the corrected
    `FlushBuffer`, so the handle ends at `Position`. The buffer is then
    replaced by the unbuffered one-byte scratch buffer, and from then on
    every read and write goes straight to the handle.
   */
  function ExposeHandle(s: Stream): (r: Stream)
    ensures r.exposed && r.bufSize == 0 && !r.dirty
    ensures r.file == View(s) && View(r) == View(s) && Pos(r) == Pos(s) && r.osPos == Pos(s)
    ensures r.access == s.access && r.closed == s.closed && r.appendStart == s.appendStart
  {
    if s.exposed then s
    else
      var t := FlushBuffer(s);
      t.(exposed := true, buf := [0], bufSize := 0)
  }

  /**
    `ExposeHandle` as written: `safeHandle` is set before the buffer is
    flushed, so the write-back of a dirty buffer skips the seek to
    `buf_start` and lands wherever the handle is; and `FlushBuffer` as
    written leaves the handle there, which is now `Position`.
   */
  function ExposeHandleAsWritten(s: Stream): (r: FileStream)
    ensures r.exposed && r.bufSize == 0 && !r.dirty
    ensures r.access == s.access && r.closed == s.closed && r.appendStart == s.appendStart
    ensures s.exposed ==> r == s
    ensures !s.exposed && !s.dirty ==> r.file == s.file && Pos(r) == s.bufStart + s.bufLength
    ensures !s.exposed && s.dirty ==>
              && r.file == WriteAt(s.file, s.osPos, s.buf[..s.bufLength])
              && Pos(r) == s.osPos + s.bufLength
  {
    if s.exposed then s
    else
      var t := FlushBlock(s.(exposed := true));
      t.(buf := [0], bufSize := 0)
  }

  /**
    Taking the handle of a stream with unread buffered bytes moves its
    `Position` to the end of the buffered block.
   */
  lemma ExposeLosesPlace(s: Stream)
    requires !s.exposed && !s.dirty && s.bufOffset < s.bufLength
    ensures var r := ExposeHandleAsWritten(s);
            && r.file == View(s)
            && Pos(r) == s.bufStart + s.bufLength > Pos(s)
  {
  }

  /**
    Taking the handle of a stream whose buffer was written to after a refill
    writes the whole block again after the refilled bytes, where the handle
    is, rather than over them, and puts `Position` past that copy.
   */
  lemma ExposeMisplacesBlock(s: Stream)
    requires !s.exposed && s.dirty && s.bufStart < s.osPos
    ensures var r := ExposeHandleAsWritten(s);
            && Slice(r.file, s.osPos, s.bufLength) == s.buf[..s.bufLength]
            && |r.file| >= s.osPos + s.bufLength
            && Pos(r) == s.osPos + s.bufLength > Pos(s)
  {
    SliceOfWrite(s.file, s.osPos, s.buf[..s.bufLength], 0, s.bufLength);
    assert s.buf[..s.bufLength][0..s.bufLength] == s.buf[..s.bufLength];
  }

  /**
    The way there: a byte written into a block that a read filled leaves the
    buffer dirty with the handle just past the block, so exposing the handle
    then copies the block after itself.
   */
  lemma ExposeAfterWriteByte(s: Stream, value: byte)
    requires !s.closed && CanWrite(s) && !s.exposed && !s.dirty && s.bufOffset < s.bufLength
    ensures var w := WriteByte(s, value).value;
            var r := ExposeHandleAsWritten(w);
            && w.dirty && w.osPos == s.bufStart + s.bufLength && w.bufStart == s.bufStart
            && Slice(r.file, s.bufStart + s.bufLength, w.bufLength) == w.buf[..w.bufLength]
            && Pos(r) == s.bufStart + s.bufLength + w.bufLength > Pos(w)
  {
    var w := WriteByte(s, value).value;
    ExposeMisplacesBlock(w);
  }

  /**
    `Dispose`: an open stream writes its buffer back and closes the handle;
    either way the access is cleared.
   */
  function Dispose(s: Stream): (r: Stream)
    ensures r.closed && r.access == 0 && !CanRead(r) && !CanWrite(r)
    ensures View(r) == View(s) && Pos(r) == Pos(s)
    ensures !s.closed ==> r.file == View(s) && !r.dirty
  {
    if s.closed then s.(access := 0)
    else
      var t := FlushBuffer(s);
      t.(closed := true, access := 0)
  }

  /** Disposing twice is disposing once. */
  lemma DisposeIdempotent(s: Stream)
    ensures Dispose(Dispose(s)) == Dispose(s)
  {
  }

  /** A disposed stream refuses every operation. */
  lemma DisposedRefuses(s: Stream, value: byte, buffer: seq<byte>, offset: int, count: int)
    requires Text.Int64Min <= offset <= Text.Int64Max
    ensures var d := Dispose(s);
            && ReadByte(d) == Failure(ObjectDisposed) && WriteByte(d, value) == Failure(ObjectDisposed)
            && Read(d, Some(buffer), offset, count) == Failure(ObjectDisposed)
            && Write(d, Some(buffer), offset, count) == Failure(ObjectDisposed)
            && Length(d) == Failure(ObjectDisposed) && Position(d) == Failure(ObjectDisposed)
            && Seek(d, offset, SeekCurrent) == Failure(ObjectDisposed) && Flush(d) == Failure(ObjectDisposed)
  {
  }

  /** What is written can be read back after seeking to where the write began. */
  lemma ReadBack(s: Stream, data: seq<byte>, scratch: seq<byte>)
    requires !s.closed && s.access == ReadWriteAccess
    requires s.appendStart <= Pos(s) <= Text.Int64Max && |scratch| == |data|
    ensures var w := Write(s, Some(data), 0, |data|);
            && w.Success?
            && var k := Seek(w.value, Pos(s), SeekBegin);
            && k.Success?
            && var r := Read(k.value.stream, Some(scratch), 0, |data|);
            && r.Success? && r.value.count == |data| && r.value.buffer == data
  {
    var w := Write(s, Some(data), 0, |data|);
    assert data[0..|data|] == data;
    var k := Seek(w.value, Pos(s), SeekBegin);
    SliceWriteAt(View(s), Pos(s), data);
    assert CopyInto(scratch, 0, data) == data;
  }

  /** After seeking to the end, a write appends. */
  lemma SeekEndAppends(s: Stream, data: seq<byte>)
    requires !s.closed && CanWrite(s) && s.appendStart <= |View(s)| <= Text.Int64Max
    ensures var k := Seek(s, 0, SeekEnd);
            && k.Success? && Pos(k.value.stream) == |View(s)|
            && var w := Write(k.value.stream, Some(data), 0, |data|);
            && w.Success? && View(w.value) == View(s) + data
  {
    var k := Seek(s, 0, SeekEnd);
    assert data[0..|data|] == data;
    if |data| > 0 {
      assert View(s)[..|View(s)|] == View(s);
    }
  }

  // ---------------------------------------------------------------------
  // Opening a file by path

  /**
    What the constructor learns from the file system: whether the path names
    a directory, whether its directory part is non-empty and missing, whether
    the file exists, and what the OS open yields: the file's bytes, or for
    an invalid handle the exception `MonoIO.GetException` makes of the
    OS error.
   */
  datatype Disk = Disk(isDirectory: bool, folderMissing: bool, fileExists: bool, opening: Result<seq<byte>>)

  /** `share & ~FileShare.Inheritable`, on two's-complement integers. */
  function WithoutInheritable(share: int): (r: int)
    ensures r == share || r == share - ShareInheritable
    ensures (r / ShareInheritable) % 2 == 0
    ensures (share / ShareInheritable) % 2 == 0 ==> r == share
  {
    if (share / ShareInheritable) % 2 == 1 then share - ShareInheritable else share
  }

  /** The modes in which a stream that cannot write may be opened. */
  predicate OpensExisting(mode: int) {
    mode == Open || mode == OpenOrCreate
  }

  /** The modes that need the file to exist already when it is only read. */
  predicate NeedsFile(mode: int) {
    mode != Create && mode != OpenOrCreate && mode != CreateNew
  }

  /** The arguments and the file system allow the open. */
  predicate Openable(path: Option<string>, mode: int, access: int, share: int, bufferSize: int,
                     invalidChars: set<char>, disk: Disk)
  {
    && path.Some? && |path.value| > 0
    && bufferSize > 0
    && CreateNew <= mode <= Append
    && ReadAccess <= access <= ReadWriteAccess
    && 0 <= WithoutInheritable(share) <= ShareAll
    && (forall i :: 0 <= i < |path.value| ==> path.value[i] !in invalidChars)
    && !disk.isDirectory
    && !(mode == Append && access % 2 == 1)
    && (access / 2 % 2 == 1 || OpensExisting(mode))
    && !disk.folderMissing
    && !(access == ReadAccess && NeedsFile(mode) && !disk.fileExists)
  }

  /**
    The checks the path constructor makes before it opens anything, in its
    order: the first that fails names the exception.
   */
  function OpenRefusal(path: Option<string>, mode: int, access: int, share: int, bufferSize: int,
                       invalidChars: set<char>, disk: Disk): (r: Option<Exception>)
    ensures r.None? <==> Openable(path, mode, access, share, bufferSize, invalidChars, disk)
    ensures path.None? ==> r == Some(ArgumentNull)
    ensures path == Some([]) ==> r == Some(Argument)
    ensures path.Some? && |path.value| > 0 && bufferSize <= 0 ==> r == Some(ArgumentOutOfRange)
    ensures r.Some? ==> r.value in {ArgumentNull, Argument, ArgumentOutOfRange, UnauthorizedAccess,
                                    DirectoryNotFound, FileNotFound}
    ensures r == Some(UnauthorizedAccess) ==> disk.isDirectory
    ensures r == Some(DirectoryNotFound) ==> disk.folderMissing && !disk.isDirectory
    ensures r == Some(FileNotFound) ==> access == ReadAccess && !disk.fileExists && !disk.folderMissing
  {
    if path.None? then Some(ArgumentNull)
    else if |path.value| == 0 then Some(Argument)
    else if bufferSize <= 0 then Some(ArgumentOutOfRange)
    else if mode < CreateNew || mode > Append then Some(ArgumentOutOfRange)
    else if access < ReadAccess || access > ReadWriteAccess then Some(ArgumentOutOfRange)
    else if WithoutInheritable(share) < 0 || WithoutInheritable(share) > ShareAll then Some(ArgumentOutOfRange)
    else if exists i :: 0 <= i < |path.value| && path.value[i] in invalidChars then Some(Argument)
    else if disk.isDirectory then Some(UnauthorizedAccess)
    else if mode == Append && access % 2 == 1 then Some(Argument)
    else if access / 2 % 2 == 0 && !OpensExisting(mode) then Some(Argument)
    else if disk.folderMissing then Some(DirectoryNotFound)
    else if access == ReadAccess && NeedsFile(mode) && !disk.fileExists then Some(FileNotFound)
    else None
  }

  /**
    The buffer size a new stream asks for: a read-only stream left at the
    default size gets no more than the file needs, but at least 1000 bytes.
   */
  function ChosenBufferSize(access: int, bufferSize: int, length: nat): (r: int)
    ensures access == ReadAccess && bufferSize == DefaultBufferSize && length < bufferSize
            ==> r == Max(1000, length) && 0 < r < DefaultBufferSize
    ensures !(access == ReadAccess && bufferSize == DefaultBufferSize && length < bufferSize) ==> r == bufferSize
  {
    if access == ReadAccess && bufferSize == DefaultBufferSize && bufferSize > length then
      (if length < 1000 then 1000 else length)
    else bufferSize
  }

  /**
    The path constructor on the buffered path: the argument checks, the OS
    open, the buffer, and for `Append` a seek to the end, which becomes the
    start of the appendable region.
   */
  function NewFileStream(path: Option<string>, mode: int, access: int, share: int, bufferSize: int,
                         invalidChars: set<char>, disk: Disk): (r: Result<Stream>)
    ensures r.Success? <==>
              && Openable(path, mode, access, share, bufferSize, invalidChars, disk)
              && disk.opening.Success? && (mode == Append ==> 0 <= Text.Wrap64(|disk.opening.value|))
    ensures !Openable(path, mode, access, share, bufferSize, invalidChars, disk)
            ==> r == Failure(OpenRefusal(path, mode, access, share, bufferSize, invalidChars, disk).value)
    ensures Openable(path, mode, access, share, bufferSize, invalidChars, disk) && disk.opening.Failure?
            ==> r == Failure(disk.opening.error)
    ensures r.Success? ==>
              var contents := disk.opening.value;
              var at := if mode == Append then Text.Wrap64(|contents|) else 0;
              && View(r.value) == contents && !r.value.dirty
              && Pos(r.value) == at && r.value.appendStart == at
              && r.value.access == access && !r.value.closed && !r.value.exposed
              && r.value.bufSize == Max(ChosenBufferSize(access, bufferSize, |contents|), 8)
    ensures r.Success? && mode == Append && |disk.opening.value| <= Text.Int64Max
            ==> Pos(r.value) == r.value.appendStart == |disk.opening.value|
  {
    match OpenRefusal(path, mode, access, share, bufferSize, invalidChars, disk)
    case Some(e) => Failure(e)
    case None =>
      match disk.opening
      case Failure(e) => Failure(e)
      case Success(contents) =>
        var b := InitBuffer(ChosenBufferSize(access, bufferSize, |contents|), false).value;
        var s: Stream := FileStream(contents, 0, access, false, false, b.bytes, b.size, 0, 0, 0, false, 0);
        if mode == Append then
          var a :- Seek(s, 0, SeekEnd);
          var t: Stream := a.stream.(appendStart := a.value);
          Success(t)
        else Success(s)
  }

  /** A stream opened for reading reads the file from its start. */
  lemma OpenedReadsFile(path: Option<string>, mode: int, access: int, share: int, bufferSize: int,
                        invalidChars: set<char>, disk: Disk, scratch: seq<byte>)
    requires NewFileStream(path, mode, access, share, bufferSize, invalidChars, disk).Success?
    requires access % 2 == 1 && |scratch| == |disk.opening.value|
    ensures var s := NewFileStream(path, mode, access, share, bufferSize, invalidChars, disk).value;
            var r := Read(s, Some(scratch), 0, |scratch|);
            r.Success? && r.value.buffer == disk.opening.value
  {
    var contents := disk.opening.value;
    assert mode != Append;
    assert Slice(contents, 0, |contents|) == contents;
    assert CopyInto(scratch, 0, contents) == contents;
  }

  /** Seeking before the start of an append stream's region fails, and so does any place before it. */
  lemma AppendGuardsRegion(s: Stream, place: int)
    requires !s.closed && 0 <= place < s.appendStart && place <= Text.Int64Max
    ensures Seek(s, place, SeekBegin) == Failure(IOError)
    ensures SetPosition(s, place) == Failure(IOError)
  {
  }
}

=== FILE: ftp_data_stream.dfy ===
/**
  `FtpDataStream`: the stream over an FTP data connection that a response
  hands out for a download or a request hands out for an upload.

  The network stream is reduced to whether it is still attached, the bytes
  written to it, and, for each read, what the underlying `Read` delivered
  (`None` when it threw an `IOException`). Whether the owning request is
  aborted is a parameter. The two calls the stream makes on its request when
  the transfer ends (`CloseDataConnection` and `SetTransferCompleted`) are
  counted as one notice.
 */
module FtpDataStream {
  import opened Wrappers
  import opened Text

  datatype DataStream = DataStream(
    hasRequest: bool,       // the request reference, dropped by `Dispose`
    open: bool,             // the network stream is still attached
    disposed: bool,
    isRead: bool,
    totalRead: int,
    written: seq<byte>,     // the bytes handed to the network stream
    notices: nat)           // transfer-end notices sent to the request

  /** The constructor: a request is required. */
  function NewDataStream(hasRequest: bool, hasNetwork: bool, isRead: bool): (r: Result<DataStream>)
    ensures r.Success? <==> hasRequest
    ensures r.Failure? ==> r.error == ArgumentNull
    ensures r.Success? ==> Valid(r.value) && r.value.notices == 0 && r.value.totalRead == 0
                           && r.value.open == hasNetwork && r.value.isRead == isRead && !r.value.disposed
  {
    if !hasRequest then Failure(ArgumentNull)
    else Success(DataStream(true, hasNetwork, false, isRead, 0, [], 0))
  }

  /**
    The invariant: at most one transfer-end notice, and none while the
    network stream is attached; the request is dropped only by disposal.
   */
  predicate Valid(ds: DataStream) {
    && ds.notices <= 1
    && (ds.open ==> ds.notices == 0)
    && (!ds.hasRequest ==> ds.disposed)
    && (ds.disposed ==> !ds.open)
  }

  function CanRead(ds: DataStream): (b: bool)
    ensures b != CanWrite(ds)
  {
    ds.isRead
  }

  function CanWrite(ds: DataStream): bool {
    !ds.isRead
  }

  /** The stream cannot seek, whatever its state. */
  predicate CanSeek(ds: DataStream) {
    false
  }

  /**
    The buffer checks of `BeginRead` and `BeginWrite`: a buffer is given, and
    `offset` and `size` lie within it.
   */
  function CheckBuffer(buffer: Option<seq<byte>>, offset: int, size: int): (r: Result<bool>)
    ensures buffer.None? ==> r == Failure(ArgumentNull)
    ensures buffer.Some? ==> (r.Success? <==> 0 <= offset && 0 <= size && offset + size <= |buffer.value|)
    ensures r.Failure? && buffer.Some? ==> r.error == ArgumentOutOfRange
  {
    if buffer.None? then Failure(ArgumentNull)
    else if offset < 0 || offset > |buffer.value| then Failure(ArgumentOutOfRange)
    else if size < 0 || size > |buffer.value| - offset then Failure(ArgumentOutOfRange)
    else Success(true)
  }

  /** `BeginRead` up to the asynchronous call: disposal, direction, then the buffer. */
  function BeginRead(ds: DataStream, buffer: Option<seq<byte>>, offset: int, size: int): (r: Result<bool>)
    ensures ds.disposed ==> r == Failure(ObjectDisposed)
    ensures !ds.disposed && !CanRead(ds) ==> r == Failure(NotSupported)
    ensures r.Success? <==> !ds.disposed && CanRead(ds) && CheckBuffer(buffer, offset, size).Success?
  {
    if ds.disposed then Failure(ObjectDisposed)
    else if !ds.isRead then Failure(NotSupported)
    else CheckBuffer(buffer, offset, size)
  }

  /** `BeginWrite` up to the asynchronous call: disposal, direction, then the buffer. */
  function BeginWrite(ds: DataStream, buffer: Option<seq<byte>>, offset: int, size: int): (r: Result<bool>)
    ensures ds.disposed ==> r == Failure(ObjectDisposed)
    ensures !ds.disposed && !CanWrite(ds) ==> r == Failure(NotSupported)
    ensures r.Success? <==> !ds.disposed && CanWrite(ds) && CheckBuffer(buffer, offset, size).Success?
  {
    if ds.disposed then Failure(ObjectDisposed)
    else if ds.isRead then Failure(NotSupported)
    else CheckBuffer(buffer, offset, size)
  }

  /** `request.CheckIfAborted()`, called through the request reference. */
  function CheckIfAborted(ds: DataStream, aborted: bool): (r: Result<bool>)
    ensures r.Success? <==> ds.hasRequest && !aborted
    ensures !ds.hasRequest ==> r == Failure(NullReference)
    ensures ds.hasRequest && aborted ==> r == Failure(WebError(RequestCanceled))
  {
    if !ds.hasRequest then Failure(NullReference)
    else if aborted then Failure(WebError(RequestCanceled))
    else Success(true)
  }

  /** A finished read: the stream, the caller's buffer and the byte count. */
  datatype ReadDone = ReadDone(stream: DataStream, buffer: seq<byte>, count: nat)

  /**
    `ReadInternal` as written: a zero-byte read detaches the network stream
    and notifies the request, so the next read dereferences the detached
    stream and fails with a `NullReferenceException`.
   */
  function ReadInternalAsWritten(ds: DataStream, aborted: bool, buffer: seq<byte>, offset: nat,
                                 chunk: Option<seq<byte>>): (r: Result<ReadDone>)
    requires chunk.Some? ==> offset + |chunk.value| <= |buffer|
    ensures !ds.open && ds.hasRequest && !aborted ==> r == Failure(NullReference)
    ensures r.Success? ==> ds.open && chunk.Some? && ReadEffect(ds, buffer, offset, chunk.value, r.value)
  {
    var _ :- CheckIfAborted(ds, aborted);
    if !ds.open then Failure(NullReference)
    else ReceiveChunk(ds, buffer, offset, chunk)
  }

  /**
    `ReadInternal`, corrected: once the data connection has ended, a read
    returns 0 again, as the `Stream` contract has it, without a second notice.
   */
  function ReadInternal(ds: DataStream, aborted: bool, buffer: seq<byte>, offset: nat,
                        chunk: Option<seq<byte>>): (r: Result<ReadDone>)
    requires chunk.Some? ==> offset + |chunk.value| <= |buffer|
    ensures !ds.open && ds.hasRequest && !aborted ==> r == Success(ReadDone(ds, buffer, 0))
    ensures r.Success? && ds.open ==> chunk.Some? && ReadEffect(ds, buffer, offset, chunk.value, r.value)
  {
    var _ :- CheckIfAborted(ds, aborted);
    if !ds.open then Success(ReadDone(ds, buffer, 0))
    else ReceiveChunk(ds, buffer, offset, chunk)
  }

  /** What one read of an attached network stream does. */
  ghost predicate ReadEffect(ds: DataStream, buffer: seq<byte>, offset: nat, chunk: seq<byte>, done: ReadDone)
    requires offset + |chunk| <= |buffer|
  {
    && done.count == |chunk|
    && done.buffer == CopyInto(buffer, offset, chunk)
    && done.stream.totalRead == Wrap32(ds.totalRead + |chunk|)
    && (done.stream.open <==> |chunk| > 0)
    && done.stream.notices == ds.notices + (if |chunk| == 0 then 1 else 0)
    && done.stream.(open := ds.open, totalRead := ds.totalRead, notices := ds.notices) == ds
  }

  function ReceiveChunk(ds: DataStream, buffer: seq<byte>, offset: nat, chunk: Option<seq<byte>>): (r: Result<ReadDone>)
    requires ds.open
    requires chunk.Some? ==> offset + |chunk.value| <= |buffer|
    ensures r.Failure? <==> chunk.None?
    ensures r.Failure? ==> r.error == ProtocolViolation
    ensures r.Success? ==> chunk.Some? && ReadEffect(ds, buffer, offset, chunk.value, r.value)
  {
    match chunk
    case None => Failure(ProtocolViolation)
    case Some(c) =>
      var total := Wrap32(ds.totalRead + |c|);
      if |c| == 0 then Success(ReadDone(ds.(totalRead := total, open := false, notices := ds.notices + 1), buffer, 0))
      else Success(ReadDone(ds.(totalRead := total), CopyInto(buffer, offset, c), |c|))
  }

  /**
    `Read`: the abort check, the checks of `BeginRead`, then the read itself
    (the corrected one). `chunk` is what the network stream delivered, never
    more than asked for.
   */
  function Read(ds: DataStream, aborted: bool, buffer: Option<seq<byte>>, offset: int, size: int,
                chunk: Option<seq<byte>>): (r: Result<ReadDone>)
    requires buffer.Some? && 0 <= offset && 0 <= size && chunk.Some? ==> |chunk.value| <= size
    ensures r.Success? ==> buffer.Some? && 0 <= offset && 0 <= size && offset + size <= |buffer.value|
    ensures r.Success? ==> r.value.count <= size && |r.value.buffer| == |buffer.value|
    ensures r.Success? ==> r.value.buffer[..offset] == buffer.value[..offset]
    ensures r.Success? ==> r.value.buffer[offset + size..] == buffer.value[offset + size..]
    ensures ds.hasRequest && !aborted && ds.disposed ==> r == Failure(ObjectDisposed)
    ensures r.Success? && ds.open ==>
              chunk.Some? && ReadEffect(ds, buffer.value, offset, chunk.value, r.value)
    ensures r.Success? && !ds.open ==> r.value == ReadDone(ds, buffer.value, 0)
  {
    var _ :- CheckIfAborted(ds, aborted);
    var _ :- BeginRead(ds, buffer, offset, size);
    var done :- ReadInternal(ds, aborted, buffer.value, offset, chunk);
    assert done.buffer[offset + size..] == buffer.value[offset + size..] by {
      if ds.open && chunk.Some? {
        var b := buffer.value;
        var n := |chunk.value|;
        assert done.buffer[offset + size..] == done.buffer[offset + n..][size - n..];
        assert b[offset + size..] == b[offset + n..][size - n..];
      }
    }
    Success(done)
  }

  /** A finished write: the stream with the bytes sent. */
  function Write(ds: DataStream, aborted: bool, buffer: Option<seq<byte>>, offset: int, size: int,
                 fails: bool): (r: Result<DataStream>)
    ensures r.Success? ==> buffer.Some? && 0 <= offset && 0 <= size && offset + size <= |buffer.value|
    ensures r.Success? ==> r.value.written == ds.written + buffer.value[offset..offset + size]
                           && r.value.(written := ds.written) == ds
    ensures (r.Failure? && CheckIfAborted(ds, aborted).Success? && BeginWrite(ds, buffer, offset, size).Success?)
              ==> r.error == (if ds.open then ProtocolViolation else NullReference)
    ensures r.Success? <==> CheckIfAborted(ds, aborted).Success? && BeginWrite(ds, buffer, offset, size).Success?
                            && ds.open && !fails
  {
    var _ :- CheckIfAborted(ds, aborted);
    var _ :- BeginWrite(ds, buffer, offset, size);
    if !ds.open then Failure(NullReference)
    else if fails then Failure(ProtocolViolation)
    else Success(ds.(written := ds.written + buffer.value[offset..offset + size]))
  }

  /**
    `Dispose`: the first call marks the stream disposed and, if the network
    stream is still attached, detaches it, notifies the request and drops
    the request; later calls do nothing.
   */
  function Dispose(ds: DataStream): (r: DataStream)
    ensures r.disposed
    ensures !ds.disposed ==> !r.open
    ensures ds.disposed ==> r == ds
    ensures r.notices == ds.notices + (if !ds.disposed && ds.open then 1 else 0)
    ensures r.(disposed := ds.disposed, open := ds.open, hasRequest := ds.hasRequest, notices := ds.notices) == ds
    ensures !ds.disposed && ds.open ==> !r.hasRequest
    ensures ds.disposed || !ds.open ==> r.hasRequest == ds.hasRequest
  {
    if ds.disposed then ds
    else if ds.open then ds.(disposed := true, open := false, hasRequest := false, notices := ds.notices + 1)
    else ds.(disposed := true)
  }

  /** `Close` is `Dispose`, so closing twice notifies at most once. */
  lemma DisposeIdempotent(ds: DataStream)
    ensures Dispose(Dispose(ds)) == Dispose(ds)
  {
  }

  // ---------------------------------------------------------------------
  // The request is notified at most once

  /** A call made on the stream; `Read`'s arguments are the ones that passed its checks. */
  datatype Call =
    | ReadCall(aborted: bool, buffer: seq<byte>, offset: nat, size: nat, chunk: Option<seq<byte>>)
    | WriteCall(aborted: bool, buffer: seq<byte>, offset: nat, size: nat, fails: bool)
    | DisposeCall

  predicate WellFormedCall(c: Call) {
    match c
    case ReadCall(_, buffer, offset, size, chunk) =>
      offset + size <= |buffer| && (chunk.Some? ==> |chunk.value| <= size)
    case WriteCall(_, buffer, offset, size, _) => offset + size <= |buffer|
    case DisposeCall => true
  }

  /** The stream after a call; a call that throws leaves it as it was. */
  function Step(ds: DataStream, c: Call): (r: DataStream)
    requires WellFormedCall(c)
  {
    match c
    case ReadCall(aborted, buffer, offset, size, chunk) =>
      var r := Read(ds, aborted, Some(buffer), offset, size, chunk);
      if r.Success? then r.value.stream else ds
    case WriteCall(aborted, buffer, offset, size, fails) =>
      var r := Write(ds, aborted, Some(buffer), offset, size, fails);
      if r.Success? then r.value else ds
    case DisposeCall => Dispose(ds)
  }

  lemma StepKeepsValid(ds: DataStream, c: Call)
    requires Valid(ds) && WellFormedCall(c)
    ensures Valid(Step(ds, c))
    ensures Step(ds, c).notices >= ds.notices
  {
  }

  function Steps(ds: DataStream, calls: seq<Call>): DataStream
    requires forall i :: 0 <= i < |calls| ==> WellFormedCall(calls[i])
    decreases |calls|
  {
    if |calls| == 0 then ds else Steps(Step(ds, calls[0]), calls[1..])
  }

  /**
    Whatever the sequence of reads, writes and disposals, end of data and
    disposal together notify the request at most once, and never while the
    network stream is attached.
   */
  lemma {:induction false} NotifiedAtMostOnce(ds: DataStream, calls: seq<Call>)
    requires Valid(ds)
    requires forall i :: 0 <= i < |calls| ==> WellFormedCall(calls[i])
    ensures Valid(Steps(ds, calls))
    ensures Steps(ds, calls).notices <= 1
    decreases |calls|
  {
    if |calls| > 0 {
      StepKeepsValid(ds, calls[0]);
      NotifiedAtMostOnce(Step(ds, calls[0]), calls[1..]);
    }
  }

  /**
    The defect of the source's read: after the read that returned 0, the next
    read of a live request throws instead of returning 0 again.
   */
  lemma ReadAfterEndAsWritten(ds: DataStream, buffer: seq<byte>, offset: nat)
    requires ds.open && ds.hasRequest && offset <= |buffer|
    ensures var first := ReadInternalAsWritten(ds, false, buffer, offset, Some([]));
            && first.Success? && first.value.count == 0
            && ReadInternalAsWritten(first.value.stream, false, buffer, offset, Some([])) == Failure(NullReference)
  {
  }

  /** With the correction, reads at the end of the data keep returning 0 and notify only once. */
  lemma ReadAfterEnd(ds: DataStream, buffer: seq<byte>, offset: nat, chunk: Option<seq<byte>>)
    requires ds.open && ds.hasRequest && offset <= |buffer|
    requires chunk.Some? ==> offset + |chunk.value| <= |buffer|
    ensures var first := ReadInternal(ds, false, buffer, offset, Some([]));
            && first.Success? && first.value.count == 0 && first.value.stream.notices == ds.notices + 1
            && ReadInternal(first.value.stream, false, buffer, offset, chunk) == Success(ReadDone(first.value.stream, buffer, 0))
  {
  }

  /**
    Disposal that detached the network stream drops the request, so a later
    `Read` fails on the request reference before `BeginRead` can report the
    disposal; `BeginRead` itself reports it.
   */
  lemma ReadAfterDispose(ds: DataStream, buffer: Option<seq<byte>>, offset: int, size: int)
    requires ds.open && !ds.disposed
    ensures var closed := Dispose(ds);
            && BeginRead(closed, buffer, offset, size) == Failure(ObjectDisposed)
            && BeginWrite(closed, buffer, offset, size) == Failure(ObjectDisposed)
            && Read(closed, false, buffer, offset, size, None) == Failure(NullReference)
  {
  }
}

=== FILE: ftp_protocol.dfy ===
/**
  The FTP control-connection text handled by `FtpWebRequest`: the command
  lines it sends (section 5.3.1 of RFC 959), the replies it reads
  (section 4.2 of RFC 959), the host-port argument of `PORT` and of the
  `PASV` reply (section 4.1.2 of RFC 959), the quoted path of a `257` reply
  to `PWD` (Appendix II of RFC 959), and the log-in defaults.

  The control connection is a sequence of received lines (what successive
  `ReadLine` calls return; the end of the sequence is end of stream).
  `Environment.NewLine`, which joins the lines of a multi-line reply, and
  `IPAddress.Parse` are parameters.
 */
module FtpProtocol {
  import opened Wrappers
  import opened Text

  // `FtpStatusCode` values the client itself produces or tests for.
  const CommandOK: int := 200
  const EnteringPassive: int := 227
  const PathnameCreated: int := 257
  const ServiceNotAvailable: int := 421
  const FileActionAborted: int := 426

  /** `IPEndPoint.MinPort` and `IPEndPoint.MaxPort`. */
  const MinPort: int := 0
  const MaxPort: int := 65535

  /** The end-of-line of the control connection (`EOL`). */
  const EOL: string := "\r\n"

  /** A reply: `FtpStatus.StatusCode` and `StatusDescription` (the full reply text). */
  datatype FtpStatus = FtpStatus(code: int, description: string)

  /** What `ServiceNotAvailable()` builds for an unreadable reply. */
  const NotAvailable: FtpStatus := FtpStatus(ServiceNotAvailable, "Invalid response from server")

  /** What `SendCommand` returns when writing to the control stream fails. */
  const WriteFailed: FtpStatus := FtpStatus(ServiceNotAvailable, "Write failed")

  /** The `WebException` thrown by the passive-mode parser and by `GetInitialPath`. */
  const ReplyError: Exception := WebError(UnknownError)

  // ---------------------------------------------------------------------
  // Commands

  /** The text `SendCommand` writes: the command, the space-joined parameters if any, CRLF. */
  function CommandLine(command: string, parameters: seq<string>): (line: string)
    ensures StartsWith(line, command) && EndsWith(line, EOL)
    ensures |parameters| == 0 <==> |line| == |command| + 2
  {
    (if |parameters| > 0 then command + " " + Join(" ", parameters) else command) + EOL
  }

  /**
    `Encoding.ASCII.GetBytes`: every character above 127 becomes one `?`. A
    character here is a Unicode scalar value, so a character outside the
    Basic Multilingual Plane, which .NET holds as a surrogate pair, is one
    character and becomes one `?`.
   */
  function AsciiBytes(s: string): (b: seq<byte>)
    ensures |b| == |s|
    ensures forall i :: 0 <= i < |s| ==> (s[i] as int < 128 ==> b[i] as int == s[i] as int)
    ensures forall i :: 0 <= i < |s| ==> (s[i] as int >= 128 ==> b[i] == '?' as int as byte)
  {
    seq(|s|, i requires 0 <= i < |s| => if s[i] as int < 128 then s[i] as int as byte else '?' as int as byte)
  }

  /** A supplementary character, two UTF-16 units in .NET, goes onto the wire as a single `?`. */
  lemma SupplementaryCharIsOneByte(prefix: string, c: char)
    requires IsAscii(prefix) && c as int >= 0x10000
    ensures AsciiBytes(prefix + [c]) == AsciiBytes(prefix) + ['?' as int as byte]
    ensures |AsciiBytes(prefix + [c])| == |prefix| + 1
  {
  }

  /** Decoding bytes that are all below 128 back to characters. */
  function AsciiChars(b: seq<byte>): (s: string)
    ensures |s| == |b|
  {
    seq(|b|, i requires 0 <= i < |b| => b[i] as int as char)
  }

  predicate IsAscii(s: string) {
    forall i :: 0 <= i < |s| ==> s[i] as int < 128
  }

  /** A command of ASCII text goes onto the wire unchanged. */
  lemma AsciiRoundTrip(s: string)
    requires IsAscii(s)
    ensures AsciiChars(AsciiBytes(s)) == s
  {
  }

  /** No separator, CR or LF inside a command or parameter. */
  predicate IsToken(s: string) {
    forall k :: 0 <= k < |s| ==> s[k] != ' ' && s[k] != '\r' && s[k] != '\n'
  }

  /**
    A command line carries exactly one line end, at its end, and splitting the
    rest at spaces gives back the command and its parameters.
   */
  lemma CommandLineParses(command: string, parameters: seq<string>)
    requires IsToken(command)
    requires forall i :: 0 <= i < |parameters| ==> IsToken(parameters[i])
    ensures var line := CommandLine(command, parameters);
            && Split(line[..|line| - 2], ' ') == [command] + parameters
            && IndexOf(line, EOL, 0) == Some(|line| - 2)
  {
    var words := [command] + parameters;
    var body := Join(" ", words);
    CommandLineBody(command, parameters);
    JoinHasNo(" ", words, '\r');
    SplitJoin(words, ' ');
    LineEndOnlyAtEnd(body);
  }

  lemma CommandLineBody(command: string, parameters: seq<string>)
    ensures var line := CommandLine(command, parameters);
            && line == Join(" ", [command] + parameters) + EOL
            && line[..|line| - 2] == Join(" ", [command] + parameters)
  {
    var words := [command] + parameters;
    if |parameters| == 0 {
      assert Join(" ", words) == command;
    } else {
      assert words[1..] == parameters;
    }
  }

  lemma LineEndOnlyAtEnd(body: string)
    requires forall k :: 0 <= k < |body| ==> body[k] != '\r'
    ensures IndexOf(body + EOL, EOL, 0) == Some(|body|)
  {
    var line := body + EOL;
    assert OccursAt(line, EOL, |body|) by {
      assert line[|body|..|body| + 2] == EOL;
    }
    forall k | 0 <= k < |body|
      ensures !OccursAt(line, EOL, k)
    {
      assert line[k..k + 2][0] == body[k];
    }
    IndexOfIs(line, EOL, 0, |body|);
  }

  /** A join of pieces that avoid `c`, with a separator that avoids `c`, avoids `c`. */
  lemma {:induction false} JoinHasNo(sep: string, parts: seq<string>, c: char)
    requires forall k :: 0 <= k < |sep| ==> sep[k] != c
    requires forall i, k :: 0 <= i < |parts| && 0 <= k < |parts[i]| ==> parts[i][k] != c
    ensures forall k :: 0 <= k < |Join(sep, parts)| ==> Join(sep, parts)[k] != c
    decreases |parts|
  {
    if |parts| > 1 {
      JoinHasNo(sep, parts[1..], c);
      var rest := Join(sep, parts[1..]);
      var s := parts[0] + sep + rest;
      forall k | 0 <= k < |s|
        ensures s[k] != c
      {
        if k < |parts[0]| {
        } else if k < |parts[0]| + |sep| {
          assert s[k] == sep[k - |parts[0]|];
        } else {
          assert s[k] == rest[k - |parts[0]| - |sep|];
        }
      }
    }
  }

  // ---------------------------------------------------------------------
  // Replies

  /** A parsed reply and the number of lines it took from the input. */
  datatype Reply = Reply(status: FtpStatus, consumed: nat)

  /** The first line at or after `i` that starts with `find`. */
  function Terminator(lines: seq<string>, i: nat, find: string): (k: Option<nat>)
    requires i <= |lines|
    ensures k.Some? ==> i <= k.value < |lines| && StartsWith(lines[k.value], find)
    ensures k.Some? ==> forall j :: i <= j < k.value ==> !StartsWith(lines[j], find)
    ensures k.None? ==> forall j :: i <= j < |lines| ==> !StartsWith(lines[j], find)
    decreases |lines| - i
  {
    if i == |lines| then None
    else if StartsWith(lines[i], find) then Some(i)
    else Terminator(lines, i + 1, find)
  }

  /**
    `GetResponseStatus`: the first line's first three characters are the
    code (`Int32.TryParse`); a `-` after them opens a multi-line reply that
    runs to the first later line starting with the code as printed by
    `ToString` and a space, and the description is every line of the reply
    joined with `newline`.
   */
  function GetResponseStatus(lines: seq<string>, newline: string): (r: Reply)
    ensures r.consumed <= |lines|
    ensures |lines| > 0 ==> r.consumed >= 1
    ensures r.status != NotAvailable ==>
              && |lines| > 0 && |lines[0]| >= 3
              && ParseInteger(lines[0][..3], Int32Min, Int32Max) == Some(r.status.code)
              && StartsWith(r.status.description, lines[0])
  {
    if |lines| == 0 then Reply(NotAvailable, 0)
    else if |lines[0]| < 3 then Reply(NotAvailable, 1)
    else match ParseInteger(lines[0][..3], Int32Min, Int32Max)
      case None => Reply(NotAvailable, 1)
      case Some(code) =>
        if |lines[0]| > 3 && lines[0][3] == '-' then
          match Terminator(lines, 1, IntToString(code) + " ")
          case None => Reply(NotAvailable, |lines|)
          case Some(k) =>
            JoinStartsWithFirst(newline, lines[..k + 1]);
            Reply(FtpStatus(code, Join(newline, lines[..k + 1])), k + 1)
        else Reply(FtpStatus(code, lines[0]), 1)
  }

  lemma JoinStartsWithFirst(sep: string, parts: seq<string>)
    requires |parts| >= 1
    ensures StartsWith(Join(sep, parts), parts[0])
  {
    if |parts| > 1 {
      assert Join(sep, parts) == parts[0] + (sep + Join(sep, parts[1..]));
    }
  }

  /** The three-digit text of a reply code of RFC 959 (100..999). */
  predicate IsReplyCode(code: int) {
    100 <= code <= 999
  }

  lemma ReplyCodeDigits(code: int)
    requires IsReplyCode(code)
    ensures |IntToString(code)| == 3
    ensures ParseInteger(IntToString(code), Int32Min, Int32Max) == Some(code)
  {
    ParseIntToString(code, Int32Min, Int32Max);
    assert NatToString(code) == NatToString(code / 10) + [DigitChar(code % 10)];
    assert NatToString(code / 10) == NatToString(code / 100) + [DigitChar(code / 10 % 10)];
  }

  /** A single-line reply `"ddd text"` is read as exactly that code and that line. */
  lemma SingleLineReply(code: int, text: string, rest: seq<string>, newline: string)
    requires IsReplyCode(code)
    ensures var line := IntToString(code) + " " + text;
            GetResponseStatus([line] + rest, newline) == Reply(FtpStatus(code, line), 1)
  {
    var line := IntToString(code) + " " + text;
    ReplyCodeDigits(code);
    assert line[..3] == IntToString(code);
    assert line[3] == ' ';
  }

  /**
    A multi-line reply `"ddd-first"`, lines that do not start with `"ddd "`,
    then `"ddd last"`: read as one reply of that code, every line of it joined
    with `newline`, and nothing after it consumed.
   */
  lemma MultiLineReply(code: int, first: string, middle: seq<string>, last: string, rest: seq<string>,
                       newline: string)
    requires IsReplyCode(code)
    requires forall j :: 0 <= j < |middle| ==> !StartsWith(middle[j], IntToString(code) + " ")
    ensures var lines := [IntToString(code) + "-" + first] + middle + [IntToString(code) + " " + last];
            GetResponseStatus(lines + rest, newline)
              == Reply(FtpStatus(code, Join(newline, lines)), |lines|)
  {
    var c := IntToString(code);
    var find := c + " ";
    var lines := [c + "-" + first] + middle + [c + " " + last];
    var input := lines + rest;
    ReplyCodeDigits(code);
    assert input[0][..3] == c;
    assert input[0][3] == '-';
    assert StartsWith(input[|lines| - 1], find) by {
      assert input[|lines| - 1] == c + " " + last;
    }
    forall j | 1 <= j < |lines| - 1
      ensures !StartsWith(input[j], find)
    {
      assert input[j] == middle[j - 1];
    }
    TerminatorIs(input, 1, find, |lines| - 1);
    assert input[..|lines|] == lines;
  }

  lemma {:induction false} TerminatorIs(lines: seq<string>, i: nat, find: string, k: nat)
    requires i <= k < |lines| && StartsWith(lines[k], find)
    requires forall j :: i <= j < k ==> !StartsWith(lines[j], find)
    ensures Terminator(lines, i, find) == Some(k)
    decreases k - i
  {
    if i < k {
      TerminatorIs(lines, i + 1, find, k);
    }
  }

  /** A multi-line reply cut off by the end of the stream is unreadable. */
  lemma TruncatedMultiLineReply(code: int, first: string, middle: seq<string>, newline: string)
    requires IsReplyCode(code)
    requires forall j :: 0 <= j < |middle| ==> !StartsWith(middle[j], IntToString(code) + " ")
    ensures GetResponseStatus([IntToString(code) + "-" + first] + middle, newline)
              == Reply(NotAvailable, 1 + |middle|)
  {
    var c := IntToString(code);
    var input := [c + "-" + first] + middle;
    ReplyCodeDigits(code);
    assert input[0][..3] == c;
    assert input[0][3] == '-';
    forall j | 1 <= j < |input|
      ensures !StartsWith(input[j], c + " ")
    {
      assert input[j] == middle[j - 1];
    }
  }

  /**
    The terminator is searched by the parsed value, not by the three
    characters read: a reply opened with `"012-"` ends at a line starting
    with `"12 "`.
   */
  lemma LeadingZeroCode(code: int, first: string, last: string, newline: string)
    requires 10 <= code <= 99
    ensures var c := IntToString(code);
            var lines := ["0" + c + "-" + first, c + " " + last];
            GetResponseStatus(lines, newline) == Reply(FtpStatus(code, Join(newline, lines)), 2)
  {
    var c := IntToString(code);
    var lines := ["0" + c + "-" + first, c + " " + last];
    ZeroPaddedCode(code);
    assert lines[0][..3] == "0" + c;
    MultiLineStatus(lines, newline, code);
    assert StartsWith(lines[1], c + " ");
    assert lines[..2] == lines;
  }

  /** Nor does a line starting with the three characters read, `"012 "`, end it. */
  lemma LeadingZeroUnended(code: int, first: string, last: string, newline: string)
    requires 10 <= code <= 99
    ensures var c := IntToString(code);
            GetResponseStatus(["0" + c + "-" + first, "0" + c + " " + last], newline) == Reply(NotAvailable, 2)
  {
    var c := IntToString(code);
    var lines := ["0" + c + "-" + first, "0" + c + " " + last];
    ZeroPaddedCode(code);
    assert lines[0][..3] == "0" + c;
    MultiLineStatus(lines, newline, code);
    assert !StartsWith(lines[1], c + " ") by {
      assert lines[1][0] == '0' != c[0];
    }
  }

  /** How `GetResponseStatus` reads a reply opened with `"ddd-"`. */
  lemma MultiLineStatus(lines: seq<string>, newline: string, code: int)
    requires |lines| > 0 && |lines[0]| > 3 && lines[0][3] == '-'
    requires ParseInteger(lines[0][..3], Int32Min, Int32Max) == Some(code)
    ensures Terminator(lines, 1, IntToString(code) + " ").None? ==>
              GetResponseStatus(lines, newline) == Reply(NotAvailable, |lines|)
    ensures Terminator(lines, 1, IntToString(code) + " ").Some? ==>
              var k := Terminator(lines, 1, IntToString(code) + " ").value;
              GetResponseStatus(lines, newline) == Reply(FtpStatus(code, Join(newline, lines[..k + 1])), k + 1)
  {
  }

  /** A two-digit code prints as two digits, and parses back with a leading zero. */
  lemma ZeroPaddedCode(code: int)
    requires 10 <= code <= 99
    ensures var c := IntToString(code);
            |c| == 2 && c[0] != '0' && ParseInteger("0" + c, Int32Min, Int32Max) == Some(code)
  {
    var c := IntToString(code);
    assert NatToString(code) == NatToString(code / 10) + [DigitChar(code % 10)];
    NatToStringValue(code);
    LeadingZeroValue(c);
    DigitsParse("0" + c, Int32Min, Int32Max);
  }

  // ---------------------------------------------------------------------
  // Passive mode and PORT

  /** The first digit at or after `i`, or `|s|`. */
  function FirstDigitFrom(s: string, i: nat): (k: nat)
    requires i <= |s|
    ensures i <= k <= |s|
    ensures forall j :: i <= j < k ==> !IsDigit(s[j])
    ensures k < |s| ==> IsDigit(s[k])
    decreases |s| - i
  {
    if i < |s| && !IsDigit(s[i]) then FirstDigitFrom(s, i + 1) else i
  }

  /** The length of `s` once its trailing non-digits are cut off (0 if it has no digit). */
  function DigitPrefixEnd(s: string): (j: nat)
    ensures j <= |s|
    ensures j > 0 ==> IsDigit(s[j - 1])
    ensures forall k :: j <= k < |s| ==> !IsDigit(s[k])
    decreases |s|
  {
    if |s| == 0 || IsDigit(s[|s| - 1]) then |s| else DigitPrefixEnd(s[..|s| - 1])
  }

  /** The address and port of a passive-mode data connection. */
  datatype PassiveTarget<A> = PassiveTarget(address: A, port: int)

  /**
    The six comma-separated fields of a `227` reply, found from the first
    digit after the code, the last one cut after its last digit.
   */
  function PasvFields(description: string): (r: Option<seq<string>>)
    ensures r.Some? ==> |r.value| == 6 && |r.value[5]| > 0 && IsDigit(r.value[5][|r.value[5]| - 1])
    ensures r.Some? ==> exists i :: 3 <= i < |description| && IsDigit(description[i])
  {
    if |description| < 4 then None
    else
      var i := FirstDigitFrom(description, 3);
      if i >= |description| then None
      else
        var fields := SplitN(description[i..], ',', 6);
        if |fields| != 6 then None
        else
          var j := DigitPrefixEnd(fields[5]);
          if j == 0 then None
          else Some(fields[..5] + [fields[5][..j]])
  }

  /** `(p1 << 8) + p2` in 32-bit arithmetic, if it is a valid port. */
  function CombinedPort(p1: int, p2: int): (r: Option<int>)
    ensures r.Some? ==> MinPort <= r.value <= MaxPort
  {
    var port := Wrap32(Wrap32(p1 * 256) + p2);
    if port < MinPort || port > MaxPort then None else Some(port)
  }

  /** The port of the last two fields, each parsed as a 32-bit number. */
  function PasvPort(high: string, low: string): (r: Option<int>)
    ensures r.Some? ==> MinPort <= r.value <= MaxPort
  {
    match (ParseInteger(high, Int32Min, Int32Max), ParseInteger(low, Int32Min, Int32Max))
    case (Some(p1), Some(p2)) => CombinedPort(p1, p2)
    case _ => None
  }

  /**
    `SetupPassiveConnection` up to the socket connect: the first four fields,
    joined with dots, go to `parseAddress`, the last two make the port.
   */
  function ParsePasv<A>(description: string, parseAddress: string -> Option<A>): (r: Result<PassiveTarget<A>>)
    ensures r.Failure? ==> r.error == ReplyError
    ensures r.Success? ==> MinPort <= r.value.port <= MaxPort
    ensures r.Success? <==>
              PasvFields(description).Some?
              && parseAddress(Join(".", PasvFields(description).value[..4])).Some?
              && PasvPort(PasvFields(description).value[4], PasvFields(description).value[5]).Some?
  {
    match PasvFields(description)
    case None => Failure(ReplyError)
    case Some(fields) =>
      match parseAddress(Join(".", fields[..4]))
      case None => Failure(ReplyError)
      case Some(address) =>
        match PasvPort(fields[4], fields[5])
        case None => Failure(ReplyError)
        case Some(port) => Success(PassiveTarget(address, port))
  }

  /**
    Two byte-sized fields give `p1 * 256 + p2`. Beyond that the fields are
    not checked one by one, only the combined port is: a high field of 2^24
    vanishes in the 32-bit shift, and a negative high field can be made up
    by a low field above 255.
   */
  lemma PasvPortOf(p1: int, p2: int)
    requires Int32Min <= p1 <= Int32Max && Int32Min <= p2 <= Int32Max
    ensures p1 == 16777216 && p2 == 21 ==> PasvPort(IntToString(p1), IntToString(p2)) == Some(21)
    ensures p1 == -1 && p2 == 300 ==> PasvPort(IntToString(p1), IntToString(p2)) == Some(44)
    ensures 0 <= p1 < 256 && 0 <= p2 < 256 ==> PasvPort(IntToString(p1), IntToString(p2)) == Some(p1 * 256 + p2)
  {
    PasvPortPrinted(p1, p2);
    CombinedPortCases(p1, p2);
  }

  /** The 32-bit combination of the two fields, in the byte-sized case and two out-of-range ones. */
  lemma CombinedPortCases(p1: int, p2: int)
    ensures p1 == 16777216 && p2 == 21 ==> CombinedPort(p1, p2) == Some(21)
    ensures p1 == -1 && p2 == 300 ==> CombinedPort(p1, p2) == Some(44)
    ensures 0 <= p1 < 256 && 0 <= p2 < 256 ==> CombinedPort(p1, p2) == Some(p1 * 256 + p2)
  {
    if p1 == 16777216 {
      assert Wrap32(0x1_0000_0000) == 0;
    } else if p1 == -1 {
      assert Wrap32(-256) == -256;
    }
  }

  /** Printed 32-bit numbers parse back, so the port is their 32-bit combination. */
  lemma PasvPortPrinted(p1: int, p2: int)
    requires Int32Min <= p1 <= Int32Max && Int32Min <= p2 <= Int32Max
    ensures PasvPort(IntToString(p1), IntToString(p2)) == CombinedPort(p1, p2)
  {
    var high, low := IntToString(p1), IntToString(p2);
    ParseIntToString(p1, Int32Min, Int32Max);
    ParseIntToString(p2, Int32Min, Int32Max);
    PasvPortValue(high, low, p1, p2);
  }

  /** Two fields that parse as 32-bit numbers are combined in 32-bit arithmetic. */
  lemma PasvPortValue(high: string, low: string, p1: int, p2: int)
    requires ParseInteger(high, Int32Min, Int32Max) == Some(p1)
    requires ParseInteger(low, Int32Min, Int32Max) == Some(p2)
    ensures PasvPort(high, low) == CombinedPort(p1, p2)
  {
  }

  /** `s.Replace(a, b)` for characters. */
  function ReplaceChar(s: string, a: char, b: char): (r: string)
    ensures |r| == |s|
    ensures forall k :: 0 <= k < |s| ==> r[k] == if s[k] == a then b else s[k]
  {
    seq(|s|, k requires 0 <= k < |s| => if s[k] == a then b else s[k])
  }

  /**
    The `PORT` argument built in `InitDataConnection`: the dotted address with
    commas for dots, then the high and low byte of the port.
   */
  function PortParam(address: string, port: int): (r: string)
    requires MinPort <= port <= MaxPort
    ensures |r| > |address|
    ensures forall k :: 0 <= k < |address| ==> r[k] != '.'
  {
    ReplaceChar(address, '.', ',') + "," + IntToString(port / 256) + "," + IntToString(port % 256)
  }

  /** The high and low bytes `PORT` sends recombine, by the `PASV` formula, to the port. */
  lemma PortBytesRoundTrip(port: int)
    requires MinPort <= port <= MaxPort
    ensures 0 <= port / 256 < 256 && 0 <= port % 256 < 256
    ensures Wrap32(Wrap32(port / 256 * 256) + port % 256) == port
  {
  }

  /** The two bytes `PORT` prints are read back by `PASV` as the port. */
  lemma PasvPortRoundTrip(port: int)
    requires MinPort <= port <= MaxPort
    ensures PasvPort(IntToString(port / 256), IntToString(port % 256)) == Some(port)
  {
    PasvPortPrinted(port / 256, port % 256);
    PortBytesRoundTrip(port);
  }

  /**
    A `227` reply carrying, between a lead-in without digits and a trailer
    without digits, exactly the text `PORT` would send for an IPv4 address
    and a port, is decoded to that address and port.
   */
  lemma PassiveReplyRoundTrip<A>(octets: seq<string>, port: int, lead: string, tail: string,
                                 parseAddress: string -> Option<A>)
    requires |octets| == 4
    requires forall k :: 0 <= k < 4 ==> |octets[k]| >= 1 && AllDigits(octets[k])
    requires MinPort <= port <= MaxPort
    requires |lead| >= 3 && forall k :: 3 <= k < |lead| ==> !IsDigit(lead[k])
    requires forall k :: 0 <= k < |tail| ==> !IsDigit(tail[k])
    requires parseAddress(Join(".", octets)).Some?
    ensures ParsePasv(lead + PortParam(Join(".", octets), port) + tail, parseAddress)
              == Success(PassiveTarget(parseAddress(Join(".", octets)).value, port))
  {
    PassiveReplyFields(octets, port, lead, tail);
    PasvPortRoundTrip(port);
    ParsePasvFields(lead + PortParam(Join(".", octets), port) + tail, octets,
                    IntToString(port / 256), IntToString(port % 256), parseAddress);
  }

  /** `ParsePasv` of a reply whose fields are known. */
  lemma ParsePasvFields<A>(description: string, octets: seq<string>, hi: string, lo: string,
                           parseAddress: string -> Option<A>)
    requires |octets| == 4 && PasvFields(description) == Some(octets + [hi, lo])
    requires parseAddress(Join(".", octets)).Some? && PasvPort(hi, lo).Some?
    ensures ParsePasv(description, parseAddress)
              == Success(PassiveTarget(parseAddress(Join(".", octets)).value, PasvPort(hi, lo).value))
  {
    var fields := octets + [hi, lo];
    assert fields[..4] == octets;
    assert fields[4] == hi && fields[5] == lo;
  }

  /** Such a reply splits into the four octets and the two port bytes. */
  lemma PassiveReplyFields(octets: seq<string>, port: int, lead: string, tail: string)
    requires |octets| == 4
    requires forall k :: 0 <= k < 4 ==> |octets[k]| >= 1 && AllDigits(octets[k])
    requires MinPort <= port <= MaxPort
    requires |lead| >= 3 && forall k :: 3 <= k < |lead| ==> !IsDigit(lead[k])
    requires forall k :: 0 <= k < |tail| ==> !IsDigit(tail[k])
    ensures PasvFields(lead + PortParam(Join(".", octets), port) + tail)
              == Some(octets + [IntToString(port / 256), IntToString(port % 256)])
  {
    PortParamFields(octets, port);
    NatToStringDigits(port / 256);
    NatToStringDigits(port % 256);
    DigitFieldsReply(octets, IntToString(port / 256), IntToString(port % 256), lead, tail);
  }

  /** A reply whose host-port text is six digit fields joined with commas yields those fields. */
  lemma DigitFieldsReply(octets: seq<string>, hi: string, lo: string, lead: string, tail: string)
    requires |octets| == 4
    requires forall k :: 0 <= k < 4 ==> |octets[k]| >= 1 && AllDigits(octets[k])
    requires |hi| >= 1 && AllDigits(hi) && |lo| >= 1 && AllDigits(lo)
    requires |lead| >= 3 && forall k :: 3 <= k < |lead| ==> !IsDigit(lead[k])
    requires forall k :: 0 <= k < |tail| ==> !IsDigit(tail[k])
    ensures PasvFields(lead + Join(",", octets + [hi, lo]) + tail) == Some(octets + [hi, lo])
  {
    PassiveFields(octets, hi, lo, lead, tail);
    assert (octets + [hi, lo + tail])[..5] + [(lo + tail)[..|lo|]] == octets + [hi, lo];
  }

  /** The `PORT` argument is the six numbers joined with commas. */
  lemma PortParamFields(octets: seq<string>, port: int)
    requires |octets| == 4
    requires forall k :: 0 <= k < 4 ==> AllDigits(octets[k])
    requires MinPort <= port <= MaxPort
    ensures PortParam(Join(".", octets), port)
              == Join(",", octets + [IntToString(port / 256), IntToString(port % 256)])
  {
    var hi := IntToString(port / 256);
    var lo := IntToString(port % 256);
    forall i, k | 0 <= i < |octets| && 0 <= k < |octets[i]|
      ensures octets[i][k] != '.'
    {
      assert IsDigit(octets[i][k]);
    }
    ReplaceJoin(octets, '.', ',');
    assert "." == ['.'] && "," == [','];
    JoinSnoc(",", octets, hi);
    JoinSnoc(",", octets + [hi], lo);
    assert octets + [hi] + [lo] == octets + [hi, lo];
  }

  /** The parser's view of a reply built from six digit fields. */
  lemma PassiveFields(octets: seq<string>, hi: string, lo: string, lead: string, tail: string)
    requires |octets| == 4
    requires forall k :: 0 <= k < 4 ==> |octets[k]| >= 1 && AllDigits(octets[k])
    requires |hi| >= 1 && AllDigits(hi) && |lo| >= 1 && AllDigits(lo)
    requires |lead| >= 3 && forall k :: 3 <= k < |lead| ==> !IsDigit(lead[k])
    requires forall k :: 0 <= k < |tail| ==> !IsDigit(tail[k])
    ensures var d := lead + Join(",", octets + [hi, lo]) + tail;
            && |d| >= 4
            && FirstDigitFrom(d, 3) == |lead|
            && SplitN(d[|lead|..], ',', 6) == octets + [hi, lo + tail]
            && DigitPrefixEnd(lo + tail) == |lo|
  {
    var fields := octets + [hi, lo];
    DigitFieldsStart(fields, lead, tail);
    DigitFieldsSplit(octets, hi, lo, tail);
    DigitPrefixEndIs(lo, tail);
  }

  /** The first digit after the code is where the fields begin. */
  lemma DigitFieldsStart(fields: seq<string>, lead: string, tail: string)
    requires |fields| >= 1 && |fields[0]| >= 1 && IsDigit(fields[0][0])
    requires |lead| >= 3 && forall k :: 3 <= k < |lead| ==> !IsDigit(lead[k])
    ensures var d := lead + Join(",", fields) + tail;
            && |d| >= 4
            && FirstDigitFrom(d, 3) == |lead|
            && d[|lead|..] == Join(",", fields) + tail
  {
    var body := Join(",", fields);
    var d := lead + body + tail;
    JoinStartsWithFirst(",", fields);
    assert d[|lead|] == body[0] == fields[0][0];
    FirstDigitIs(d, 3, |lead|);
    assert d[|lead|..] == body + tail;
  }

  /** Six digit fields joined with commas split back, the trailer staying on the last. */
  lemma DigitFieldsSplit(octets: seq<string>, hi: string, lo: string, tail: string)
    requires |octets| == 4
    requires forall k :: 0 <= k < 4 ==> AllDigits(octets[k])
    requires AllDigits(hi)
    ensures SplitN(Join(",", octets + [hi, lo]) + tail, ',', 6) == octets + [hi, lo + tail]
  {
    var fields := octets + [hi, lo];
    forall i, k | 0 <= i < 5 && 0 <= k < |fields[i]|
      ensures fields[i][k] != ','
    {
      assert IsDigit(fields[i][k]);
    }
    assert "," == [','];
    SplitNJoin(fields, ',', tail);
    assert fields[..5] + [lo + tail] == octets + [hi, lo + tail];
  }

  lemma NatToStringDigits(n: nat)
    ensures |IntToString(n)| >= 1 && AllDigits(IntToString(n))
  {
  }

  lemma {:induction false} FirstDigitIs(s: string, i: nat, k: nat)
    requires i <= k < |s| && IsDigit(s[k])
    requires forall j :: i <= j < k ==> !IsDigit(s[j])
    ensures FirstDigitFrom(s, i) == k
    decreases k - i
  {
    if i < k {
      FirstDigitIs(s, i + 1, k);
    }
  }

  lemma {:induction false} DigitPrefixEndIs(digits: string, tail: string)
    requires |digits| >= 1 && AllDigits(digits)
    requires forall k :: 0 <= k < |tail| ==> !IsDigit(tail[k])
    ensures DigitPrefixEnd(digits + tail) == |digits|
    decreases |tail|
  {
    var s := digits + tail;
    if |tail| > 0 {
      assert s[..|s| - 1] == digits + tail[..|tail| - 1];
      DigitPrefixEndIs(digits, tail[..|tail| - 1]);
    } else {
      assert s == digits;
    }
  }

  lemma {:induction false} JoinSnoc(sep: string, parts: seq<string>, x: string)
    requires |parts| >= 1
    ensures Join(sep, parts + [x]) == Join(sep, parts) + sep + x
    decreases |parts|
  {
    if |parts| == 1 {
      assert (parts + [x])[1..] == [x];
    } else {
      assert (parts + [x])[1..] == parts[1..] + [x];
      JoinSnoc(sep, parts[1..], x);
    }
  }

  lemma {:induction false} ReplaceJoin(parts: seq<string>, a: char, b: char)
    requires |parts| >= 1
    requires forall i, k :: 0 <= i < |parts| && 0 <= k < |parts[i]| ==> parts[i][k] != a
    ensures ReplaceChar(Join([a], parts), a, b) == Join([b], parts)
    decreases |parts|
  {
    if |parts| == 1 {
      assert ReplaceChar(parts[0], a, b) == parts[0];
    } else {
      ReplaceJoin(parts[1..], a, b);
      var rest := Join([a], parts[1..]);
      assert Join([a], parts) == parts[0] + [a] + rest;
      assert Join([b], parts) == parts[0] + [b] + Join([b], parts[1..]);
      var r := ReplaceChar(parts[0] + [a] + rest, a, b);
      assert r == parts[0] + [b] + ReplaceChar(rest, a, b);
    }
  }

  /**
    Splitting, into at most `|parts|` pieces, a join of pieces that avoid the
    separator followed by any trailer gives the pieces back, the trailer
    staying on the last one.
   */
  lemma {:induction false} SplitNJoin(parts: seq<string>, c: char, tail: string)
    requires |parts| >= 1
    requires forall i, k :: 0 <= i < |parts| - 1 && 0 <= k < |parts[i]| ==> parts[i][k] != c
    ensures SplitN(Join([c], parts) + tail, c, |parts|)
              == parts[..|parts| - 1] + [parts[|parts| - 1] + tail]
    decreases |parts|
  {
    if |parts| > 1 {
      var rest := Join([c], parts[1..]);
      var s := Join([c], parts) + tail;
      assert s == parts[0] + [c] + (rest + tail);
      FirstSeparator(parts[0], c, rest + tail);
      assert s[|parts[0]| + 1..] == rest + tail;
      assert s[..|parts[0]|] == parts[0];
      SplitNJoin(parts[1..], c, tail);
      assert parts[1..][..|parts| - 2] == parts[1..|parts| - 1];
      assert parts[..|parts| - 1] == [parts[0]] + parts[1..|parts| - 1];
    }
  }

  // ---------------------------------------------------------------------
  // The working directory

  /**
    `GetInitialPath`: the directory a `PWD` reply names. The text after the
    code and a separator is taken; if it opens with a quote, the text up to
    the next quote; a slash is appended unless present.
   */
  function GetInitialPath(status: FtpStatus): (r: Result<string>)
    ensures r.Success? ==> EndsWith(r.value, "/")
    ensures r.Failure? ==> r.error == ReplyError
    ensures r.Success? <==>
              && 200 <= status.code <= 300 && |status.description| > 4
              && (status.description[4] == '"' ==> exists k :: 5 <= k < |status.description| && status.description[k] == '"')
  {
    var d := status.description;
    if status.code < 200 || status.code > 300 || |d| <= 4 then Failure(ReplyError)
    else
      var msg := d[4..];
      if msg[0] == '"' then
        match IndexOfChar(msg, '"', 1)
        case None =>
          assert forall k :: 5 <= k < |d| ==> d[k] == msg[k - 4];
          Failure(ReplyError)
        case Some(q) =>
          assert d[q + 4] == msg[q];
          Success(SlashTerminated(msg[1..q]))
      else Success(SlashTerminated(msg))
  }

  /** The directory with a `/` appended unless it already ends in one. */
  function SlashTerminated(dir: string): (r: string)
    ensures EndsWith(r, "/")
    ensures StartsWith(r, dir) && |r| <= |dir| + 1
  {
    if EndsWith(dir, "/") then dir else dir + "/"
  }

  /** A `257 "dir" comment` reply yields `dir`, slash-terminated, whatever the comment says. */
  lemma QuotedPathReply(code: int, dir: string, comment: string)
    requires 200 <= code <= 300
    requires forall k :: 0 <= k < |dir| ==> dir[k] != '"'
    ensures GetInitialPath(FtpStatus(code, IntToString(code) + " \"" + dir + "\"" + comment))
              == Success(SlashTerminated(dir))
  {
    var c := IntToString(code);
    ReplyCodeDigits(code);
    assert c + " \"" + dir + "\"" + comment == (c + " ") + "\"" + dir + "\"" + comment;
    QuotedPathAfter(code, c + " ", dir, comment);
  }

  /** The same for any four characters before the quote. */
  lemma QuotedPathAfter(code: int, head: string, dir: string, comment: string)
    requires 200 <= code <= 300 && |head| == 4
    requires forall k :: 0 <= k < |dir| ==> dir[k] != '"'
    ensures GetInitialPath(FtpStatus(code, head + "\"" + dir + "\"" + comment)) == Success(SlashTerminated(dir))
  {
    var d := head + "\"" + dir + "\"" + comment;
    var msg := d[4..];
    assert msg == "\"" + dir + "\"" + comment;
    assert msg[|dir| + 1] == '"';
    assert forall k :: 1 <= k < |dir| + 1 ==> msg[k] == dir[k - 1];
    IndexOfCharIs(msg, '"', 1, |dir| + 1);
    assert msg[1..|dir| + 1] == dir;
  }

  /** Reading back a path already reported by `GetInitialPath` changes nothing. */
  lemma InitialPathStable(code: int, dir: string)
    requires 200 <= code <= 300
    requires forall k :: 0 <= k < |dir| ==> dir[k] != '"'
    ensures GetInitialPath(FtpStatus(code, IntToString(code) + " \"" + SlashTerminated(dir) + "\""))
              == Success(SlashTerminated(dir))
  {
    var r := SlashTerminated(dir);
    assert forall k :: 0 <= k < |r| ==> r[k] != '"' by {
      assert forall k :: 0 <= k < |dir| ==> r[k] == dir[k];
    }
    QuotedPathReply(code, r, "");
    assert IntToString(code) + " \"" + r + "\"" + "" == IntToString(code) + " \"" + r + "\"";
  }

  // ---------------------------------------------------------------------
  // Log-in

  /** A `NetworkCredential`; each part may be null. */
  datatype NetworkCredential = NetworkCredential(userName: Option<string>, password: Option<string>, domain: Option<string>)

  /** The `USER` and `PASS` arguments `Authenticate` sends. */
  datatype Login = Login(user: string, password: string)

  const AnonymousUser: string := "anonymous"
  const AnonymousPassword: string := "@anonymous"

  /**
    `Authenticate`: a missing user name or password falls back to the
    anonymous log-in, and a non-empty domain is prefixed with a backslash.
   */
  function LoginFor(credentials: Option<NetworkCredential>): (l: Login)
    ensures credentials.None? ==> l == Login(AnonymousUser, AnonymousPassword)
    ensures credentials.Some? ==>
              var c := credentials.value;
              && l.password == (if c.password.Some? then c.password.value else AnonymousPassword)
              && EndsWith(l.user, if c.userName.Some? then c.userName.value else AnonymousUser)
              && (c.domain.Some? && |c.domain.value| > 0 <==> |l.user| > |if c.userName.Some? then c.userName.value else AnonymousUser|)
  {
    var user := if credentials.Some? && credentials.value.userName.Some? then credentials.value.userName.value else AnonymousUser;
    var password := if credentials.Some? && credentials.value.password.Some? then credentials.value.password.value else AnonymousPassword;
    var domain := if credentials.Some? && credentials.value.domain.Some? then credentials.value.domain.value else "";
    if |domain| > 0 then Login(domain + "\\" + user, password) else Login(user, password)
  }

  /** The `domain\user` form splits back at its first backslash when the domain has none. */
  lemma LoginDomainSplits(domain: string, user: string, password: Option<string>)
    requires |domain| > 0
    requires forall k :: 0 <= k < |domain| ==> domain[k] != '\\'
    ensures var l := LoginFor(Some(NetworkCredential(Some(user), password, Some(domain))));
            && IndexOfChar(l.user, '\\', 0) == Some(|domain|)
            && l.user[..|domain|] == domain && l.user[|domain| + 1..] == user
  {
    var s := domain + "\\" + user;
    assert s[|domain|] == '\\';
    assert forall k :: 0 <= k < |domain| ==> s[k] == domain[k];
    assert s[..|domain|] == domain;
    assert s[|domain| + 1..] == user;
  }
}

=== FILE: ftp_request.dfy ===
/**
  `FtpWebRequest` as a state machine: the request state and its guard, the
  configuration setters that are only open before the request starts, the
  `Method` check against the sorted table of supported commands,
  `SendCommand`, which records each reply in the response, and the
  state changes of `Abort`, `BeginGetResponse`, `BeginGetRequestStream`,
  the in-progress branch of `ProcessRequest` and `SetTransferCompleted`.

  Each call runs under the request lock, so it is one atomic step here.
  Threads, the control and data sockets, the proxy and the `Uri` are not
  modelled; what the server sends is a sequence of lines.
 */
module FtpRequest {
  import opened Wrappers
  import opened Text
  import opened FtpProtocol
  import opened FtpResponse

  datatype RequestState =
    | Before | Scheduled | Connecting | Authenticating | OpeningData | TransferInProgress
    | Finished | Aborted | Error

  /** `InFinalState`. */
  predicate InFinalState(s: RequestState) {
    s == Aborted || s == Error || s == Finished
  }

  /** `InProgress`: started and not yet in a final state. */
  predicate InProgress(s: RequestState) {
    s != Before && !InFinalState(s)
  }

  /** The credentials property: a `NetworkCredential`, or some other `ICredentials`. */
  datatype Credentials = Network(credential: NetworkCredential) | OtherCredentials

  /** Identity of an `IWebProxy`. */
  type ProxyId = nat

  datatype FtpWebRequest = FtpWebRequest(
    state: RequestState,
    verb: string,                      // `Method`
    offset: int,                       // `ContentOffset`
    credentials: Option<NetworkCredential>,
    enableSsl: bool,
    keepAlive: bool,
    proxy: Option<ProxyId>,
    readWriteTimeout: int,
    renameTo: Option<string>,
    usePassive: bool,
    binary: bool,                      // `UseBinary`
    timeout: int,
    response: Option<FtpWebResponse>)

  const DefaultTimeout: int := 100000
  const DefaultReadWriteTimeout: int := 300000

  /** The request `WebRequest.Create` builds; `proxy` is the global default proxy. */
  function NewRequest(proxy: Option<ProxyId>): (r: FtpWebRequest)
    ensures r.state == Before && r.verb == DownloadFile && r.response.None?
    ensures r.timeout == DefaultTimeout && r.readWriteTimeout == DefaultReadWriteTimeout
    ensures r.offset == 0 && r.binary && r.usePassive && !r.enableSsl && !r.keepAlive
    ensures r.credentials.None? && r.renameTo.None? && r.proxy == proxy
  {
    FtpWebRequest(Before, DownloadFile, 0, None, false, false, proxy, DefaultReadWriteTimeout, None,
                  true, true, DefaultTimeout, None)
  }

  // ---------------------------------------------------------------------
  // The state guard

  /**
    The `State` setter: an aborted request refuses with a `WebException`
    (`RequestCanceled`), a finished or failed one with
    `InvalidOperationException`; any other state may move anywhere.
   */
  function SetState(req: FtpWebRequest, s: RequestState): (r: Result<FtpWebRequest>)
    ensures r.Success? <==> !InFinalState(req.state)
    ensures req.state == Aborted ==> r == Failure(WebError(RequestCanceled))
    ensures req.state == Finished || req.state == Error ==> r == Failure(InvalidOperation)
    ensures r.Success? ==> r.value.state == s && r.value.(state := req.state) == req
  {
    if req.state == Aborted then Failure(WebError(RequestCanceled))
    else if InFinalState(req.state) then Failure(InvalidOperation)
    else Success(req.(state := s))
  }

  /**
    A run of attempted state changes; a refused change throws and leaves the
    request as it was.
   */
  function Run(req: FtpWebRequest, targets: seq<RequestState>): FtpWebRequest
    decreases |targets|
  {
    if |targets| == 0 then req
    else
      var next := SetState(req, targets[0]);
      Run(if next.Success? then next.value else req, targets[1..])
  }

  /** Final states are absorbing: no run of state changes leaves one. */
  lemma {:induction false} FinalStateAbsorbing(req: FtpWebRequest, targets: seq<RequestState>)
    requires InFinalState(req.state)
    ensures Run(req, targets) == req
    decreases |targets|
  {
    if |targets| > 0 {
      FinalStateAbsorbing(req, targets[1..]);
    }
  }

  /** A run ends in a final state once any of its targets is one; only the state changes. */
  lemma {:induction false} RunReachesFinal(req: FtpWebRequest, targets: seq<RequestState>, k: nat)
    requires k < |targets| && InFinalState(targets[k])
    ensures InFinalState(Run(req, targets).state)
    ensures Run(req, targets).(state := req.state) == req
    decreases |targets|
  {
    var next := SetState(req, targets[0]);
    var mid := if next.Success? then next.value else req;
    if k == 0 {
      if next.Success? {
        FinalStateAbsorbing(mid, targets[1..]);
      } else {
        FinalStateAbsorbing(req, targets[1..]);
      }
    } else {
      RunReachesFinal(mid, targets[1..], k - 1);
    }
  }

  /** `CheckRequestStarted`: configuration is possible only before the request starts. */
  function CheckRequestStarted(req: FtpWebRequest): (r: Result<bool>)
    ensures r.Success? <==> req.state == Before
    ensures r.Failure? ==> r.error == InvalidOperation
  {
    if req.state != Before then Failure(InvalidOperation) else Success(true)
  }

  // ---------------------------------------------------------------------
  // Setters

  /** `ContentOffset`: a non-negative restart offset. */
  function SetContentOffset(req: FtpWebRequest, value: int): (r: Result<FtpWebRequest>)
    ensures r.Success? <==> req.state == Before && value >= 0
    ensures req.state == Before && value < 0 ==> r == Failure(ArgumentOutOfRange)
    ensures r.Success? ==> r.value.offset == value && r.value.(offset := req.offset) == req
  {
    var _ :- CheckRequestStarted(req);
    if value < 0 then Failure(ArgumentOutOfRange) else Success(req.(offset := value))
  }

  /** `Credentials`: a non-null `NetworkCredential`. */
  function SetCredentials(req: FtpWebRequest, value: Option<Credentials>): (r: Result<FtpWebRequest>)
    ensures r.Success? <==> req.state == Before && value.Some? && value.value.Network?
    ensures req.state == Before && value.None? ==> r == Failure(ArgumentNull)
    ensures req.state == Before && value == Some(OtherCredentials) ==> r == Failure(Argument)
    ensures r.Success? ==> r.value.credentials == Some(value.value.credential)
                           && r.value.(credentials := req.credentials) == req
  {
    var _ :- CheckRequestStarted(req);
    match value
    case None => Failure(ArgumentNull)
    case Some(OtherCredentials) => Failure(Argument)
    case Some(Network(c)) => Success(req.(credentials := Some(c)))
  }

  function SetEnableSsl(req: FtpWebRequest, value: bool): (r: Result<FtpWebRequest>)
    ensures r.Success? <==> req.state == Before
    ensures r.Success? ==> r.value.enableSsl == value && r.value.(enableSsl := req.enableSsl) == req
  {
    var _ :- CheckRequestStarted(req);
    Success(req.(enableSsl := value))
  }

  /** `KeepAlive`: checked, then ignored (keep-alive is not supported). */
  function SetKeepAlive(req: FtpWebRequest, value: bool): (r: Result<FtpWebRequest>)
    ensures r.Success? <==> req.state == Before
    ensures r.Success? ==> r.value == req
  {
    var _ :- CheckRequestStarted(req);
    Success(req)
  }

  function SetProxy(req: FtpWebRequest, value: Option<ProxyId>): (r: Result<FtpWebRequest>)
    ensures r.Success? <==> req.state == Before
    ensures r.Success? ==> r.value.proxy == value && r.value.(proxy := req.proxy) == req
  {
    var _ :- CheckRequestStarted(req);
    Success(req.(proxy := value))
  }

  /** `ReadWriteTimeout`: milliseconds, or -1 for infinite. */
  function SetReadWriteTimeout(req: FtpWebRequest, value: int): (r: Result<FtpWebRequest>)
    ensures r.Success? <==> req.state == Before && value >= -1
    ensures req.state == Before && value < -1 ==> r == Failure(ArgumentOutOfRange)
    ensures r.Success? ==> r.value.readWriteTimeout == value && r.value.(readWriteTimeout := req.readWriteTimeout) == req
  {
    var _ :- CheckRequestStarted(req);
    if value < -1 then Failure(ArgumentOutOfRange) else Success(req.(readWriteTimeout := value))
  }

  /** `RenameTo`: a non-empty name. */
  function SetRenameTo(req: FtpWebRequest, value: Option<string>): (r: Result<FtpWebRequest>)
    ensures r.Success? <==> req.state == Before && value.Some? && |value.value| > 0
    ensures req.state == Before && r.Failure? ==> r.error == Argument
    ensures r.Success? ==> r.value.renameTo == value && r.value.(renameTo := req.renameTo) == req
  {
    var _ :- CheckRequestStarted(req);
    if value.None? || |value.value| == 0 then Failure(Argument) else Success(req.(renameTo := value))
  }

  function SetUsePassive(req: FtpWebRequest, value: bool): (r: Result<FtpWebRequest>)
    ensures r.Success? <==> req.state == Before
    ensures r.Success? ==> r.value.usePassive == value && r.value.(usePassive := req.usePassive) == req
  {
    var _ :- CheckRequestStarted(req);
    Success(req.(usePassive := value))
  }

  function SetUseBinary(req: FtpWebRequest, value: bool): (r: Result<FtpWebRequest>)
    ensures r.Success? <==> req.state == Before
    ensures r.Success? ==> r.value.binary == value && r.value.(binary := req.binary) == req
  {
    var _ :- CheckRequestStarted(req);
    Success(req.(binary := value))
  }

  /** `Timeout`: milliseconds, or -1 for infinite. */
  function SetTimeout(req: FtpWebRequest, value: int): (r: Result<FtpWebRequest>)
    ensures r.Success? <==> req.state == Before && value >= -1
    ensures req.state == Before && value < -1 ==> r == Failure(ArgumentOutOfRange)
    ensures r.Success? ==> r.value.timeout == value && r.value.(timeout := req.timeout) == req
  {
    var _ :- CheckRequestStarted(req);
    if value < -1 then Failure(ArgumentOutOfRange) else Success(req.(timeout := value))
  }

  /** `DataType`: the `TYPE` argument, image for binary transfers and ASCII otherwise. */
  function DataType(req: FtpWebRequest): (t: string)
    ensures t == "I" <==> req.binary
    ensures t == "A" <==> !req.binary
  {
    if req.binary then "I" else "A"
  }

  // ---------------------------------------------------------------------
  // Method

  /** `supportedCommands`, in the order it is declared. */
  const SupportedCommands: seq<string> :=
    ["APPE", "DELE", "LIST", "MDTM", "MKD", "NLST", "PWD", "RENAME", "RETR", "RMD", "SIZE", "STOR", "STOU"]

  /** The declared table is in ascending order, as the binary search needs. */
  lemma SupportedCommandsSorted()
    ensures StrictlySorted(SupportedCommands)
  {
    var a := SupportedCommands;
    forall i | 0 <= i < |a| - 1
      ensures OrdinalLess(a[i], a[i + 1])
    {
    }
    AdjacentSorted(a);
  }

  lemma {:induction false} AdjacentSorted(a: seq<string>)
    requires forall i :: 0 <= i < |a| - 1 ==> OrdinalLess(a[i], a[i + 1])
    ensures StrictlySorted(a)
    decreases |a|
  {
    if |a| > 1 {
      AdjacentSorted(a[1..]);
      forall j | 1 <= j < |a|
        ensures OrdinalLess(a[0], a[j])
      {
        if j > 1 {
          assert OrdinalLess(a[1..][0], a[1..][j - 1]);
          OrdinalLessTransitive(a[0], a[1], a[j]);
        }
      }
      forall i, j | 0 <= i < j < |a|
        ensures OrdinalLess(a[i], a[j])
      {
        if i > 0 {
          assert OrdinalLess(a[1..][i - 1], a[1..][j - 1]);
        }
      }
    }
  }

  /**
    `Array.BinarySearch`: the index of `key` if present, otherwise the
    bitwise complement of the index where it would be inserted.
   */
  method BinarySearch(a: seq<string>, key: string) returns (index: int)
    requires StrictlySorted(a)
    ensures 0 <= index ==> index < |a| && a[index] == key
    ensures index < 0 <==> key !in a
    ensures index < 0 ==> var at := -index - 1;
              && 0 <= at <= |a|
              && (forall i :: 0 <= i < at ==> OrdinalLess(a[i], key))
              && (forall i :: at <= i < |a| ==> OrdinalLess(key, a[i]))
  {
    var lo, hi := 0, |a| - 1;
    while lo <= hi
      invariant 0 <= lo <= |a| && -1 <= hi < |a| && lo <= hi + 1
      invariant forall i :: 0 <= i < lo ==> OrdinalLess(a[i], key)
      invariant forall i :: hi < i < |a| ==> OrdinalLess(key, a[i])
      decreases hi - lo
    {
      var mid := lo + (hi - lo) / 2;
      if a[mid] == key {
        return mid;
      }
      OrdinalLessTotal(a[mid], key);
      if OrdinalLess(a[mid], key) {
        forall i | 0 <= i < mid
          ensures OrdinalLess(a[i], key)
        {
          OrdinalLessTransitive(a[i], a[mid], key);
        }
        lo := mid + 1;
      } else {
        forall i | mid < i < |a|
          ensures OrdinalLess(key, a[i])
        {
          OrdinalLessTransitive(key, a[mid], a[i]);
        }
        hi := mid - 1;
      }
    }
    forall i | 0 <= i < |a|
      ensures a[i] != key
    {
      if a[i] == key {
        OrdinalLessIrreflexive(key);
      }
    }
    index := -lo - 1;
  }

  /**
    The `Method` setter: before the request starts, exactly the supported
    commands are accepted; null is an `ArgumentNullException`, anything else
    (the empty string included) an `ArgumentException`.
   */
  method SetMethod(req: FtpWebRequest, value: Option<string>) returns (r: Result<FtpWebRequest>)
    ensures req.state != Before ==> r == Failure(InvalidOperation)
    ensures req.state == Before && value.None? ==> r == Failure(ArgumentNull)
    ensures req.state == Before && value.Some? ==> (r.Success? <==> value.value in SupportedCommands)
    ensures req.state == Before && value.Some? && r.Failure? ==> r.error == Argument
    ensures r.Success? ==> r.value.verb == value.value && r.value.(verb := req.verb) == req
  {
    if req.state != Before {
      return Failure(InvalidOperation);
    }
    if value.None? {
      return Failure(ArgumentNull);
    }
    var v := value.value;
    if |v| == 0 {
      assert v !in SupportedCommands;
      return Failure(Argument);
    }
    SupportedCommandsSorted();
    var index := BinarySearch(SupportedCommands, v);
    if index < 0 {
      return Failure(Argument);
    }
    r := Success(req.(verb := v));
  }

  // ---------------------------------------------------------------------
  // Commands on the control connection

  /**
    What `SendCommand` did: the bytes handed to the control stream, the
    reply if one was awaited, the number of lines it took, and the request
    with the reply recorded in its response.
   */
  datatype Sent = Sent(bytes: seq<byte>, status: Option<FtpStatus>, consumed: nat, request: FtpWebRequest)

  /**
    `SendCommand`: the command line goes out in ASCII. A failed write yields
    `Write failed` without reading; a command sent without waiting reads
    nothing and yields no status; otherwise the reply is read, and the
    request's response, if there is one yet, takes its status.
   */
  function SendCommand(req: FtpWebRequest, waitResponse: bool, command: string, parameters: seq<string>,
                       writeFails: bool, input: seq<string>, newline: string): (r: Sent)
    ensures r.bytes == AsciiBytes(CommandLine(command, parameters))
    ensures writeFails ==> r == Sent(r.bytes, Some(WriteFailed), 0, req)
    ensures !writeFails && !waitResponse ==> r == Sent(r.bytes, None, 0, req)
    ensures !writeFails && waitResponse ==>
              var reply := GetResponseStatus(input, newline);
              && r.status == Some(reply.status) && r.consumed == reply.consumed
              && r.consumed <= |input| && (|input| > 0 ==> r.consumed >= 1)
              && r.request.(response := req.response) == req
              && (req.response.None? ==> r.request.response.None?)
              && (req.response.Some? ==> r.request.response == Some(UpdateStatus(req.response.value, reply.status)))
  {
    var bytes := AsciiBytes(CommandLine(command, parameters));
    if writeFails then Sent(bytes, Some(WriteFailed), 0, req)
    else if !waitResponse then Sent(bytes, None, 0, req)
    else
      var reply := GetResponseStatus(input, newline);
      var response := if req.response.Some? then Some(UpdateStatus(req.response.value, reply.status)) else None;
      Sent(bytes, Some(reply.status), reply.consumed, req.(response := response))
  }

  /**
    The status an awaited command returns is the one its request's response
    then reports, and the response is final exactly when the reply is.
   */
  lemma SentReplyIsResponseStatus(req: FtpWebRequest, command: string, parameters: seq<string>,
                                  input: seq<string>, newline: string)
    requires req.response.Some?
    ensures var r := SendCommand(req, true, command, parameters, false, input, newline);
            && r.status.Some? && r.request.response.Some?
            && r.request.response.value.statusCode == r.status.value.code
            && r.request.response.value.statusDescription == Some(r.status.value.description)
            && (IsFinal(r.request.response.value) <==> r.status.value.code >= 200)
  {
  }

  // ---------------------------------------------------------------------
  // Starting, aborting and completing

  /** The three upload methods, which alone have a request stream. */
  const AppendFile: string := "APPE"
  const UploadFile: string := "STOR"
  const UploadFileWithUniqueName: string := "STOU"

  /** The command `Abort` sends during a transfer, and what it does to the request. */
  datatype Aborting = Aborting(request: FtpWebRequest, sent: Option<string>)

  /**
    `Abort`: a transfer in progress gets an `ABOR` (no reply awaited); a
    request not yet in a final state becomes `Aborted` with a `426` response.
   */
  function Abort(req: FtpWebRequest): (r: Aborting)
    ensures InFinalState(r.request.state)
    ensures InFinalState(req.state) ==> r.request == req
    ensures !InFinalState(req.state) ==>
              && r.request.state == Aborted
              && r.request.response == Some(NewResponse(req.verb, Some(FtpStatus(FileActionAborted, "Aborted by request"))))
              && r.request.(state := req.state, response := req.response) == req
    ensures r.sent.Some? <==> req.state == TransferInProgress
    ensures r.sent.Some? ==> r.sent.value == CommandLine("ABOR", [])
  {
    var sent := if req.state == TransferInProgress then Some(CommandLine("ABOR", [])) else None;
    if InFinalState(req.state) then Aborting(req, sent)
    else
      var aborted := NewResponse(req.verb, Some(FtpStatus(FileActionAborted, "Aborted by request")));
      Aborting(req.(state := Aborted, response := Some(aborted)), sent)
  }

  /** Aborting twice sends nothing and changes nothing the second time. */
  lemma AbortIdempotent(req: FtpWebRequest)
    ensures var once := Abort(req).request;
            Abort(once) == Aborting(once, None)
  {
  }

  /**
    After `Abort` nothing can be configured any more, and a request that was
    still running refuses to start with `RequestCanceled`.
   */
  lemma AbortedRequestIsClosed(req: FtpWebRequest, pending: bool, timeout: int)
    requires !InFinalState(req.state)
    ensures var a := Abort(req).request;
            && SetTimeout(a, timeout) == Failure(InvalidOperation)
            && BeginGetResponse(a, pending).Failure?
            && BeginGetRequestStream(a).Failure?
            && SetState(a, Scheduled) == Failure(WebError(RequestCanceled))
  {
  }

  /** The outcome of `BeginGetResponse`: the request, and whether the result completed at once. */
  datatype Started = Started(request: FtpWebRequest, completed: bool)

  /**
    `BeginGetResponse`: refused while an earlier asynchronous call is pending
    or after an abort; a request already in a final state completes at once
    with its response; an unstarted request is scheduled.
   */
  function BeginGetResponse(req: FtpWebRequest, pending: bool): (r: Result<Started>)
    ensures pending ==> r == Failure(InvalidOperation)
    ensures !pending && req.state == Aborted ==> r == Failure(WebError(RequestCanceled))
    ensures r.Success? <==> !pending && req.state != Aborted
    ensures r.Success? ==> (r.value.completed <==> InFinalState(req.state))
    ensures r.Success? ==> r.value.request.state == (if req.state == Before then Scheduled else req.state)
    ensures r.Success? ==> r.value.request.(state := req.state) == req
  {
    if pending then Failure(InvalidOperation)
    else if req.state == Aborted then Failure(WebError(RequestCanceled))
    else if InFinalState(req.state) then Success(Started(req, true))
    else if req.state == Before then
      match SetState(req, Scheduled)
      case Failure(e) => Failure(e)
      case Success(next) => Success(Started(next, false))
    else Success(Started(req, false))
  }

  /**
    `BeginGetRequestStream`: only an upload method has a request stream, and
    only an unstarted, unaborted request may open one.
   */
  function BeginGetRequestStream(req: FtpWebRequest): (r: Result<FtpWebRequest>)
    ensures req.verb !in {UploadFile, UploadFileWithUniqueName, AppendFile} ==> r == Failure(ProtocolViolation)
    ensures r.Success? <==> req.state == Before && req.verb in {UploadFile, UploadFileWithUniqueName, AppendFile}
    ensures (req.verb in {UploadFile, UploadFileWithUniqueName, AppendFile} && req.state == Aborted)
              ==> r == Failure(WebError(RequestCanceled))
    ensures r.Success? ==> r.value.state == Scheduled && r.value.(state := Before) == req
  {
    if req.verb != UploadFile && req.verb != UploadFileWithUniqueName && req.verb != AppendFile then
      Failure(ProtocolViolation)
    else if req.state == Aborted then Failure(WebError(RequestCanceled))
    else if req.state != Before then Failure(InvalidOperation)
    else SetState(req, Scheduled)
  }

  /** Starting twice: the second `BeginGetRequestStream` is refused. */
  lemma RequestStreamOnce(req: FtpWebRequest)
    requires BeginGetRequestStream(req).Success?
    ensures BeginGetRequestStream(BeginGetRequestStream(req).value) == Failure(InvalidOperation)
  {
  }

  /** A request step that read from the control connection. */
  datatype Progress = Progress(request: FtpWebRequest, consumed: nat)

  /**
    The branch of `ProcessRequest` for a request that is not `Scheduled`:
    while in progress, read a reply into the response, and finish if the
    reply is final. A `Scheduled` request takes the other branch, which
    creates the response and runs `ProcessMethod`.
   */
  function ContinueRequest(req: FtpWebRequest, input: seq<string>, newline: string): (r: Result<Progress>)
    requires req.state != Scheduled
    ensures !InProgress(req.state) ==> r == Success(Progress(req, 0))
    ensures InProgress(req.state) && req.response.None? ==> r == Failure(NullReference)
    ensures r.Success? ==> r.value.consumed <= |input|
    ensures r.Success? && InProgress(req.state) ==>
              var status := GetResponseStatus(input, newline).status;
              && r.value.request.response == Some(UpdateStatus(req.response.value, status))
              && (r.value.request.state == Finished <==> status.code >= 200)
              && (status.code < 200 ==> r.value.request.state == req.state)
  {
    if !InProgress(req.state) then Success(Progress(req, 0))
    else if req.response.None? then Failure(NullReference)
    else
      var reply := GetResponseStatus(input, newline);
      var response := UpdateStatus(req.response.value, reply.status);
      var updated := req.(response := Some(response));
      if IsFinal(response) then
        match SetState(updated, Finished)
        case Failure(e) => Failure(e)
        case Success(finished) => Success(Progress(finished, reply.consumed))
      else Success(Progress(updated, reply.consumed))
  }

  /**
    A request settles once a final reply is read: it is `Finished`, and the
    next continuation reads nothing and changes nothing.
   */
  lemma ContinueRequestSettles(req: FtpWebRequest, input: seq<string>, more: seq<string>, newline: string)
    requires req.state != Scheduled
    requires ContinueRequest(req, input, newline).Success?
    requires InProgress(req.state) && GetResponseStatus(input, newline).status.code >= 200
    ensures var next := ContinueRequest(req, input, newline).value.request;
            && next.state == Finished
            && ContinueRequest(next, more, newline) == Success(Progress(next, 0))
  {
  }

  /** A reply below 200 leaves the request in progress, to read the next reply. */
  lemma ContinueRequestAwaitsFinal(req: FtpWebRequest, input: seq<string>, newline: string)
    requires req.state != Scheduled
    requires ContinueRequest(req, input, newline).Success?
    requires InProgress(req.state) && GetResponseStatus(input, newline).status.code < 200
    ensures var next := ContinueRequest(req, input, newline).value.request;
            && InProgress(next.state) && next.response.Some? && !IsFinal(next.response.value)
  {
  }

  /**
    `SetTransferCompleted`: once the data connection closes, the request
    finishes and reads the closing reply into its response; a request
    already in a final state is left alone. Without a response the source
    sets `Finished` and reads the reply before it dereferences null; the
    `NullReference` failure here does not carry those effects.
   */
  function SetTransferCompleted(req: FtpWebRequest, input: seq<string>, newline: string): (r: Result<Progress>)
    ensures InFinalState(req.state) ==> r == Success(Progress(req, 0))
    ensures !InFinalState(req.state) && req.response.None? ==> r == Failure(NullReference)
    ensures r.Success? ==> r.value.request.state in {req.state, Finished} && InFinalState(r.value.request.state)
    ensures r.Success? && !InFinalState(req.state) ==>
              && r.value.request.state == Finished
              && r.value.request.response == Some(UpdateStatus(req.response.value, GetResponseStatus(input, newline).status))
              && r.value.consumed == GetResponseStatus(input, newline).consumed
  {
    if InFinalState(req.state) then Success(Progress(req, 0))
    else
      match SetState(req, Finished)
      case Failure(e) => Failure(e)
      case Success(finished) =>
        if finished.response.None? then Failure(NullReference)
        else
          var reply := GetResponseStatus(input, newline);
          Success(Progress(finished.(response := Some(UpdateStatus(finished.response.value, reply.status))), reply.consumed))
  }

  /** A second completion notice reads nothing and changes nothing. */
  lemma TransferCompletedOnce(req: FtpWebRequest, input: seq<string>, more: seq<string>, newline: string)
    requires SetTransferCompleted(req, input, newline).Success?
    ensures var done := SetTransferCompleted(req, input, newline).value.request;
            SetTransferCompleted(done, more, newline) == Success(Progress(done, 0))
  {
  }
}

=== FILE: ftp_response.dfy ===
/**
  `FtpWebResponse`: the status of an FTP request as last read from the
  server, the data stream of a transfer, and the close/dispose bookkeeping.

  The request and the URI it holds are not modelled; the response stream is
  either `Stream.Null` or an FTP data stream known by identity.
 */
module FtpResponse {
  import opened Wrappers
  import opened FtpProtocol

  /** `Stream.Null`, or the `FtpDataStream` of a transfer. */
  datatype ResponseStream = NullStream | DataStream(id: nat)

  /** `DateTime.MinValue`, as ticks. */
  const MinDate: int := 0

  /** `WebRequestMethods.Ftp.DownloadFile` and `ListDirectory`. */
  const DownloadFile: string := "RETR"
  const ListDirectory: string := "NLST"

  datatype FtpWebResponse = FtpWebResponse(
    statusCode: int,
    statusDescription: Option<string>,
    verb: string,
    stream: Option<ResponseStream>,
    disposed: bool,
    lastModified: int,
    bannerMessage: string,
    welcomeMessage: string,
    exitMessage: string,
    contentLength: int)

  /**
    A new response (either constructor): the given status, or none yet
    (status code 0 and a null description), no stream, and the field defaults.
   */
  function NewResponse(verb: string, status: Option<FtpStatus>): (r: FtpWebResponse)
    ensures r.verb == verb && r.stream.None? && !r.disposed
    ensures r.contentLength == -1 && r.lastModified == MinDate
    ensures r.bannerMessage == "" && r.welcomeMessage == "" && r.exitMessage == ""
    ensures status.Some? ==> r.statusCode == status.value.code && r.statusDescription == Some(status.value.description)
    ensures status.None? ==> r.statusCode == 0 && r.statusDescription.None?
    ensures !IsFinal(r) <==> status.None? || status.value.code < 200
  {
    var code := if status.Some? then status.value.code else 0;
    var description := if status.Some? then Some(status.value.description) else None;
    FtpWebResponse(code, description, verb, None, false, MinDate, "", "", "", -1)
  }

  /** `IsFinal`: a reply of class 2xx or above ends the exchange. */
  predicate IsFinal(r: FtpWebResponse) {
    r.statusCode >= 200
  }

  /** `UpdateStatus`: the code and the description are replaced, nothing else. */
  function UpdateStatus(r: FtpWebResponse, status: FtpStatus): (u: FtpWebResponse)
    ensures u.statusCode == status.code && u.statusDescription == Some(status.description)
    ensures u.(statusCode := r.statusCode, statusDescription := r.statusDescription) == r
    ensures IsFinal(u) <==> status.code >= 200
  {
    r.(statusCode := status.code, statusDescription := Some(status.description))
  }

  /** Only the last status counts. */
  lemma UpdateStatusLastWins(r: FtpWebResponse, a: FtpStatus, b: FtpStatus)
    ensures UpdateStatus(UpdateStatus(r, a), b) == UpdateStatus(r, b)
  {
  }

  /** The internal `Stream` setter. */
  function SetStream(r: FtpWebResponse, s: Option<ResponseStream>): (u: FtpWebResponse)
    ensures u.stream == s && u.(stream := r.stream) == r
  {
    r.(stream := s)
  }

  /**
    What `Close` did: the stream it closed, if any, and whether it told the
    request that the operation completed.
   */
  datatype Closing = Closing(response: FtpWebResponse, closed: Option<ResponseStream>, operationCompleted: bool)

  /**
    `Close`: the first call marks the response disposed, closes and forgets
    the stream, and reports completion to the request when the stream was
    `Stream.Null`; later calls do nothing.
   */
  function Close(r: FtpWebResponse): (c: Closing)
    ensures c.response.disposed
    ensures !r.disposed ==> c.response.stream.None?
    ensures r.disposed ==> c == Closing(r, None, false)
    ensures !r.disposed ==> c.closed == r.stream
    ensures c.operationCompleted <==> !r.disposed && r.stream == Some(NullStream)
    ensures c.response.(disposed := r.disposed, stream := r.stream) == r
  {
    if r.disposed then Closing(r, None, false)
    else Closing(r.(disposed := true, stream := None), r.stream, r.stream == Some(NullStream))
  }

  /** A second `Close` closes nothing and reports nothing. */
  lemma CloseIdempotent(r: FtpWebResponse)
    ensures var once := Close(r).response;
            Close(once) == Closing(once, None, false)
  {
  }

  /**
    `GetResponseStream`: `Stream.Null` when there is no stream; a disposed
    response refuses its stream unless the method is a download or a
    directory listing.
   */
  function GetResponseStream(r: FtpWebResponse): (s: Result<ResponseStream>)
    ensures r.stream.None? ==> s == Success(NullStream)
    ensures s.Failure? <==> r.stream.Some? && r.disposed && r.verb != DownloadFile && r.verb != ListDirectory
    ensures s.Failure? ==> s.error == ObjectDisposed
    ensures s.Success? && r.stream.Some? ==> s.value == r.stream.value
  {
    if r.stream.None? then Success(NullStream)
    else if r.verb != DownloadFile && r.verb != ListDirectory && r.disposed then Failure(ObjectDisposed)
    else Success(r.stream.value)
  }

  /**
    `Close` forgets the stream, so after it the response hands out
    `Stream.Null` for every method; the disposed check fires only for a stream
    attached after the response was closed.
   */
  lemma ClosedResponseStream(r: FtpWebResponse, s: ResponseStream)
    ensures !r.disposed ==> GetResponseStream(Close(r).response) == Success(NullStream)
    ensures var late := SetStream(Close(r).response, Some(s));
            GetResponseStream(late).Failure? <==> r.verb != DownloadFile && r.verb != ListDirectory
  {
  }
}

=== FILE: http_web_response.dfy ===
/**
  `HttpWebResponse`: the values a client reads off a received HTTP
  response (the character set of section 3.7.1 of RFC 2616, the
  Content-Length, the response headers), the response body stream, and
  close/dispose.

  Header names are case-insensitive (`WebHeaderCollection`): the header map
  is keyed by the lower-cased name. The body stream is known by identity.
 */
module HttpResponse {
  import opened Wrappers
  import opened Text

  /** Received headers, keyed by lower-cased name. */
  type Headers = map<string, string>

  /** The indexer `webHeaders[name]`: null when absent. */
  function Header(h: Headers, name: string): (v: Option<string>)
    ensures v.Some? <==> ToLower(name) in h
  {
    var key := ToLower(name);
    if key in h then Some(h[key]) else None
  }

  /** Header lookup ignores the case of the name. */
  lemma HeaderIgnoresCase(h: Headers, a: string, b: string)
    requires EqualsIgnoreCase(a, b)
    ensures Header(h, a) == Header(h, b)
  {
  }

  /** A header stored under its lower-cased name is found by any spelling of it. */
  lemma HeaderFound(h: Headers, name: string, value: string)
    ensures Header(h[ToLower(name) := value], name) == Some(value)
  {
  }

  /** The body: `Stream.Null`, or the stream of the connection. */
  datatype Body = NullBody | BodyStream(id: nat)

  datatype HttpWebResponse = HttpWebResponse(
    verb: string,                // the request method
    headers: Headers,
    statusCode: int,
    statusDescription: string,
    contentLength: int,
    stream: Option<nat>,
    disposed: bool)

  /** The default character set of section 3.7.1 of RFC 2616. */
  const DefaultCharset: string := "ISO-8859-1"

  /**
    The Content-Length the constructor records: the header's value when it is
    a 64-bit integer (`Int64.TryParse`), otherwise -1.
   */
  function ContentLengthOf(h: Headers): (n: int)
    ensures Int64Min <= n <= Int64Max
    ensures var v := Header(h, "Content-Length");
            (v.Some? && |v.value| > 0 && ParseInteger(v.value, Int64Min, Int64Max).Some?)
            ==> n == ParseInteger(v.value, Int64Min, Int64Max).value
    ensures var v := Header(h, "Content-Length");
            v.None? || |v.value| == 0 || ParseInteger(v.value, Int64Min, Int64Max).None? ==> n == -1
  {
    match Header(h, "Content-Length")
    case None => -1
    case Some(v) =>
      if |v| == 0 then -1
      else match ParseInteger(v, Int64Min, Int64Max)
        case None => -1
        case Some(n) => n
  }

  /** A length printed in decimal is read back as that length. */
  lemma ContentLengthRoundTrip(h: Headers, n: int)
    requires 0 <= n <= Int64Max
    ensures ContentLengthOf(h[ToLower("Content-Length") := IntToString(n)]) == n
  {
    ParseIntToString(n, Int64Min, Int64Max);
  }

  /** The constructor: the connection's status, headers and stream; not disposed. */
  function NewResponse(verb: string, headers: Headers, statusCode: int, statusDescription: string,
                       stream: Option<nat>): (r: HttpWebResponse)
    ensures r.contentLength == ContentLengthOf(headers) && !r.disposed
    ensures r.headers == headers && r.stream == stream && r.verb == verb
  {
    HttpWebResponse(verb, headers, statusCode, statusDescription, ContentLengthOf(headers), stream, false)
  }

  /** `CheckDisposed`. */
  function CheckDisposed(r: HttpWebResponse): (c: Result<bool>)
    ensures c.Success? <==> !r.disposed
    ensures c.Failure? ==> c.error == ObjectDisposed
  {
    if r.disposed then Failure(ObjectDisposed) else Success(true)
  }

  /** `ContentType`: the Content-Type header, or null. */
  function ContentType(r: HttpWebResponse): (t: Result<Option<string>>)
    ensures t.Success? <==> !r.disposed
    ensures t.Success? ==> t.value == Header(r.headers, "Content-Type")
  {
    var _ :- CheckDisposed(r);
    Success(Header(r.headers, "Content-Type"))
  }

  /**
    `CharacterSet`: the text after the first `charset=` of the Content-Type,
    found ignoring case and returned in its original case, up to the next `;`
    or the end; ISO-8859-1 when there is no Content-Type or no `charset=`.
   */
  function CharacterSet(r: HttpWebResponse): (cs: Result<string>)
    ensures cs.Success? <==> !r.disposed
    ensures cs.Failure? ==> cs.error == ObjectDisposed
    ensures cs.Success? && Header(r.headers, "Content-Type").None? ==> cs.value == DefaultCharset
    ensures cs.Success? && Header(r.headers, "Content-Type").Some? ==> cs.value == CharsetOf(Header(r.headers, "Content-Type").value)
  {
    var contentType :- ContentType(r);
    match contentType
    case None => Success(DefaultCharset)
    case Some(ct) => Success(CharsetOf(ct))
  }

  const CharsetKey: string := "charset="

  function CharsetOf(ct: string): (cs: string)
    ensures IndexOf(ToLower(ct), CharsetKey, 0).None? ==> cs == DefaultCharset
    ensures IndexOf(ToLower(ct), CharsetKey, 0).Some? ==>
              var pos := IndexOf(ToLower(ct), CharsetKey, 0).value + |CharsetKey|;
              && pos <= |ct| && StartsWith(ct[pos..], cs)
              && forall k :: 0 <= k < |cs| ==> cs[k] != ';'
  {
    var lower := ToLower(ct);
    match IndexOf(lower, CharsetKey, 0)
    case None => DefaultCharset
    case Some(p) =>
      var pos := p + |CharsetKey|;
      match IndexOfChar(lower, ';', pos)
      case None =>
        assert forall k :: pos <= k < |ct| ==> ct[k] != ';' by {
          forall k | pos <= k < |ct|
            ensures ct[k] != ';'
          {
            assert lower[k] == LowerChar(ct[k]);
          }
        }
        ct[pos..]
      case Some(q) =>
        assert forall k :: pos <= k < q ==> ct[k] != ';' by {
          forall k | pos <= k < q
            ensures ct[k] != ';'
          {
            assert lower[k] == LowerChar(ct[k]);
          }
        }
        assert ct[pos..q] == ct[pos..][..q - pos];
        ct[pos..q]
  }

  /**
    A Content-Type `media-type; charset=value[;...]` whose media type holds no
    `charset=` yields exactly `value`, in the case it was sent, whatever the
    case of the parameter name.
   */
  lemma CharsetRoundTrip(mediaType: string, key: string, value: string, rest: string)
    requires IndexOf(ToLower(mediaType), CharsetKey, 0).None?
    requires ToLower(key) == CharsetKey
    requires forall k :: 0 <= k < |value| ==> value[k] != ';'
    requires |rest| == 0 || rest[0] == ';'
    ensures CharsetOf(mediaType + "; " + key + value + rest) == value
  {
    var ct := mediaType + "; " + key + value + rest;
    FirstKeyAt(mediaType, key, value + rest);
    assert ct == (mediaType + "; " + key) + (value + rest);
    CharsetValue(ct, |mediaType| + 2, value, rest);
  }

  /** The value after the first `charset=` runs to the next `;`. */
  lemma CharsetValue(ct: string, p: nat, value: string, rest: string)
    requires IndexOf(ToLower(ct), CharsetKey, 0) == Some(p)
    requires p + |CharsetKey| <= |ct| && ct[p + |CharsetKey|..] == value + rest
    requires forall k :: 0 <= k < |value| ==> value[k] != ';'
    requires |rest| == 0 || rest[0] == ';'
    ensures CharsetOf(ct) == value
  {
    var lower := ToLower(ct);
    var pos := p + |CharsetKey|;
    assert ct[pos..pos + |value|] == value;
    NoSemicolonIn(ct, pos, value);
    if |rest| > 0 {
      assert ct[pos + |value|] == ';';
      assert lower[pos + |value|] == ';';
      IndexOfCharIs(lower, ';', pos, pos + |value|);
    } else {
      IndexOfCharNone(lower, ';', pos);
      assert ct[pos..] == value;
    }
  }

  /** A run without `;` has none in the lower-cased text either. */
  lemma NoSemicolonIn(ct: string, pos: nat, value: string)
    requires pos + |value| <= |ct| && ct[pos..pos + |value|] == value
    requires forall k :: 0 <= k < |value| ==> value[k] != ';'
    ensures forall j :: pos <= j < pos + |value| ==> ToLower(ct)[j] != ';'
  {
    forall j | pos <= j < pos + |value|
      ensures ToLower(ct)[j] != ';'
    {
      assert ct[j] == value[j - pos];
    }
  }

  /** The first `charset=` of such a Content-Type, ignoring case, is the one after `; `. */
  lemma FirstKeyAt(mediaType: string, key: string, tail: string)
    requires IndexOf(ToLower(mediaType), CharsetKey, 0).None?
    requires ToLower(key) == CharsetKey
    ensures IndexOf(ToLower(mediaType + "; " + key + tail), CharsetKey, 0) == Some(|mediaType| + 2)
  {
    var ct := mediaType + "; " + key + tail;
    var lower := ToLower(ct);
    var m := |mediaType|;
    assert |key| == 8;
    assert lower[m + 2..m + 10] == CharsetKey by {
      forall k | m + 2 <= k < m + 10
        ensures lower[k] == CharsetKey[k - m - 2]
      {
        assert ct[k] == key[k - m - 2];
      }
    }
    assert OccursAt(lower, CharsetKey, m + 2);
    forall k | 0 <= k < m + 2
      ensures !OccursAt(lower, CharsetKey, k)
    {
      NoKeyBefore(mediaType, key, tail, k);
    }
    IndexOfIs(lower, CharsetKey, 0, m + 2);
  }

  lemma NoKeyBefore(mediaType: string, key: string, tail: string, k: nat)
    requires IndexOf(ToLower(mediaType), CharsetKey, 0).None?
    requires |key| == 8
    requires k < |mediaType| + 2
    ensures !OccursAt(ToLower(mediaType + "; " + key + tail), CharsetKey, k)
  {
    var ct := mediaType + "; " + key + tail;
    var lower := ToLower(ct);
    var m := |mediaType|;
    if k + 8 <= m {
      assert lower[k..k + 8] == ToLower(mediaType)[k..k + 8] by {
        forall j | k <= j < k + 8
          ensures lower[j] == ToLower(mediaType)[j]
        {
          assert ct[j] == mediaType[j];
        }
      }
      assert !OccursAt(ToLower(mediaType), CharsetKey, k);
    } else if k <= m {
      assert ct[m] == ';';
      assert lower[k..k + 8][m - k] == lower[m];
    } else {
      assert ct[m + 1] == ' ';
      assert lower[k..k + 8][0] == lower[m + 1];
    }
  }

  /** `GetResponseHeader`: the header's value, or the empty string when it is absent. */
  function GetResponseHeader(r: HttpWebResponse, name: string): (v: Result<string>)
    ensures v.Success? <==> !r.disposed
    ensures v.Success? && ToLower(name) in r.headers ==> v.value == r.headers[ToLower(name)]
    ensures v.Success? && ToLower(name) !in r.headers ==> v.value == ""
  {
    var _ :- CheckDisposed(r);
    match Header(r.headers, name)
    case None => Success("")
    case Some(value) => Success(value)
  }

  /** `ContentEncoding`: the Content-Encoding header, or the empty string. */
  function ContentEncoding(r: HttpWebResponse): (v: Result<string>)
    ensures v == GetResponseHeader(r, "Content-Encoding")
  {
    var _ :- CheckDisposed(r);
    var h := Header(r.headers, "Content-Encoding");
    Success(if h.Some? then h.value else "")
  }

  /**
    `GetResponseStream`: `Stream.Null` when there is no stream or the method
    is `HEAD` in any case (a response to `HEAD` has no body, section 9.4 of
    RFC 2616); otherwise the connection's stream.
   */
  function GetResponseStream(r: HttpWebResponse): (b: Result<Body>)
    ensures b.Success? <==> !r.disposed
    ensures b.Success? ==> (b.value == NullBody <==> r.stream.None? || EqualsIgnoreCase(r.verb, "HEAD"))
    ensures b.Success? && b.value.BodyStream? ==> r.stream == Some(b.value.id)
  {
    var _ :- CheckDisposed(r);
    if r.stream.None? then Success(NullBody)
    else if EqualsIgnoreCase(r.verb, "HEAD") then Success(NullBody)
    else Success(BodyStream(r.stream.value))
  }

  /** What `Close` did: the response, and the stream it closed. */
  datatype Closing = Closing(response: HttpWebResponse, closed: Option<nat>)

  /** `Close`: forgets the stream and closes it; without a stream, nothing. */
  function Close(r: HttpWebResponse): (c: Closing)
    ensures c.response.stream.None? && c.closed == r.stream
    ensures c.response.(stream := r.stream) == r
  {
    Closing(r.(stream := None), r.stream)
  }

  /** A second `Close` closes nothing. */
  lemma CloseIdempotent(r: HttpWebResponse)
    ensures Close(Close(r).response) == Closing(Close(r).response, None)
  {
  }

  /** `Dispose`: marks the response disposed, then closes it. */
  function Dispose(r: HttpWebResponse): (c: Closing)
    ensures c.response.disposed && c.response.stream.None? && c.closed == r.stream
    ensures c.response.(disposed := r.disposed, stream := r.stream) == r
  {
    Close(r.(disposed := true))
  }

  /**
    After `Dispose` every accessor that checks for disposal throws; the
    Content-Length, which does not check, stays readable.
   */
  lemma DisposedResponse(r: HttpWebResponse, name: string)
    ensures var d := Dispose(r).response;
            && GetResponseStream(d) == Failure(ObjectDisposed)
            && GetResponseHeader(d, name) == Failure(ObjectDisposed)
            && ContentEncoding(d) == Failure(ObjectDisposed)
            && ContentType(d) == Failure(ObjectDisposed)
            && CharacterSet(d) == Failure(ObjectDisposed)
            && d.contentLength == r.contentLength
  {
  }

  /** A closed but undisposed response hands out `Stream.Null`. */
  lemma ClosedResponseBody(r: HttpWebResponse)
    requires !r.disposed
    ensures GetResponseStream(Close(r).response) == Success(NullBody)
  {
  }
}

=== FILE: socket_async_args.dfy ===
/**
  `SocketAsyncEventArgs`: the reusable argument object of an asynchronous
  socket operation — its data buffer or buffer list, the operation in
  flight, and disposal.

  Sockets, end points, user tokens and the worker are known only by whether
  they are set; the `End*` callbacks that do the socket I/O are reduced to
  which of them `DispatcherCB` would run.
 */
module SocketAsyncArgs {
  import opened Wrappers

  /** `SocketAsyncOperation`. */
  datatype Operation =
    | NoOperation | Accept | Connect | Disconnect | Receive | ReceiveFrom
    | ReceiveMessageFrom | Send | SendPackets | SendTo

  /** The socket error codes the model distinguishes; `NoSocketError` is `SocketError.Success`. */
  datatype SocketError = NoSocketError | OperationAborted | OtherError(code: int)

  datatype Args = Args(
    disposed: bool,
    inProgress: bool,                 // `in_progress`, only ever 0 or 1
    hasWorker: bool,
    buffer: Option<seq<byte>>,
    bufferList: Option<seq<seq<byte>>>,
    offset: int,
    count: int,
    bytesTransferred: int,
    lastOperation: Operation,
    hasAcceptSocket: bool,
    hasRemoteEndPoint: bool,
    hasUserToken: bool,
    hasSendPacketsElements: bool,
    disconnectReuseSocket: bool,
    sendPacketsSendSize: int,
    socketError: SocketError)

  /**
    The object's invariant: never both a buffer and a buffer list, and the
    window `Offset`/`Count` lies inside the buffer while there is one.
   */
  predicate Valid(a: Args) {
    && !(a.buffer.Some? && a.bufferList.Some?)
    && (a.buffer.Some? ==> 0 <= a.offset && 0 <= a.count && a.offset + a.count <= |a.buffer.value|)
  }

  /** The constructor's defaults. */
  function NewArgs(): (a: Args)
    ensures Valid(a) && !a.disposed && !a.inProgress && a.hasWorker
    ensures a.buffer.None? && a.bufferList.None? && a.offset == 0 && a.count == 0
    ensures a.lastOperation == NoOperation && a.socketError == NoSocketError
    ensures a.sendPacketsSendSize == -1 && a.bytesTransferred == 0
  {
    Args(false, false, true, None, None, 0, 0, 0, NoOperation,
         false, false, false, false, false, -1, NoSocketError)
  }

  /**
    `SetBuffer(buffer, offset, count)`. A buffer is refused while a buffer
    list is set, and the window must lie inside it; an offset equal to the
    length is accepted only for offset 0. A null buffer only clears `Buffer`.
   */
  function SetBufferInternal(a: Args, buffer: Option<seq<byte>>, offset: int, count: int): (r: Result<Args>)
    ensures buffer.None? ==> r == Success(a.(buffer := None))
    ensures buffer.Some? ==>
              (r.Success? <==> (&& a.bufferList.None?
                                && 0 <= offset && (offset == 0 || offset < |buffer.value|)
                                && 0 <= count && count <= |buffer.value| - offset))
    ensures buffer.Some? && a.bufferList.Some? ==> r == Failure(Argument)
    ensures buffer.Some? && a.bufferList.None? && r.Failure? ==> r.error == ArgumentOutOfRange
    ensures r.Success? && buffer.Some? ==> r.value == a.(buffer := buffer, offset := offset, count := count)
  {
    match buffer
    case None => Success(a.(buffer := None))
    case Some(b) =>
      if a.bufferList.Some? then Failure(Argument)
      else if offset < 0 || (offset != 0 && offset >= |b|) then Failure(ArgumentOutOfRange)
      else if count < 0 || count > |b| - offset then Failure(ArgumentOutOfRange)
      else Success(a.(buffer := buffer, offset := offset, count := count))
  }

  /** `SetBuffer(offset, count)`: a new window on the current buffer. */
  function SetWindow(a: Args, offset: int, count: int): (r: Result<Args>)
    ensures a.buffer.None? ==> r == Success(a)
    ensures a.buffer.Some? ==>
              (r.Success? <==> (&& a.bufferList.None?
                                && 0 <= offset && (offset == 0 || offset < |a.buffer.value|)
                                && 0 <= count && count <= |a.buffer.value| - offset))
    ensures r.Success? ==> r.value.buffer == a.buffer && r.value.bufferList == a.bufferList
  {
    SetBufferInternal(a, a.buffer, offset, count)
  }

  /** The `BufferList` setter: refused while a buffer is set, unless clearing. */
  function SetBufferList(a: Args, list: Option<seq<seq<byte>>>): (r: Result<Args>)
    ensures r.Success? <==> a.buffer.None? || list.None?
    ensures r.Failure? ==> r.error == Argument
    ensures r.Success? ==> r.value == a.(bufferList := list)
  {
    if a.buffer.Some? && list.Some? then Failure(Argument)
    else Success(a.(bufferList := list))
  }

  /**
    `SetLastOperation`: refused once disposed or while another operation is
    in flight; otherwise marks an operation in flight and records it.
   */
  function SetLastOperation(a: Args, op: Operation): (r: Result<Args>)
    ensures r.Success? <==> !a.disposed && !a.inProgress
    ensures a.disposed ==> r == Failure(ObjectDisposed)
    ensures !a.disposed && a.inProgress ==> r == Failure(InvalidOperation)
    ensures r.Success? ==> r.value == a.(inProgress := true, lastOperation := op)
  {
    if a.disposed then Failure(ObjectDisposed)
    else if a.inProgress then Failure(InvalidOperation)
    else Success(a.(inProgress := true, lastOperation := op))
  }

  /** The operations `DispatcherCB` has a completion callback for. */
  predicate Dispatched(op: Operation) {
    match op
    case Receive | Send | ReceiveFrom | SendTo | Accept | Disconnect | Connect => true
    case _ => false
  }

  /** What `DispatcherCB` did: the args afterwards and the callback it ran. */
  datatype Dispatch = Dispatch(args: Args, callback: Operation)

  /**
    `DispatcherCB`: an operation must be in flight; the flag is cleared and
    the completion callback of the recorded operation runs. Operations
    without a callback throw `NotImplementedException` after the flag is
    cleared.
   */
  function DispatcherCB(a: Args): (r: Result<Dispatch>)
    ensures !a.inProgress ==> r == Failure(InvalidOperation)
    ensures a.inProgress && !Dispatched(a.lastOperation) ==> r == Failure(NotImplemented)
    ensures r.Success? <==> a.inProgress && Dispatched(a.lastOperation)
    ensures r.Success? ==> r.value.callback == a.lastOperation && r.value.args == a.(inProgress := false)
  {
    if !a.inProgress then Failure(InvalidOperation)
    else if Dispatched(a.lastOperation) then Success(Dispatch(a.(inProgress := false), a.lastOperation))
    else Failure(NotImplemented)
  }

  /** The references `Dispose` drops. */
  function Cleared(a: Args): (c: Args)
    ensures c.buffer.None? && c.bufferList.None? && Valid(c)
    ensures !c.hasAcceptSocket && !c.hasRemoteEndPoint && !c.hasUserToken && !c.hasSendPacketsElements
  {
    a.(buffer := None, bufferList := None, hasAcceptSocket := false, hasRemoteEndPoint := false,
       hasUserToken := false, hasSendPacketsElements := false)
  }

  /**
    `Dispose(disposing)` as written: the flag is set before the early-return
    test reads it, so a `Dispose()` always returns at once; only the
    finalizer's `Dispose(false)` drops the references.
   */
  function DisposeAsWritten(a: Args, disposing: bool): (r: Args)
    ensures r.disposed
  {
    var a1 := a.(disposed := true);
    if disposing then
      if a1.disposed || a1.inProgress then a1
      else Cleared(a1.(hasWorker := false))
    else Cleared(a1)
  }

  /** `Dispose()` as written releases neither the worker nor any reference. */
  lemma DisposeClearsNothing(a: Args)
    requires !a.disposed && !a.inProgress && a.hasWorker && a.buffer.Some?
    ensures DisposeAsWritten(a, true) == a.(disposed := true)
    ensures DisposeAsWritten(a, true).hasWorker && DisposeAsWritten(a, true).buffer.Some?
  {
  }

  /**
    `Dispose(disposing)` as intended: an explicit `Dispose` returns early
    only if the object was already disposed or an operation is in flight;
    otherwise it releases the worker and drops the references.
   */
  function Dispose(a: Args, disposing: bool): (r: Args)
    ensures r.disposed
    ensures !disposing || (!a.disposed && !a.inProgress) ==> r.buffer.None? && r.bufferList.None? && !r.hasUserToken
    ensures disposing && !a.disposed && !a.inProgress ==> !r.hasWorker
    ensures disposing && !a.disposed && !a.inProgress ==> r == Cleared(a).(disposed := true, hasWorker := false)
    ensures disposing && (a.disposed || a.inProgress) ==> r == a.(disposed := true)
    ensures !disposing ==> r == Cleared(a).(disposed := true)
  {
    var a1 := a.(disposed := true);
    if disposing && (a.disposed || a.inProgress) then a1
    else if disposing then Cleared(a1.(hasWorker := false))
    else Cleared(a1)
  }

  /** A disposed object accepts no further operation. */
  lemma DisposedRefusesOperations(a: Args, disposing: bool, op: Operation)
    ensures SetLastOperation(Dispose(a, disposing), op) == Failure(ObjectDisposed)
    ensures SetLastOperation(DisposeAsWritten(a, disposing), op) == Failure(ObjectDisposed)
  {
  }

  /** A call on the object; failures leave it as it was. */
  datatype Call =
    | SetBufferCall(buffer: Option<seq<byte>>, offset: int, count: int)
    | SetWindowCall(offset: int, count: int)
    | SetBufferListCall(list: Option<seq<seq<byte>>>)
    | StartCall(op: Operation)
    | CompleteCall
    | DisposeCall(disposing: bool)

  function Step(a: Args, c: Call): (r: Args)
  {
    match c
    case SetBufferCall(b, o, n) => Keep(a, SetBufferInternal(a, b, o, n))
    case SetWindowCall(o, n) => Keep(a, SetWindow(a, o, n))
    case SetBufferListCall(l) => Keep(a, SetBufferList(a, l))
    case StartCall(op) => Keep(a, SetLastOperation(a, op))
    case CompleteCall =>
      (match DispatcherCB(a)
       case Success(d) => d.args
       case Failure(_) => a.(inProgress := false))
    case DisposeCall(disposing) => Dispose(a, disposing)
  }

  function Keep(a: Args, r: Result<Args>): Args {
    if r.Success? then r.value else a
  }

  /** Every call keeps the invariant. */
  lemma StepKeepsValid(a: Args, c: Call)
    requires Valid(a)
    ensures Valid(Step(a, c))
  {
    if c.SetBufferCall? || c.SetWindowCall? {
      BufferCallKeepsValid(a, c);
    } else {
      OtherCallKeepsValid(a, c);
    }
  }

  lemma BufferCallKeepsValid(a: Args, c: Call)
    requires Valid(a) && (c.SetBufferCall? || c.SetWindowCall?)
    ensures Valid(Step(a, c))
  {
    if c.SetBufferCall? {
      SetBufferKeepsValid(a, c.buffer, c.offset, c.count);
    } else {
      SetBufferKeepsValid(a, a.buffer, c.offset, c.count);
    }
  }

  lemma OtherCallKeepsValid(a: Args, c: Call)
    requires Valid(a) && !(c.SetBufferCall? || c.SetWindowCall?)
    ensures Valid(Step(a, c))
  {
    match c
    case SetBufferListCall(l) =>
      assert Step(a, c) == Keep(a, SetBufferList(a, l));
    case StartCall(op) =>
      assert Step(a, c) == Keep(a, SetLastOperation(a, op));
    case CompleteCall =>
      var b := a.(inProgress := false);
      assert Step(a, c) == b;
      assert Valid(b);
    case DisposeCall(disposing) =>
      var b := Dispose(a, disposing);
      assert Step(a, c) == b;
      assert Valid(b);
  }

  lemma SetBufferKeepsValid(a: Args, b: Option<seq<byte>>, o: int, n: int)
    requires Valid(a)
    ensures Valid(Keep(a, SetBufferInternal(a, b, o, n)))
  {
    var r := SetBufferInternal(a, b, o, n);
    if r.Success? && b.Some? {
      assert r.value == a.(buffer := b, offset := o, count := n);
    }
  }

  function Steps(a: Args, calls: seq<Call>): Args
    decreases |calls|
  {
    if |calls| == 0 then a else Steps(Step(a, calls[0]), calls[1..])
  }

  /**
    From construction on, whatever the calls, a buffer and a buffer list are
    never both set and the window stays inside the buffer.
   */
  lemma {:induction false} AlwaysValid(a: Args, calls: seq<Call>)
    requires Valid(a)
    ensures Valid(Steps(a, calls))
    decreases |calls|
  {
    if |calls| > 0 {
      StepKeepsValid(a, calls[0]);
      AlwaysValid(Step(a, calls[0]), calls[1..]);
    }
  }

  /** Once disposed, the object stays disposed and never starts an operation. */
  lemma {:induction false} DisposedStaysDisposed(a: Args, calls: seq<Call>)
    requires a.disposed
    ensures Steps(a, calls).disposed
    ensures Steps(a, calls).inProgress == (a.inProgress && forall i :: 0 <= i < |calls| ==> !calls[i].CompleteCall?)
    decreases |calls|
  {
    if |calls| > 0 {
      StepWhileDisposed(a, calls[0]);
      DisposedStaysDisposed(Step(a, calls[0]), calls[1..]);
      assert forall i :: 1 <= i < |calls| ==> calls[i] == calls[1..][i - 1];
    }
  }

  lemma StepWhileDisposed(a: Args, c: Call)
    requires a.disposed
    ensures Step(a, c).disposed
    ensures Step(a, c).inProgress == (a.inProgress && !c.CompleteCall?)
  {
    if c.SetBufferCall? || c.SetWindowCall? || c.SetBufferListCall? {
      BufferCallWhileDisposed(a, c);
    } else {
      OtherCallWhileDisposed(a, c);
    }
  }

  lemma BufferCallWhileDisposed(a: Args, c: Call)
    requires a.disposed && (c.SetBufferCall? || c.SetWindowCall? || c.SetBufferListCall?)
    ensures Step(a, c).disposed && Step(a, c).inProgress == a.inProgress
  {
    var r := if c.SetBufferCall? then SetBufferInternal(a, c.buffer, c.offset, c.count)
             else if c.SetWindowCall? then SetBufferInternal(a, a.buffer, c.offset, c.count)
             else SetBufferList(a, c.list);
    assert Step(a, c) == Keep(a, r);
  }

  lemma OtherCallWhileDisposed(a: Args, c: Call)
    requires a.disposed && (c.StartCall? || c.CompleteCall? || c.DisposeCall?)
    ensures Step(a, c).disposed
    ensures Step(a, c).inProgress == (a.inProgress && !c.CompleteCall?)
  {
    match c
    case StartCall(op) =>
      assert Step(a, c) == a;
    case CompleteCall =>
      assert Step(a, c) == a.(inProgress := false);
    case DisposeCall(disposing) =>
      assert Step(a, c) == Dispose(a, disposing);
  }
}

=== FILE: text.dfy ===
/**
  String and number helpers of the .NET base library that the modelled code
  relies on: ordinal prefix tests, searching, splitting and joining,
  ASCII case mapping, and the `Int32`/`Int64` `TryParse` and `ToString`
  conversions for decimal integers.

  Strings are sequences of Unicode scalar values (`char`); a .NET surrogate
  pair is one `char`. Every comparison here is ordinal.
 */
module Text {
  import opened Wrappers

  const Int32Min: int := -0x8000_0000
  const Int32Max: int := 0x7fff_ffff
  const Int64Min: int := -0x8000_0000_0000_0000
  const Int64Max: int := 0x7fff_ffff_ffff_ffff

  /** `s.StartsWith(p)` compared ordinally. */
  predicate StartsWith(s: string, p: string) {
    |p| <= |s| && s[..|p|] == p
  }

  /** `s.EndsWith(p)` compared ordinally. */
  predicate EndsWith(s: string, p: string) {
    |p| <= |s| && s[|s| - |p|..] == p
  }

  /** `Char.IsDigit`, restricted to the ASCII decimal digits. */
  predicate IsDigit(c: char) {
    '0' <= c <= '9'
  }

  /** The characters `NumberStyles.AllowLeadingWhite` skips: TAB..CR and space. */
  predicate IsWhite(c: char) {
    c == ' ' || '\t' <= c <= '\r'
  }

  predicate AllDigits(s: string) {
    forall i :: 0 <= i < |s| ==> IsDigit(s[i])
  }

  /** `Char.ToLower` on ASCII letters; every other character is kept. */
  function LowerChar(c: char): char {
    if 'A' <= c <= 'Z' then (c as int + 32) as char else c
  }

  function ToLower(s: string): (r: string)
    ensures |r| == |s|
    ensures forall i :: 0 <= i < |s| ==> r[i] == LowerChar(s[i])
  {
    seq(|s|, i requires 0 <= i < |s| => LowerChar(s[i]))
  }

  /** Ordinal, ASCII-case-insensitive equality (`StringComparison.OrdinalIgnoreCase`). */
  predicate EqualsIgnoreCase(a: string, b: string) {
    ToLower(a) == ToLower(b)
  }

  /** `sub` occurs in `s` starting at index `k`. */
  predicate OccursAt(s: string, sub: string, k: nat) {
    k + |sub| <= |s| && s[k..k + |sub|] == sub
  }

  /** `s.IndexOf(sub, from, StringComparison.Ordinal)`: the first occurrence at or after `from`. */
  function IndexOf(s: string, sub: string, from: nat): (r: Option<nat>)
    ensures r.Some? ==> from <= r.value && OccursAt(s, sub, r.value)
    ensures r.Some? ==> forall k :: from <= k < r.value ==> !OccursAt(s, sub, k)
    ensures r.None? ==> forall k :: from <= k ==> !OccursAt(s, sub, k)
    decreases |s| - from
  {
    if from + |sub| > |s| then None
    else if s[from..from + |sub|] == sub then Some(from)
    else IndexOf(s, sub, from + 1)
  }

  /** `s.IndexOf(c, from)`. */
  function IndexOfChar(s: string, c: char, from: nat): (r: Option<nat>)
    ensures r.Some? ==> from <= r.value < |s| && s[r.value] == c
    ensures r.Some? ==> forall k :: from <= k < r.value ==> s[k] != c
    ensures r.None? ==> forall k :: from <= k < |s| ==> s[k] != c
    decreases |s| - from
  {
    if from >= |s| then None
    else if s[from] == c then Some(from)
    else IndexOfChar(s, c, from + 1)
  }

  /** `IndexOf` finds the first occurrence. */
  lemma {:induction false} IndexOfIs(s: string, sub: string, from: nat, k: nat)
    requires from <= k && OccursAt(s, sub, k)
    requires forall j :: from <= j < k ==> !OccursAt(s, sub, j)
    ensures IndexOf(s, sub, from) == Some(k)
    decreases k - from
  {
    if from < k {
      IndexOfIs(s, sub, from + 1, k);
    }
  }

  /** `IndexOfChar` finds the first occurrence. */
  lemma {:induction false} IndexOfCharIs(s: string, c: char, from: nat, k: nat)
    requires from <= k < |s| && s[k] == c
    requires forall j :: from <= j < k ==> s[j] != c
    ensures IndexOfChar(s, c, from) == Some(k)
    decreases k - from
  {
    if from < k {
      IndexOfCharIs(s, c, from + 1, k);
    }
  }

  /** `IndexOfChar` finds nothing when the character is absent. */
  lemma {:induction false} IndexOfCharNone(s: string, c: char, from: nat)
    requires forall j :: from <= j < |s| ==> s[j] != c
    ensures IndexOfChar(s, c, from) == None
    decreases |s| - from
  {
    if from < |s| {
      IndexOfCharNone(s, c, from + 1);
    }
  }

  /** `String.Join(sep, parts)`. */
  function Join(sep: string, parts: seq<string>): string
    decreases |parts|
  {
    if |parts| == 0 then ""
    else if |parts| == 1 then parts[0]
    else parts[0] + sep + Join(sep, parts[1..])
  }

  /** `s.Split(new char[] { c })`: every piece between separators. */
  function Split(s: string, c: char): (r: seq<string>)
    ensures |r| >= 1
    decreases |s|
  {
    match IndexOfChar(s, c, 0)
    case None => [s]
    case Some(k) => [s[..k]] + Split(s[k + 1..], c)
  }

  /**
    `s.Split(new char[] { c }, n)`: at most `n` pieces; once `n - 1` pieces
    are cut, the last piece is the rest of the string, separators included.
   */
  function SplitN(s: string, c: char, n: nat): (r: seq<string>)
    requires n >= 1
    ensures 1 <= |r| <= n
    decreases n
  {
    if n == 1 then [s]
    else match IndexOfChar(s, c, 0)
      case None => [s]
      case Some(k) => [s[..k]] + SplitN(s[k + 1..], c, n - 1)
  }

  /** Splitting a join of separator-free pieces gives the pieces back. */
  lemma {:induction false} SplitJoin(parts: seq<string>, c: char)
    requires |parts| >= 1
    requires forall i, k :: 0 <= i < |parts| && 0 <= k < |parts[i]| ==> parts[i][k] != c
    ensures Split(Join([c], parts), c) == parts
    decreases |parts|
  {
    var s := Join([c], parts);
    if |parts| == 1 {
      assert s == parts[0];
      NoSeparator(parts[0], c);
    } else {
      var rest := Join([c], parts[1..]);
      assert s == parts[0] + [c] + rest;
      FirstSeparator(parts[0], c, rest);
      assert s[|parts[0]| + 1..] == rest;
      assert s[..|parts[0]|] == parts[0];
      SplitJoin(parts[1..], c);
      assert Split(s, c) == [parts[0]] + parts[1..];
    }
  }

  lemma NoSeparator(s: string, c: char)
    requires forall k :: 0 <= k < |s| ==> s[k] != c
    ensures IndexOfChar(s, c, 0).None?
  {
  }

  lemma FirstSeparator(a: string, c: char, b: string)
    requires forall k :: 0 <= k < |a| ==> a[k] != c
    ensures IndexOfChar(a + [c] + b, c, 0) == Some(|a|)
  {
    var s := a + [c] + b;
    assert s[|a|] == c;
    assert forall k :: 0 <= k < |a| ==> s[k] == a[k];
  }

  // ---------------------------------------------------------------------
  // Decimal integers

  function DigitChar(d: nat): (c: char)
    requires d < 10
    ensures IsDigit(c)
  {
    ('0' as int + d) as char
  }

  function DigitValue(c: char): (d: nat)
    requires IsDigit(c)
    ensures d < 10
  {
    c as int - '0' as int
  }

  /** The value of a run of decimal digits. */
  function DigitsValue(s: string): nat
    requires AllDigits(s)
    decreases |s|
  {
    if |s| == 0 then 0 else 10 * DigitsValue(s[..|s| - 1]) + DigitValue(s[|s| - 1])
  }

  /** `n.ToString()` for a non-negative `n`: digits without leading zeros. */
  function NatToString(n: nat): (r: string)
    ensures 1 <= |r| && AllDigits(r)
    ensures |r| > 1 ==> r[0] != '0'
    decreases n
  {
    if n < 10 then [DigitChar(n)] else NatToString(n / 10) + [DigitChar(n % 10)]
  }

  /** `n.ToString()` with the invariant culture. */
  function IntToString(n: int): string {
    if n < 0 then "-" + NatToString(-n) else NatToString(n)
  }

  lemma {:induction false} NatToStringValue(n: nat)
    ensures DigitsValue(NatToString(n)) == n
    decreases n
  {
    if n >= 10 {
      var s := NatToString(n);
      NatToStringValue(n / 10);
      assert s[..|s| - 1] == NatToString(n / 10);
    }
  }

  /** A leading zero does not change the value of a run of digits. */
  lemma {:induction false} LeadingZeroValue(d: string)
    requires AllDigits(d)
    ensures AllDigits("0" + d) && DigitsValue("0" + d) == DigitsValue(d)
    decreases |d|
  {
    var z := "0" + d;
    if |d| > 0 {
      assert z[..|z| - 1] == "0" + d[..|d| - 1];
      LeadingZeroValue(d[..|d| - 1]);
    } else {
      assert z[..0] == "";
    }
  }

  /** The index of the first non-white character at or after `i`. */
  function SkipWhite(s: string, i: nat): (k: nat)
    requires i <= |s|
    ensures i <= k <= |s|
    ensures forall j :: i <= j < k ==> IsWhite(s[j])
    ensures k < |s| ==> !IsWhite(s[k])
    decreases |s| - i
  {
    if i < |s| && IsWhite(s[i]) then SkipWhite(s, i + 1) else i
  }

  /** The index of the first non-digit at or after `i`. */
  function DigitRun(s: string, i: nat): (k: nat)
    requires i <= |s|
    ensures i <= k <= |s|
    ensures AllDigits(s[i..k])
    ensures k < |s| ==> !IsDigit(s[k])
    decreases |s| - i
  {
    if i < |s| && IsDigit(s[i]) then
      var k := DigitRun(s, i + 1);
      assert s[i..k] == [s[i]] + s[i + 1..k];
      k
    else i
  }

  /**
    `TryParse` with `NumberStyles.Integer`: optional white space, an optional
    `+` or `-`, at least one decimal digit, optional white space, and a value
    within `min..max` (the range of the target integer type).
   */
  function ParseInteger(s: string, min: int, max: int): (r: Option<int>)
    ensures r.Some? ==> min <= r.value <= max
  {
    var i := SkipWhite(s, 0);
    var j := if i < |s| && (s[i] == '-' || s[i] == '+') then i + 1 else i;
    var k := DigitRun(s, j);
    if k == j || SkipWhite(s, k) != |s| then None
    else
      var magnitude: int := DigitsValue(s[j..k]);
      var v := if i < |s| && s[i] == '-' then -magnitude else magnitude;
      if min <= v <= max then Some(v) else None
  }

  /** A string of one or more digits and nothing else is parsed to its value. */
  lemma DigitsParse(s: string, min: int, max: int)
    requires 1 <= |s| && AllDigits(s)
    requires min <= DigitsValue(s) <= max
    ensures ParseInteger(s, min, max) == Some(DigitsValue(s))
  {
    assert !IsWhite(s[0]);
    assert SkipWhite(s, 0) == 0;
    assert s[0] != '-' && s[0] != '+';
    DigitRunAll(s, 0);
    assert s[0..|s|] == s;
  }

  lemma {:induction false} DigitRunAll(s: string, i: nat)
    requires i <= |s| && AllDigits(s)
    ensures DigitRun(s, i) == |s|
    decreases |s| - i
  {
    if i < |s| {
      DigitRunAll(s, i + 1);
    }
  }

  /** Parsing what `ToString` prints gives the number back. */
  lemma ParseIntToString(n: int, min: int, max: int)
    requires min <= n <= max
    ensures ParseInteger(IntToString(n), min, max) == Some(n)
  {
    if n >= 0 {
      NatToStringValue(n);
      DigitsParse(NatToString(n), min, max);
    } else {
      var d := NatToString(-n);
      var s := IntToString(n);
      assert s == "-" + d;
      NatToStringValue(-n);
      assert !IsWhite(s[0]);
      assert SkipWhite(s, 0) == 0;
      DigitRunAll1(s);
      assert s[1..|s|] == d;
    }
  }

  lemma DigitRunAll1(s: string)
    requires 1 <= |s| && AllDigits(s[1..])
    ensures DigitRun(s, 1) == |s|
  {
    DigitRunShift(s, 1);
  }

  lemma {:induction false} DigitRunShift(s: string, i: nat)
    requires 1 <= i <= |s| && AllDigits(s[1..])
    ensures DigitRun(s, i) == |s|
    decreases |s| - i
  {
    if i < |s| {
      assert s[i] == s[1..][i - 1];
      DigitRunShift(s, i + 1);
    }
  }

  /** Two's-complement wrap-around of a 32-bit `int` result: the value in range that differs by a multiple of 2^32. */
  function Wrap32(x: int): (r: int)
    ensures Int32Min <= r <= Int32Max
    ensures Int32Min <= x <= Int32Max ==> r == x
    ensures (x - r) % 0x1_0000_0000 == 0
    decreases if x > Int32Max then x - Int32Max else if x < Int32Min then Int32Min - x else 0
  {
    if x > Int32Max then Wrap32(x - 0x1_0000_0000)
    else if x < Int32Min then Wrap32(x + 0x1_0000_0000)
    else x
  }

  /** The same for a 64-bit `long` result. */
  function Wrap64(x: int): (r: int)
    ensures Int64Min <= r <= Int64Max
    ensures Int64Min <= x <= Int64Max ==> r == x
    ensures (x - r) % 0x1_0000_0000_0000_0000 == 0
    decreases if x > Int64Max then x - Int64Max else if x < Int64Min then Int64Min - x else 0
  {
    if x > Int64Max then Wrap64(x - 0x1_0000_0000_0000_0000)
    else if x < Int64Min then Wrap64(x + 0x1_0000_0000_0000_0000)
    else x
  }

  // ---------------------------------------------------------------------
  // Ordinal order

  /** `String.CompareOrdinal(a, b) < 0`: the first differing code unit decides, a proper prefix comes first. */
  predicate OrdinalLess(a: string, b: string)
    decreases |a|
  {
    if |a| == 0 then |b| > 0
    else if |b| == 0 then false
    else if a[0] != b[0] then a[0] < b[0]
    else OrdinalLess(a[1..], b[1..])
  }

  lemma {:induction false} OrdinalLessIrreflexive(a: string)
    ensures !OrdinalLess(a, a)
    decreases |a|
  {
    if |a| > 0 {
      OrdinalLessIrreflexive(a[1..]);
    }
  }

  lemma {:induction false} OrdinalLessTransitive(a: string, b: string, c: string)
    requires OrdinalLess(a, b) && OrdinalLess(b, c)
    ensures OrdinalLess(a, c)
    decreases |a|
  {
    if |a| > 0 && a[0] == b[0] && b[0] == c[0] {
      OrdinalLessTransitive(a[1..], b[1..], c[1..]);
    }
  }

  /** The order is total: of two different strings one is less. */
  lemma {:induction false} OrdinalLessTotal(a: string, b: string)
    requires a != b
    ensures OrdinalLess(a, b) || OrdinalLess(b, a)
    decreases |a|
  {
    if |a| > 0 && |b| > 0 && a[0] == b[0] {
      assert a == [a[0]] + a[1..] && b == [b[0]] + b[1..];
      OrdinalLessTotal(a[1..], b[1..]);
    }
  }

  /** Strictly ascending in ordinal order. */
  predicate StrictlySorted(a: seq<string>) {
    forall i, j :: 0 <= i < j < |a| ==> OrdinalLess(a[i], a[j])
  }
}

=== FILE: wrappers.dfy ===
/**
  Failure-carrying values shared by every component of the model.

  The modelled code signals errors by throwing .NET exceptions; here each
  operation that can throw returns a `Result`, and `Exception` names the kind
  of exception thrown (the message text is not modelled).
 */
module Wrappers {

  /** An unsigned 8-bit value (`System.Byte`). */
  newtype byte = b: int | 0 <= b < 256

  /** Some value or nothing; stands for a nullable reference. */
  datatype Option<T> = None | Some(value: T)

  /** The `WebExceptionStatus` carried by a `WebException`. */
  datatype WebStatus = RequestCanceled | Timeout | ProtocolError | UnknownError

  /** The exception kinds thrown by the modelled code. */
  datatype Exception =
    | ArgumentNull
    | ArgumentOutOfRange
    | Argument
    | InvalidOperation
    | NotSupported
    | NotImplemented
    | ObjectDisposed
    | IOError
    | UnauthorizedAccess
    | DirectoryNotFound
    | FileNotFound
    | IndexOutOfRange
    | NullReference
    | ProtocolViolation
    | WebError(status: WebStatus)
    | HttpListenerError(code: int)

  /** The outcome of an operation that may throw. */
  datatype Result<T> = Success(value: T) | Failure(error: Exception) {

    predicate IsFailure() {
      Failure?
    }

    function PropagateFailure<U>(): Result<U>
      requires Failure?
    {
      Failure(error)
    }

    function Extract(): T
      requires Success?
    {
      value
    }
  }

  /** `Buffer.BlockCopy` into a byte array: `buffer` with `chunk` copied in at `offset`. */
  function CopyInto(buffer: seq<byte>, offset: nat, chunk: seq<byte>): (b: seq<byte>)
    requires offset + |chunk| <= |buffer|
    ensures |b| == |buffer| && b[offset..offset + |chunk|] == chunk
    ensures b[..offset] == buffer[..offset] && b[offset + |chunk|..] == buffer[offset + |chunk|..]
  {
    buffer[..offset] + chunk + buffer[offset + |chunk|..]
  }
}
